=== FILE: README.md ===
# Guardr core, modelled in Dafny

Guardr is a dating-safety and breach-checking service. This project models
the parts of it that decide things, as pure functions over immutable data:

- the Rust API server: error mapping (`errors.rs`), configuration checks
  (`config.rs`), subscription tiers and the database rules (`database.rs`),
  token issuing and checking (`auth.rs`), the request middleware
  (`middleware.rs`), the risk scores (`risk_score.rs`, `api/security.rs`),
  the weak-password list (`weak_pass.rs`), the breach-dump filters
  (`filter.rs`, `filtermain.rs`), and the handlers for auth, users, reports,
  the dating-safety checks and the public demo (`api/*.rs`);
- the Telegram bot `bt.py`: report formatting and truncation, the page
  keyboard, and the pagination callback;
- the home page's breach-check demo (`handleDemoSearch` in
  `website/src/app/page.tsx`), as a state machine with its result view.

Every clock reading is a parameter (`now`, seconds; `today`, a day number).
Database lookups, hashing, JWT encoding and decoding, random ids and keys,
and every network call are inputs to the functions that use them. JSON is a
datatype whose objects are field lists, so repeated keys and key order are
explicit. Lengths are counted in characters. Character classes are ASCII.
Fixed-width integers are modelled explicitly where they can overflow.

Modules follow the source: `Errors`, `Config`, `Tiers`, `Database`, `Auth`,
`AuthApi`, `Users`, `Reports`, `Middleware`, `RiskScore`, `WeakPass`,
`Security`, `Filters`, `Dating`, `DemoCheck`, `DemoForm` and `Telegram`.
They are built on small libraries: `Wrappers` (`Option`, `Result`), `Text`,
`Json`, `Seqs`, `Calendar` and `Uuids`.

## Model

| member | source | states |
|---|---|---|
| Auth.GenerateTokens | src/auth.rs:80-111 | both tokens carry the issue time; the access token lives `jwt_expiration_hours` hours and the refresh token `refresh_token_expiration_days` days; the subject parses back to the user's id, the tier text parses back to the user's tier, and the email is the user's |
| Auth.ExpiresIn | src/api/auth.rs:59 | the `expires_in` reported to clients equals the access token's lifetime in seconds, for every user and issue time |
| Auth.CheckExpiry | src/auth.rs:113-139 | the rule both token verifiers share: a decoded token is accepted iff its expiry is not before now, and then unchanged; a decoder failure is reported after the verifier's prefix ("Invalid token: " or "Invalid refresh token: "), and a stale token with its own message ("Token has expired" or "Refresh token has expired") |
| Auth.IssuedTokensValidUntilExpiry | src/auth.rs:80-139 | a freshly issued access (refresh) token verifies at time t iff t is at most its expiry second |
| Auth.BlacklistToken | src/auth.rs:141-149 | nothing is written when the expiry is not after now; otherwise the `blacklist:` key lives until the token's expiry |
| Auth.BlacklistCoversLifetime | src/auth.rs:141-156 | a blacklisted token stays listed while it is unexpired, the entry lapses at its expiry, and past the expiry the token is rejected as expired anyway |
| Auth.ValidatePasswordStrength | src/auth.rs:174-199 | accepted iff at least 8 characters with an upper-case letter, a lower-case letter, a digit and a non-alphanumeric character; a short password reports `password_too_short` |
| Auth.PasswordFirstFailure | src/auth.rs:174-199 | the reported code is that of a broken rule and every rule checked before it holds |
| Auth.ValidateRegister | src/auth.rs:202-215 | a field is listed iff it fails: email iff the address is invalid, password iff the strength rules fail, name iff it is given and empty; no other field |
| Auth.ValidateLogin | src/auth.rs:217-224 | email is listed iff invalid, password iff empty, no other field |
| Auth.ShortPasswordMessages | src/errors.rs:195-233 | a short password is reported twice, by the length rule ("Must be at least 8 characters long") and by the strength rule ("Password must be at least 8 characters long") |
| Auth.BearerToken | src/auth.rs:273-282 | a token is found iff the header exists, is readable and starts with "Bearer ", and the header is exactly the prefix followed by the token |
| Auth.BearerRoundTrip | src/auth.rs:273-277 | the header a client builds from a readable token yields that token |
| Auth.Decode | src/auth.rs:114-116 | the default-validation decoder accepts a token iff it is well formed, signed with the verifying secret, and its expiry lies at most 60 seconds in the past, and then yields its claims; a token signed with another secret fails with `InvalidSignature` |
| Auth.AuthenticateWith | src/auth.rs:272-302 | verifying with a given secret: succeeds iff a bearer token is present, decodes under that secret, is not expired, and carries a parseable user id and tier, and then returns exactly those; every failure is Unauthorized, a missing header with its own message |
| Auth.Authenticate | src/auth.rs:283-287 | the extractor as written verifies with the default secret, so only a token signed with "your-super-secret-jwt-key" can authenticate; every failure is Unauthorized |
| Auth.IssuedTokenRejectedAsWritten | src/auth.rs:283-287 | under settings that pass startup validation, a token the server issues is refused at any time with 401 "Invalid token: InvalidSignature" |
| Auth.IssuedTokenAuthenticates | src/auth.rs:272-302 | verifying with the secret of the application state, a request bearing a token issued to a user authenticates as that user, with the user's tier and email, until the token's expiry |
| Auth.ApiKeyAuthenticate | src/auth.rs:319-337 | API-key authentication always fails with 401; the message is "Missing API key" exactly when the header is absent or unreadable |
| Errors.StatusCode | src/errors.rs:69-98 | every status is a 4xx or 5xx, and client errors are below 500 |
| Errors.ErrorTypeInjective | src/errors.rs:100-121 | two errors have the same type name iff they are the same variant |
| Errors.UserMessageExposure | src/errors.rs:123-152 | only validation and bad-request errors show their own message (behind a fixed prefix); every other variant's user message ignores its payload |
| Errors.ShouldLogByStatus | src/errors.rs:154-165 | apart from database errors, an error goes unlogged iff its status is 400, 401, 403, 404 or 429 |
| Errors.ResponseBody | src/errors.rs:169-191 | the body has `success: false` and an `error` object whose `code` is the status and whose `type` is the type name |
| Errors.FromSecurityError | src/errors.rs:320-330 | every security error becomes a 400 bad request that is never logged |
| Errors.FromSecurityErrorInjective | src/errors.rs:320-330 | distinct security errors give distinct responses |
| Errors.FromAnyhow | src/errors.rs:236-240 | an unexpected error is a logged 500 with the generic user message |
| Errors.RateLimitError | src/errors.rs:288-294 | a 429 that is not logged and whose message names the window |
| Config.Default | src/config.rs:83-140 | default access tokens live 24 hours, refresh tokens 30 days, API keys are 32 bytes and the port is 3000 |
| Config.Validate | src/config.rs:196-213 | settings pass iff the JWT secret has at least 32 characters, the encryption key exactly 32 and the bcrypt cost lies in 10..15 |
| Config.ValidateOrder | src/config.rs:196-213 | the checks run in order: a short secret wins, then the key length, then the bcrypt cost |
| Config.DefaultFailsOnJwtSecret | src/config.rs:102 | the built-in defaults fail validation on their 25-character JWT secret |
| Config.DefaultKeyAlsoFails | src/config.rs:116 | with a long enough secret the defaults still fail, on their 35-character encryption key |
| Tiers.ToString | src/database.rs:39-47 | every tier prints as one of "free", "pro", "enterprise", in lower case |
| Tiers.FromStr | src/database.rs:49-60 | a text parses iff its lower-case form is a tier name, and then to the tier printing as that form; otherwise the error names the text |
| Tiers.RoundTrip | src/database.rs:39-60 | parsing a printed tier gives the tier back |
| Tiers.ToStringInjective | src/database.rs:39-47 | distinct tiers print differently |
| Tiers.CaseInsensitive | src/database.rs:52-58 | parsing ignores letter case |
| Tiers.ParseThenPrint | src/database.rs:39-60 | a parsed tier prints as the lower-case input and re-parses to the same tier |
| Database.CreateUser | src/database.rs:127-151 | a new user is a free, unverified, active account that has never logged in, created now with the given id, email and name |
| Database.GetUser | src/database.rs:153-173 | a lookup by email or by id finds a user iff some active user has that email (id), and the result is such a user |
| Database.CreateApiKey | src/database.rs:201-223 | a new key is active, unused, without expiry, created now, for the given user and prefix |
| Database.GetUserUsage | src/database.rs:338-349 | exactly the usage rows of that user and month |
| Database.ListUserApiKeys | src/database.rs:288-297 | exactly the user's active keys, newest first |
| Database.RevokeApiKey | src/database.rs:299-310 | deactivates exactly the key with that id owned by that user, changes nothing else, and reports whether such a key existed |
| Database.RevokeHidesKey | src/database.rs:288-310 | after revoking, the key no longer appears in its owner's list, and other users' lists are unchanged |
| Database.CreateSecurityReport | src/database.rs:351-382 | a new report is live exactly until 30 days after its creation |
| Database.VisibleReports | src/database.rs:384-401 | exactly the owner's unexpired reports, newest first |
| Database.GetUserReports | src/database.rs:384-401 | at most `limit` of the owner's unexpired reports, newest first |
| Database.GetReportById | src/database.rs:403-418 | found iff a report with that id belongs to the user and has not expired |
| Database.ExpiredReportsHidden | src/database.rs:361-418 | reports written with the 30-day expiry are never listed or fetched once 30 days old |
| Users.MonthlyLimit | src/api/users.rs:81-85 | the quota is 100, 5000 or 50000 requests |
| Users.MaxApiKeys | src/api/users.rs:170-174 | the key allowance is 2, 10 or 50 |
| Users.AllowancesGrowWithTier | src/api/users.rs:81-174 | a higher tier has a strictly larger quota and key allowance |
| Users.RequestsRemaining | src/api/users.rs:110 | the remainder never exceeds the quota, is zero iff the quota is used up, and adds up with the used count to the quota otherwise |
| Users.RemainingDecreases | src/api/users.rs:110 | one more request lowers the remainder by at most one and never raises it |
| Users.ResetDate | src/api/users.rs:92-104 | the corrected reset instant: a valid midnight on the first day of the following month |
| Users.ResetDateInFuture | src/api/users.rs:92-104 | the corrected reset instant always lies after now |
| Users.ResetDateAsWritten | src/api/users.rs:92-104 | the code as written always yields a valid instant |
| Users.ResetDateAsWrittenAgrees | src/api/users.rs:94-104 | the code as written agrees with the corrected date iff it is December or today's day exists in the next month |
| Users.ResetDateAsWrittenJanuary31 | src/api/users.rs:94-104 | on 31 January the code as written returns now instead of 1 February |
| Users.ProfileUsage | src/api/users.rs:74-113 | the month is the current `YYYY-MM`; the quota is the tier's; the used count is the sum of the month's counters; the remainder is `RequestsRemaining` of the quota and the used count, so it is zero once the quota is used up and otherwise makes up the quota with the used count; the endpoint rows are the month's rows in order; the reset date is the code's own, which is the intended one iff it is December or today's day exists in the next month |
| Users.KeyPrefix | src/api/users.rs:187 | the stored prefix is the first 8 characters of the key (all of a shorter key) |
| Users.KeyPrefixStable | src/api/users.rs:187 | taking the prefix twice changes nothing, and extending a long key keeps its prefix |
| Users.CreateApiKey | src/api/users.rs:163-211 | refused iff the user already has as many active keys as the tier allows, with the message naming tier and allowance; otherwise the returned key is the generated one and the stored row carries its prefix and hash |
| Users.RevokeApiKey | src/api/users.rs:213-233 | an unparseable id is a bad request; success iff the user owns a key with that id, which is then deactivated; otherwise not found |
| Users.RevokeByPrintedId | src/api/users.rs:213-233 | revoking a key by the id printed for it succeeds and deactivates that key |
| AuthApi.Respond | src/api/auth.rs:56-61 | the reported lifetime is the access token's, the access token expires exactly that long after now, and the profile's id and tier read back as the user's |
| AuthApi.Register | src/api/auth.rs:11-62 | a request that fails validation gets the rendered validation error; registration succeeds iff validation passes, the passwords match and no active account has the email, and then appends exactly the new free user and shows a full free quota |
| AuthApi.RegisterCheckOrder | src/api/auth.rs:15-28 | the mismatch error is reported only after validation passed, and the duplicate-email error only after validation and confirmation passed |
| AuthApi.CurrentUsage | src/api/auth.rs:89-112 | the used count is the sum of this month's counters; the quota is the tier's; the remainder is `RequestsRemaining` of the quota and the used count: zero once the quota is used up, otherwise what makes up the quota; the reset date is the present moment |
| AuthApi.RecordLogin | src/database.rs:175-185 | the logged-in user's `last_login` becomes now and every other row is unchanged |
| AuthApi.Login | src/api/auth.rs:64-122 | invalid input gets the rendered validation error; login succeeds iff validation passes, an active account has the email and the password matches, and then records the login and shows the month's usage |
| AuthApi.LoginDoesNotRevealAccounts | src/api/auth.rs:73-81 | an unknown email gets the same 401 "Invalid credentials" as a wrong password for an existing account, whatever the password check would say |
| AuthApi.WrongPasswordLikeUnknownAccount | src/api/auth.rs:77-81 | a wrong password is always "Invalid credentials" with 401 |
| AuthApi.RefreshAsWritten | src/api/auth.rs:124-172 | as written, every refresh token that fails verification (malformed or expired) ends in a 500 |
| AuthApi.RefreshWithClaims | src/api/auth.rs:131-172 | after verification, refresh succeeds iff the subject parses and names an active user, the new access token carries that subject, and every failure is a 401 |
| AuthApi.RefreshAsWrittenExpiredIs500 | src/api/auth.rs:129 | a token expired one second ago gets a 500 from the code as written and a 401 from the corrected handler |
| AuthApi.Refresh | src/api/auth.rs:124-172 | the corrected handler: every failure is a 401, a verification failure keeps its message, and a new access token is for the token's subject |
| AuthApi.RefreshAgreesAfterVerification | src/api/auth.rs:124-172 | for tokens that verify, the corrected and as-written handlers agree |
| Reports.PageNumber | src/api/reports.rs:66 | the page is at least 1: a missing or zero page becomes 1, any other page is kept |
| Reports.PerPage | src/api/reports.rs:67 | the page size never exceeds 100: missing gives 20, larger requests are capped at 100, others are kept |
| Reports.Offset | src/api/reports.rs:68 | the mathematical offset is a whole number of pages and is exactly `page - 1` pages |
| Reports.OffsetAsWritten | src/api/reports.rs:68 | the 32-bit product agrees with the mathematical offset whenever that offset fits in 32 bits |
| Reports.OffsetAsWrittenWraps | src/api/reports.rs:68 | page 42949674 at 100 per page should skip 4294967300 rows, but the 32-bit product skips 4 |
| Reports.ApplyFilters | src/api/reports.rs:75-95 | a report survives exactly when it matches the type and the inclusive date range, and newest-first order is kept |
| Reports.ApplyFiltersIsOneFilter | src/api/reports.rs:75-95 | the type filter followed by the date filter equals one filter by the conjunction |
| Reports.Summaries | src/api/reports.rs:97-105 | one summary per report, in order |
| Reports.SummariesFacts | src/api/reports.rs:97-105 | every summary comes from some report, and newest-first order carries over to the summaries |
| Reports.CeilDiv | src/api/reports.rs:109 | the page count is the least n with n pages covering the items, and is at most 1 when the items fit on one page |
| Reports.TotalPages | src/api/reports.rs:108-109 | the float ceiling gives the least covering page count; no items give 0; a zero page size with items saturates to the 32-bit maximum |
| Reports.ListAt | src/api/reports.rs:61-122 | for a given offset: the echoed page and size are the normalised ones, at most one page of reports is returned, the summaries are exactly those of the fetched database page's reports that match the query (each listed one comes from a visible matching report, and every matching report of the page is listed), newest first, and the total counts only this page |
| Reports.ListReports | src/api/reports.rs:61-122 | the corrected listing: page at least 1, size at most 100, every listed summary comes from a visible matching report, every matching report of the requested database page is listed, and total_pages is never more than 1 |
| Reports.ListReportsAsWritten | src/api/reports.rs:61-122 | the listing as written agrees with the corrected one whenever the offset fits in 32 bits |
| Reports.ListAtUnfiltered | src/api/reports.rs:72-95 | without filters the listing is exactly the summaries of the database page |
| Reports.RowPage | src/api/reports.rs:68 | row i lies inside the window of page `i / per_page + 1`, which is a valid page number |
| Reports.ListedOnPage | src/api/reports.rs:61-122 | every visible report whose index falls in the page's window is listed on that page |
| Reports.ListedWhenMatching | src/api/reports.rs:66-95 | with any type and date filters, a visible report whose index falls in the requested page's window and that matches the filters is listed |
| Reports.ListedOnItsPage | src/api/reports.rs:61-122 | every visible report is listed on page `i / per_page + 1`: pagination loses nothing |
| Reports.ListReportsAsWrittenFarPage | src/api/reports.rs:68 | with at least five reports, the far page 42949674 is empty when corrected but non-empty as written |
| Reports.FindReport | src/api/reports.rs:129-133 | an unparsable id is a 400 "Invalid report ID"; otherwise the lookup succeeds iff a live report with that id belongs to the user, and fails with 404 "Report not found" |
| Reports.GetReport | src/api/reports.rs:124-147 | lookup errors pass through, unparsable stored results give a 500 naming the parse error, and a found report keeps its id |
| Reports.OwnReportReadable | src/api/reports.rs:124-133 | any live report can be fetched by its owner using its own id |
| Reports.DeleteReport | src/api/reports.rs:149-169 | fails exactly when the lookup fails, with the same error; on success it reports success and leaves the stored reports unchanged |
| Reports.ExportReports | src/api/reports.rs:171-205 | free-tier users get 403 and only they do; otherwise the export is the query's filter applied to the newest 1000 of the user's live reports, so each exported report is the user's own, live and matching |
| Reports.ExportIsEveryMatch | src/api/reports.rs:182-204 | while the user has at most 1000 live reports, a report is exported iff it is the user's, live, and matches the query |
| Reports.AdminGate | src/api/reports.rs:268-271 | admin endpoints admit exactly the enterprise tier, refusing others with 403 "Admin access required" |
| Reports.AdminMayExport | src/api/reports.rs:171-179 | whoever passes the admin gate may also export |
| Reports.AddBreachSource | src/api/reports.rs:288-311 | refused exactly when the admin gate refuses; a new source keeps the given name and URL, starts with 0 records and is active |
| Middleware.Readable | src/middleware.rs:64-65 | a header is usable exactly when present and convertible to a string, and then its value is returned unchanged |
| Middleware.FirstField | src/middleware.rs:67 | the first comma-separated field is a prefix of the value, holds no comma, and is followed by a comma unless it is the whole value |
| Middleware.ForwardedClient | src/middleware.rs:67-68 | the client taken from X-Forwarded-For is the text before the first comma less only the whitespace at its two ends; it occurs in the header, holds no comma, and has no surrounding whitespace |
| Middleware.ExtractIp | src/middleware.rs:62-86 | X-Forwarded-For wins whenever readable and then always yields its trimmed first field; otherwise X-Real-IP, then CF-Connecting-IP, verbatim; none readable gives nothing |
| Middleware.ForwardedForNamesClient | src/middleware.rs:64-69 | a header `ip,proxies` with a trimmed, comma-free ip yields exactly that ip |
| Middleware.FirstFieldUpToComma | src/middleware.rs:67 | the first field of `ip,rest` is ip when ip has no comma |
| Middleware.RateLimitKey | src/middleware.rs:37-39 | the limiter key is the extracted address, or "unknown" when there is none |
| Middleware.EmptyForwardedForKey | src/middleware.rs:37-39 | a forwarded list that starts with a comma gives the empty key rather than "unknown" |
| Middleware.RateLimit | src/middleware.rs:26-60 | a zero quota panics; otherwise the request is admitted under its key and never rejected, since a fresh limiter is built for every request |
| Middleware.SubscriptionGate | src/middleware.rs:215-250 | requests without a user pass; the first matching rule decides: bulk paths refuse only free users, admin paths refuse all but enterprise, export paths refuse free users; other paths pass; every refusal is a 403 |
| Middleware.GateMonotoneInTier | src/middleware.rs:215-250 | a higher tier passes wherever a lower tier passes |
| Middleware.FirstMatchingRuleDecides | src/middleware.rs:223-245 | a pro user passes `/admin/bulk-import` because the bulk rule is checked first, but is refused at `/admin/` |
| WeakPass.SplitNewlines | src/weak_pass.rs:7 | splitting at newlines gives at least one piece and no piece holds a newline |
| WeakPass.JoinSplit | src/weak_pass.rs:7 | joining the pieces with newlines gives back the text |
| WeakPass.SplitJoin | src/weak_pass.rs:7 | splitting newline-free pieces joined by newlines gives back the pieces |
| WeakPass.TokenStopsAtNewline | src/weak_pass.rs:7 | a line ends at the first newline |
| WeakPass.StripCarriageReturn | src/weak_pass.rs:7 | `lines()` removes at most one carriage return at the end of a line |
| WeakPass.StripCarriageReturns | src/weak_pass.rs:7 | every line is stripped the same way, in order |
| WeakPass.Lines | src/weak_pass.rs:7 | an empty file has no lines |
| WeakPass.TrimLine | src/weak_pass.rs:7 | a trimmed line is the line less only the whitespace at its two ends, and neither starts nor ends with whitespace |
| WeakPass.Elements | src/weak_pass.rs:7 | collecting into a set keeps exactly the elements and never grows |
| WeakPass.LoadPasswordList | src/weak_pass.rs:4-9 | the set holds exactly the trimmed lines of the file, none with surrounding whitespace, and no more entries than lines |
| WeakPass.TrimmedElements | src/weak_pass.rs:7 | the set of trimmed lines holds each trimmed line and nothing else |
| WeakPass.PaddedNeverWeak | src/weak_pass.rs:11-13 | a password with leading or trailing whitespace is never found in any loaded list |
| WeakPass.LoadRoundTrip | src/weak_pass.rs:4-9 | a file written from trimmed, non-empty, newline-free passwords loads back as exactly those passwords |
| WeakPass.LinesOfJoin | src/weak_pass.rs:7 | `lines()` of passwords joined by newlines gives back the passwords |
| WeakPass.TrimLinesUnchanged | src/weak_pass.rs:7 | trimming already trimmed lines changes nothing |
| RiskScore.IsRecentBreach | src/risk_score.rs:29-38 | an unparsable date is never recent; a parsed date is recent iff it is later than 365 days before today |
| RiskScore.CalculateRiskScore | src/risk_score.rs:4-27 | the score is one of 0, 20, 40, 60, 80, 100; at least 80 iff the password is listed and the breach is recent; at least 40 iff either; 20 more iff the entry was seen more than once |
| RiskScore.WeakPasswordAdds40 | src/risk_score.rs:8-12 | listing the entry's password raises its score by exactly 40 |
| RiskScore.WeakListMonotone | src/risk_score.rs:8-12 | a larger weak-password list never lowers a score |
| RiskScore.RecencyFades | src/risk_score.rs:19-24 | as time passes a score never rises |
| RiskScore.FormattedDateRecent | src/risk_score.rs:29-38 | a valid date written as YYYY-MM-DD is recent iff it is later than 365 days before today |
| Filters.ResultArray | src/filter.rs:13 | an array under `result` is found only in an object |
| Filters.BasicFilter | src/filter.rs:13-21 | a document without a `result` array is unchanged; otherwise every other key keeps its value and `result` keeps exactly the entries whose email does not mention the blocked address |
| Filters.BasicFilterKeepsOrder | src/filter.rs:14-20 | the surviving entries keep their original order |
| Filters.BasicFilterIdempotent | src/filter.rs:13-21 | filtering twice is filtering once |
| Filters.SetFieldTwice | src/filtermain.rs:28 | setting the same key to the same value twice is setting it once |
| Filters.SetFieldValues | src/filtermain.rs:28 | after setting a key, every field with that key holds the new value |
| Filters.Flag | src/filtermain.rs:25-31 | an entry whose password holds a weak pattern gains `weak_password: true` and nothing else changes; other entries are untouched |
| Filters.FlagAll | src/filtermain.rs:25-31 | every entry is flagged the same way, in order |
| Filters.FlagKeepsKeys | src/filtermain.rs:25-31 | flagging changes neither the email, the block decision nor the breach date |
| Filters.StrLtIsStrictTotalOrder | src/filtermain.rs:19-23 | byte-wise string comparison is a strict total order, so the sort is well defined |
| Filters.Ordered | src/filtermain.rs:10-23 | the kept entries are a permutation of the unblocked entries, sorted by breach date newest first |
| Filters.AdvancedFilter | src/filtermain.rs:4-38 | a non-array document is unchanged; an array never grows, keeps only unblocked entries, and is ordered by breach date, newest first |
| Filters.FlaggedFacts | src/filtermain.rs:10-31 | after flagging, the entries are still unblocked, no more than before, and still in date order |
| Filters.FlaggedKept | src/filtermain.rs:25-31 | flagging an unblocked entry keeps it unblocked |
| Filters.InFiltered | src/filtermain.rs:11-17 | whatever survives the retain step is unblocked |
| Filters.FlaggedSorted | src/filtermain.rs:19-31 | flagging a date-ordered list keeps it date-ordered |
| Filters.AdvancedFilterIsStableReorder | src/filtermain.rs:10-31 | the result is the flagged sorted list; it is a permutation of the unblocked entries; and entries with equal dates keep their relative order, as `sort_by` is stable |
| Filters.AdvancedKeepsEntriesWithoutEmail | src/filtermain.rs:12-16 | an entry without a string email is never dropped |
| Security.CommonPatternIgnoresCase | src/api/security.rs:144-154 | the pattern test only sees the lower-cased password |
| Security.LengthPoints | src/api/security.rs:127-130 | length earns nothing below 8 characters, 20 for 8 to 11, 30 for 12 to 15 and 40 from 16 on |
| Security.VarietyPoints | src/api/security.rs:132-136 | character variety earns at most 45 points; nothing only for the empty password; all 45 exactly when every class occurs; an odd multiple of 5 exactly when a symbol occurs |
| Security.VarietyPerClass | src/api/security.rs:132-136 | one more character adds 10 for a new lower-case, upper-case or digit class, 15 for a new symbol class, and nothing for a class already present |
| Security.AnyCharAppendIff | src/api/security.rs:132-136 | a class occurs in a longer password iff it occurred before or the new character belongs to it |
| Security.SaturatingSub | src/api/security.rs:139 | the penalty never makes the score negative and otherwise subtracts exactly |
| Security.PasswordStrength | src/api/security.rs:124-142 | the strength is the length points plus the variety points, less 20 (never below 0) with a common pattern; it is at most 85, so the cap at 100 never binds; at most 65 with a common pattern, at most 45 below 8 characters, and at least 40 for 16 characters without one |
| Security.MinNat | src/api/security.rs:141 | the minimum is one of the two and below both |
| Security.AppendNeverLowersStrength | src/api/security.rs:124-142 | adding a character never lowers the strength unless it creates a common pattern |
| Security.CapitalisedPatternPenalised | src/api/security.rs:144-154 | "Password123!" scores 55: all four kinds of character, but the lower-cased pattern costs 20 |
| Security.BreachRiskScore | src/api/security.rs:267-282 | no breaches score 10; otherwise between 40 and 90, at least 60 with a breach in the last year, at most 70 without |
| Security.EachBreachAddsTen | src/api/security.rs:278 | while recency is unchanged, each of the first four breaches adds 10 to the score |
| Security.RecencyAddsTwenty | src/api/security.rs:279 | a breach within the last year adds 20 over the same number of older breaches, and one old breach scores 40 |
| Security.MoreBreachesNeverLower | src/api/security.rs:267-282 | one more breach never lowers the score |
| Security.BreachCountSaturates | src/api/security.rs:278 | beyond four breaches the count stops mattering |
| Security.BreachRiskFades | src/api/security.rs:269-276 | as time passes the breach score never rises |
| Security.BreachRecommendations | src/api/security.rs:300-312 | two pieces of advice without breaches; three with breaches, a fourth above two breaches, starting with changing passwords |
| Security.CheckBreach | src/api/security.rs:251-344 | the response echoes the email, counts the breaches, is breached iff the count is positive iff the score is at least 40, carries the breach risk score of its breach dates and the advice for its breach count, which is 2, 3 or 4 pieces |
| Security.CapAdd | src/api/security.rs:384 | a capped addition never exceeds 100 and never lowers a total already within the cap |
| Security.CapAddTwice | src/api/security.rs:384-410 | capping after each addition equals capping the sum once |
| Security.EmailImpact | src/api/security.rs:383 | email breaches add 10 each up to three, and 30 from three on |
| Security.RiskEntry | src/api/security.rs:356-371 | the synthetic entry carries the given email and password |
| Security.SimulatedDateText | src/api/security.rs:369 | the simulated breach date is the valid date 2024-01-01 |
| Security.BaseRiskOfEntry | src/api/security.rs:373 | the base score of the synthetic entry is 40 for a listed password plus 40 if 2024-01-01 is within the last year |
| Security.EntryOccursOnce | src/api/security.rs:361 | the synthetic entry occurs once, so it never earns repetition points |
| Security.EntrySource | src/api/security.rs:366-370 | the synthetic entry's source is just the breach date |
| Security.RiskRecommendations | src/api/security.rs:420-433 | four pieces of advice above 70, three above 40, two otherwise |
| Security.AssessRisk | src/api/security.rs:346-462 | the risk is at most 100; the advice follows it; an email-breach factor appears iff the email was breached; without a password at most one factor; no factor weighs more than 40 |
| Security.TotalRisk | src/api/security.rs:377-416 | the total is the capped sum of the base score and every applicable impact |
| Security.RiskFactors | src/api/security.rs:380-417 | one factor per applicable finding, each weighing at most 40 |
| Security.AssessRiskIsCappedSum | src/api/security.rs:346-462 | the assessment equals the base score plus 10 per email breach up to 30, 40 for a breached password and 20 for a listed one, capped at 100 |
| Security.ListedPasswordIsHighRisk | src/api/security.rs:373-433 | while 2024-01-01 is within the last year, a listed password alone gives 100 and four pieces of advice |
| Security.MaxBulkSize | src/api/security.rs:475-479 | a batch is limited to 10, 100 or 1000 items, and to 10 exactly for the free tier |
| Security.BulkSizeGrowsWithTier | src/api/security.rs:475-479 | a higher tier may check at least ten times as many items |
| Security.PasswordAt | src/api/security.rs:509-510 | a password is paired with an email exactly when the list exists and is long enough |
| Security.CheckItem | src/api/security.rs:496-536 | an item echoes its email and breach state, reports weakness iff a password was paired, weak iff listed, and scores between 10 and 100 |
| Security.HighRiskNeedsBreachedEmail | src/api/security.rs:505-529 | an item is high risk iff its email is breached and its password is listed or breached |
| Security.BulkSecurityCheck | src/api/security.rs:464-570 | free users get 403; lists above the tier's limit get 400; otherwise one result per email, in order, and the summary counts exactly the breached, high-risk and weak items |
| Security.CheckAll | src/api/security.rs:491-545 | the loop gives one result per email, in order, each the item check of that email and the password at its index, and counts exactly the breached, high-risk and weak results |
| Security.BulkCountsBounded | src/api/security.rs:539-544 | no summary count exceeds the number of items |
| Security.CountJsonEntries | src/api/security.rs:629-644 | an array counts its items, an object its `result` array, anything else 0, all truncated to 32 bits |
| Security.FilterData | src/api/security.rs:572-627 | only "basic" and "advanced" are accepted, others get 400; the applied filter is echoed, and the removed count never exceeds the original count |
| Security.BasicRemovedCount | src/api/security.rs:591-614 | the basic filter reports exactly the entries it dropped |
| Security.AdvancedRemovedCount | src/api/security.rs:591-614 | the advanced filter reports exactly the entries it dropped |
| Security.AdvancedKeepsCount | src/filtermain.rs:10-32 | the advanced filter keeps exactly the unblocked entries |
| Security.FiltersExpectDifferentShapes | src/api/security.rs:594-614 | the basic filter leaves a bare array alone and the advanced filter leaves an object alone, each reporting 0 removed |
| Dating.PatternHits | src/api/dating.rs:203-211 | a message matches at most as many pressure phrases as there are |
| Dating.PressureTotalBound | src/api/dating.rs:197-215 | the total is at most ten per message |
| Dating.DetectPressureIndicators | src/api/dating.rs:197-215 | the loop counts, over all messages, the pressure phrases each lower-cased message contains, at most ten per message |
| Dating.PressureTotalAppend | src/api/dating.rs:197-215 | the count of a conversation is the sum of the counts of its parts |
| Dating.PressureIgnoresCase | src/api/dating.rs:203 | phrase matching only sees the lower-cased message |
| Dating.AnalyzeConsistency | src/api/dating.rs:217-257 | only a name is checked: it counts as verified iff it occurs in some message, else unverified with one inconsistency; an age outside 18 to 80 is suspicious; the score is 100 for a verified name and 0 otherwise |
| Dating.VerifyIdentityClaims | src/api/dating.rs:469-532 | a given name and a given age are listed as verified, a missing location and a missing occupation as unverified; an age outside 18 to 80 is suspicious; three recommendations are given |
| Dating.ImplausibleAgeStillVerified | src/api/dating.rs:489-501 | an implausible age is flagged suspicious yet still listed as a verified claim |
| Dating.RiskLevelAsWritten | src/api/dating.rs:342-347 | as written, a score is rated critical exactly when it is negative, above 75, or inside one of the gaps (25, 25.1) and (50, 50.1) |
| Dating.RiskLevelGap | src/api/dating.rs:342-347 | as written, 25.05 and 50.05 fall between the ranges and read as critical, while 26.0 is medium |
| Dating.RiskLevel | src/api/dating.rs:342-347 | the corrected level: critical iff above 75, low iff at most 25 |
| Dating.RiskLevelMonotone | src/api/dating.rs:342-347 | a higher score never gives a lower level |
| Dating.RiskLevelAgreesOutsideGaps | src/api/dating.rs:342-347 | for non-negative scores outside the two gaps the as-written and corrected levels agree |
| Dating.Advice | src/api/dating.rs:397-419 | critical and high give three recommendations, medium two, low one, and one safety tip each |
| Dating.Indicators | src/api/dating.rs:349-369 | the love-bombing indicator appears exactly when its score is above 30, the pressure indicator exactly when more than two phrases were found |
| Dating.RedFlags | src/api/dating.rs:371-390 | the immediate-danger flag appears exactly when more than five pressure phrases were found, the inconsistency flag exactly when the consistency score is below 30 |
| Dating.AnalyzeConversation | src/api/dating.rs:304-467 | a free user with more than 50 messages gets 400 and nobody else does; the pressure count is reported, more than 2 raises the pressure indicator, more than 5 the immediate-danger flag, and an unverified identity the inconsistency flag; the level comes from the bands as written, so it is the corrected level for non-negative scores outside the gaps and critical above 75; the recommendations and tip are those of the level |
| Dating.ThreePhrasesRaiseIndicator | src/api/dating.rs:362-372 | three pressure phrases in the first three messages always raise the pressure indicator, whatever follows |
| DemoCheck.DemoScore | src/api/mod.rs:158 | the mock score is below 100, and 0 for an empty name |
| DemoCheck.DemoScoreStep | src/api/mod.rs:158 | each further character of the name adds 7 to the score, modulo 100 |
| DemoCheck.RiskLevel | src/api/mod.rs:159-165 | a high score reads as low risk: LOW iff at least 70, MEDIUM iff 40 to 69, HIGH iff below 40 |
| DemoCheck.LocationText | src/api/mod.rs:155 | no location adds nothing; a location adds ` in ` and the location |
| DemoCheck.Verification | src/api/mod.rs:167-172 | the text starts with the demo prefix and the name, ends with the fixed explanation, and holds nothing but those and the location text |
| DemoCheck.Demo | src/api/mod.rs:147-204 | the name is echoed, the score is below 100, the level is LOW exactly for scores of 70 and above, four recommendations and three tips are returned, and a given location appears in the text |
| DemoCheck.LocationExtendsName | src/api/mod.rs:155-172 | a location changes the text exactly as if it were appended to the name, and never changes the score |
| DemoCheck.ScoreRepeatsEvery100 | src/api/mod.rs:158 | names whose lengths differ by 100 get the same score and level |
| DemoCheck.ShortNamesLookRisky | src/api/mod.rs:158-165 | the empty name is rated HIGH and a ten-letter name scores 70 and is rated LOW |
| DemoForm.BlankIffAllWhitespace | website/src/app/page.tsx:148 | `!demoEmail.trim()` holds exactly when every character is whitespace |
| DemoForm.RequestBody | website/src/app/page.tsx:157 | the request body carries the typed text under `email` |
| DemoForm.HandleSubmit | website/src/app/page.tsx:146-158 | a blank entry changes nothing; otherwise loading starts and the text in the field is sent as it stands, while the previous result stays shown |
| DemoForm.HandleSettled | website/src/app/page.tsx:159-167 | a settled request always ends loading; a parsed body replaces the result, a failure stores the connection error |
| DemoForm.SanitizeEmail | website/src/app/page.tsx:257-260 | what the email field hands to `onChange` is the typed text without line breaks, less only the ASCII whitespace at its two ends; it holds no line break and starts and ends with no ASCII whitespace |
| DemoForm.Step | website/src/app/page.tsx:254-271 | typing stores the sanitised value; a submission while loading, or of a value that is not a valid e-mail address, changes nothing, since the disabled button and the `required` email field stop it; a settle without a request in flight changes nothing |
| DemoForm.ValidEmailNotBlank | website/src/app/page.tsx:148-261 | a value the email field accepts is never blank, so the handler's blank check cannot fire after the browser's own check |
| DemoForm.AcceptedSubmitSends | website/src/app/page.tsx:146-158 | every submission the browser lets through starts loading and sends the field's text |
| DemoForm.ValidEmailIsPlain | website/src/app/page.tsx:257 | a valid e-mail address is non-empty and holds no whitespace and no line break |
| DemoForm.StepKeepsConsistent | website/src/app/page.tsx:146-168 | every event keeps the loading flag up exactly while a request is in flight |
| DemoForm.RunKeepsConsistent | website/src/app/page.tsx:146-168 | every reachable state has at most one request in flight, and it is the one loading shows |
| DemoForm.SettleEndsLoading | website/src/app/page.tsx:165-167 | whatever the outcome, loading ends when the request settles |
| DemoForm.BlankSubmitIsInert | website/src/app/page.tsx:148-261 | submitting only whitespace sends nothing and changes nothing |
| DemoForm.PaddedEmailSentTrimmed | website/src/app/page.tsx:148-260 | an address typed with a space on either side is sent bare |
| DemoForm.Badge | website/src/app/page.tsx:291-296 | the badge is danger iff the level is HIGH and a warning iff it is MEDIUM; anything else is success |
| DemoForm.ViewOf | website/src/app/page.tsx:277-297 | nothing is shown iff the result is falsy; the error view iff its `error` is truthy, showing that error; otherwise the report |
| DemoForm.FailureShowsError | website/src/app/page.tsx:162-286 | a failed request always shows the error view with the connection message |
| DemoForm.EmptyErrorShowsReport | website/src/app/page.tsx:279 | a body with an empty `error` text is shown as a report, not an error |
| Telegram.WithoutKey | bt.py:81 | removing a key from a parsed object leaves exactly the other keys, each field taken from the original |
| Telegram.Items | bt.py:81 | `dict.items()` of a parsed object with repeated keys: each key once, in order of first appearance, with the value of its last occurrence |
| Telegram.LastIndexOf | bt.py:101 | the position found holds the character and none follows it; no position means the character is absent |
| Telegram.Truncate | bt.py:96-102 | a page of at most 3500 characters is kept; a longer one is cut to a prefix of 3400 to 3500 characters, at the last newline when one lies in the final 100, and the note is appended, so no page exceeds 3500 plus the note |
| Telegram.HardCutExceedsLimit | bt.py:96-102 | a page without newlines is cut at exactly 3500 characters and then grows by the note, so a sent page can exceed the configured limit |
| Telegram.Records | bt.py:89 | `Data` yields records when it is a list of objects, or an empty string or object (iterating those yields nothing); anything else raises |
| Telegram.RecordLines | bt.py:90-92 | a record gives, for each distinct key in order, the line of the bold key, a colon and its value, then a blank line |
| Telegram.RecordsLinesConcat | bt.py:89-92 | the lines of two runs of records are those of the first run followed by those of the second |
| Telegram.HeaderLines | bt.py:82-86 | every page starts with the bold database name and a blank line, plus the leak description when it is truthy |
| Telegram.PageLines | bt.py:81-92 | a non-object database raises; the no-results entry has only its header; any other entry succeeds iff its records are well formed, and then its lines are the header followed by the lines of every record in order |
| Telegram.PageText | bt.py:94-102 | a page exists iff its lines do, is then those lines joined by line breaks and truncated, and never exceeds 3500 characters plus the note |
| Telegram.NoResultsPageIgnoresRecords | bt.py:88 | the no-results page depends only on its leak description, never on its records |
| Telegram.MapAll | bt.py:81-104 | the loop finishes iff every database formats, giving one page per database in order |
| Telegram.FormatReport | bt.py:70-107 | no report iff the response carries `Error code` or lacks `List`; the handler raises iff `List` then is not an object or some database fails to format; a completed report is the page of each database in order, each within the length bound; only it touches the cache, storing the pages under the query id |
| Telegram.ErrorCodeWins | bt.py:72-74 | an `Error code` key suppresses the report even when `List` is present |
| Telegram.PyMod | bt.py:125 | Python's `%` with a positive divisor lands in range, fixes pages already in range, and wraps -1 to the last page and the page count to 0 |
| Telegram.Keyboard | bt.py:118-133 | at most one page gives no buttons; otherwise `<<`, a `page/total` counter that does nothing, and `>>`, with the page taken modulo the total |
| Telegram.HandlePagination | bt.py:199-221 | data not starting with `/page `, without three words, or with a non-integer page is ignored; an unknown query id expires; a known query id fails exactly when its cached report is empty or the id is not an integer; otherwise the page shown is the requested page modulo the report length |
| Telegram.HandleQuery | bt.py:168-197 | denied users are refused; a blank message is ignored; otherwise "no results" is sent iff the lookup failed, the response held no report, or the report has no pages; the handler raises iff formatting raises; a report with pages sends its first page with the keyboard for page 0; a failed lookup never caches |
| Telegram.IntTextIsOneWord | bt.py:129-131 | a written integer contains no whitespace |
| Telegram.PageCommandTokens | bt.py:129-203 | a button's callback data starts with `/page ` and splits into the command, the query id and the page |
| Telegram.PageCommandPrefix | bt.py:129-199 | a button's callback data passes the handler's `/page ` filter |
| Telegram.PageCommandShowsPage | bt.py:200-221 | a page command for a cached report shows that page modulo the report length, with the matching keyboard |
| Telegram.ButtonsTurnPages | bt.py:129-217 | `>>` shows the next page and wraps from the last to the first; `<<` shows the previous page and wraps from the first to the last |
| Telegram.ForwardFromFirstPage | bt.py:196-221 | pressing `>>` under a freshly sent report shows its second page |
| Telegram.SinglePageHasNoButtons | bt.py:122-196 | a one-page report is sent without buttons |
| Calendar.ScanNumber | src/risk_score.rs:32 | a numeric item of `%Y-%m-%d` uses at least one character of the input, and an unsigned one yields a non-negative value |
| Calendar.ParseDate | src/risk_score.rs:32 | a date parsed from `%Y-%m-%d` text is a valid calendar date whose year a `NaiveDate` can hold |
| Calendar.LeadingSpaceIgnored | src/risk_score.rs:32 | whitespace before the year changes nothing |
| Calendar.SignedYear | src/risk_score.rs:32 | a year after `+` or `-` may have any number of digits and is read with its sign |
| Calendar.UnsignedYearTooLong | src/risk_score.rs:32 | an unsigned year has at most four digits: text starting with five digits does not parse |
| Calendar.FormatParseRoundTrip | src/risk_score.rs:32 | a valid date with a four-digit year, written as `YYYY-MM-DD`, parses back to itself |
| Calendar.DayNumberMonotonic | src/risk_score.rs:33-34 | comparing day numbers orders valid dates exactly as calendar order does, and equal day numbers mean equal dates |
| Calendar.WithMonth | src/api/users.rs:94-99 | changing the month succeeds iff the month exists and has the current day, and gives a valid timestamp in that month |
| Calendar.WithYear | src/api/users.rs:95 | changing the year succeeds iff the day exists in that month of the new year, failing only for 29 February of a common year; on success only the year changes |
| Uuids.Parse | src/api/reports.rs:129-130 | an accepted id has one of the four textual lengths: simple, hyphenated, braced or URN |
| Uuids.RoundTrip | src/api/reports.rs:99-130 | the hyphenated text of an id parses back to the same id |
| Uuids.ToStringInjective | src/api/reports.rs:99 | different ids never share a text |
| Text.Trim | bt.py:176 | the trimmed text is the original less only the whitespace before its first and after its last other character, and neither starts nor ends with whitespace |
| Text.LeadingRun | bt.py:176 | counts the whitespace the text starts with: all of it is whitespace and the next character is not |
| Text.SplitThreeWords | bt.py:201 | three words separated by single spaces split into exactly those words |
| Text.IntToStringRoundTrip | bt.py:106-207 | `int()` of `str(n)` gives back n, so a query id written into the cache key and a callback reads back as itself |
| Text.IntToStringInjective | bt.py:106 | different query ids never share a cache key |
| Json.FieldLookup | bt.py:81 | a key is found exactly when some field carries it |
| Json.FieldLookupLast | bt.py:81 | with repeated keys the last occurrence wins |
| Json.SetField | src/filtermain.rs:28 | after setting, the key holds the new value, every other key keeps its value, and the key set only gains the key |
| Seqs.Page | src/database.rs:384-401 | `LIMIT`/`OFFSET`: never more than the limit, empty beyond the end, a full page when enough rows remain, and each row is the one at offset plus its position |
| Seqs.ConsecutivePages | src/database.rs:384-401 | two consecutive pages of n rows are the page of 2n rows: paging neither skips nor repeats |
| Seqs.PageSorted | src/database.rs:389 | a page of a newest-first list is newest first and holds only listed rows |
| Seqs.FilterFilter | src/api/reports.rs:75-95 | filtering twice equals filtering once by the conjunction |
| Seqs.CountIsFilterLength | src/api/security.rs:492-529 | counting items that satisfy a test equals the length of the filtered list |
| Seqs.SortDescSorted | src/filtermain.rs:19-23 | sorting with a strict total order yields a newest-first list |
| Seqs.SortDescStable | src/filtermain.rs:19-23 | the sort is stable: items with the same key keep their relative order |

## Left out

- Persistence: SQL queries, migrations and connection handling are left out. The database is a sequence of rows, and a lookup is a function over it. A database error raised with `?` is not modelled.
- Crypto and foreign libraries: password hashing and verification, `generate_api_key`, `hash_api_key`, `hash_email` and `hash_password` are opaque library calls. They are parameters, or their results are inputs. JWT signing is idealised: a token carries its claims and the secret it was signed with (`Auth.Signed`). Reading a token's text is a parameter that returns `None` for malformed text.
- Floating point: the password entropy is left out (src/api/security.rs:156-165). So are the recommendation that depends on it, the love-bombing and response-time scores (src/api/dating.rs:157-195, 259-301) and the overall safety report (src/api/dating.rs:534-600). The overall conversation score is an input of type `real`.
- Reports.TotalPages: the float `ceil` of src/api/reports.rs:109 is modelled as integer ceiling division. The two agree for every count that fits in 32 bits, which is all the model admits.
- Rate limiting: the keyed `governor` limiter is not modelled as a token bucket. A new limiter is built for every request, so `Middleware.RateLimit` never rejects. A zero quota panics.
- Concurrency and runtime: usage tracking with `tokio::spawn`, Axum routing and layers, request logging, and the fixed security and GDPR response headers are left out. They decide nothing.
- `api_key_middleware` is left out: it needs a lookup by key hash, and it sets no rule beyond "present, readable and found, else 401". The extractor version is `Auth.ApiKeyAuthenticate`.
- `list_breach_sources` and `update_breach_data` are left out apart from their gate, `Reports.AdminGate`. Their bodies are constant mock data plus a clock reading.
- `delete_report` deletes nothing. `Reports.DeleteReport` states exactly that.
- The export handler's JSON document, temporary URL and 24-hour expiry are left out. Only the gate and the selection of reports are modelled.
- `logout` returns a fixed success body and nothing else, so it is not modelled.
- File and network I/O: reading and writing the dump files in `filter.rs` and `filtermain.rs` is left out, and so is the temporary-file round trip in `filter_data`. That round trip is taken as identity on the JSON value. So is the RFC 3339 reparse of breach dates in `check_breach`.
- Security.CheckBreach: assumes `breach_count * 10` does not overflow 32 bits. That takes more than 429 million breaches.
- Security.CheckBreach: `include_details` and the breach details list are left out. They copy database fields.
- Nothing corrects the double count of a listed password in the combined risk of `calculate_risk_score`. It is counted once in the base score (40) and again as a factor (20), as the code does. `Security.AssessRiskIsCappedSum` states the sum as written.
- `filter_data` feeds both filters the same payload. The basic filter expects an object with a `result` array, and the advanced filter expects a bare array. `Security.FiltersExpectDifferentShapes` shows that each leaves the other's shape untouched.
- The advanced filter sorts by the breach-date text, not by date. The model does the same.
- In `analyze_conversation`, usage is tracked before the free-tier gate. Tracking is not modelled.
- Message timestamps and senders are not modelled. Only the message texts matter to the integer rules.
- serde's object key order is not modelled: objects keep fields in the order given.
- Unicode: `is_lowercase`, `is_uppercase`, `is_alphanumeric` and `to_lowercase` are modelled on ASCII. Rust `len()` counts bytes, but it is modelled as a count of characters, which agrees on ASCII text.
- bt.py: Telegram I/O is left out: polling, sending and editing messages, the plain-text fallback, and the "Searching..." message.
- bt.py: `query_leakosint` is an input (`None` for a failed request). A response that is not a JSON object is not modelled.
- bt.py: `check_user_access` is a boolean input. The random query id is a parameter.
- bt.py: an exception is an outcome: `Unhandled`, `Failed` or `QueryFailed`.
- Telegram.Repr: string quotes and escapes inside Python's `repr` are not reproduced. A string is shown between single quotes.
- Text.ParseInt: Python's `int()` also accepts underscores between digits, surrounding whitespace and non-ASCII digits. The model accepts ASCII digits with an optional sign.
- website: the page's markup outside the demo form is not modelled. The browser's own error bubble for a rejected address is not modelled either: a rejected submission simply changes nothing.
- DemoForm.ValidEmail: the HTML "valid e-mail address" rule is stated over ASCII. Non-ASCII local parts and internationalised domains are rejected, as the rule itself does.
- Users.TotalRequests: the Rust code sums `requests_count` as an `i32` and casts results with `as u32`. The model sums unbounded naturals, so the wrap-around after 2^31 requests in one month is not modelled. This also applies to Users.ProfileUsage and AuthApi.CurrentUsage.
- Auth.Decode: the 60-second leeway of the default validation is modelled. Handlers that receive an already decoded token, such as AuthApi.Refresh, take the decoder's result as an input instead.
- Dating.RiskLevelAsWritten: the band limits are exact reals, but the code compares `f32` values. `50.1f32` is 50.0999985… and `25.1f32` is 25.1000004…, so scores within about 1e-6 of a limit can fall on the other side in the program.
- Json.Value: JSON numbers are integers. No modelled rule reads a fractional number, and `f64` rounding of large integers is not modelled.
- Calendar.ParseDate: chrono also rejects a signed year whose digits overflow `i64`. Such a year already lies outside the `NaiveDate` range, so the model rejects it for that reason instead.
- Calendar.WithYear: chrono also fails for a year outside the `NaiveDate` range (beyond 262143). The model does not, because the current year plus one never gets there.

## Findings

| source | as written | input that shows it | evidently intended | confidence | as-written member | corrected member |
|---|---|---|---|---|---|---|
| src/api/users.rs:94-104 | moves to the next month with `with_month(m + 1)` while keeping today's day, and only then sets the day to 1; when today's day does not exist in the next month, the chain fails and falls back to `Utc::now()` | 2024-01-31 gives a reset date of now, not 2024-02-01 | midnight on the first day of the next month, always after now | high, not executed | Users.ResetDateAsWrittenJanuary31 | Users.ResetDateInFuture |
| src/api/auth.rs:129 | a refresh token that fails verification propagates through `?` as an `anyhow` error, which maps to a 500 | a refresh token that expired one second ago gets a 500 "Internal server error" | a 401, as for every other refresh failure | high, not executed | AuthApi.RefreshAsWrittenExpiredIs500 | AuthApi.RefreshAgreesAfterVerification |
| src/api/reports.rs:68 | `(page - 1) * per_page` is computed in `u32` before widening to `i64`, so it wraps in a release build | page 42949674 with 100 per page skips 4 rows instead of 4294967300, so a far page shows the first reports again | the offset is computed without overflow, so a page past the end is empty | medium, not executed | Reports.ListReportsAsWrittenFarPage | Reports.ListedOnItsPage |
| src/api/dating.rs:342-347 | the risk level matches on the ranges `0.0..=25.0`, `25.1..=50.0` and `50.1..=75.0`, with everything else critical, so the gaps between the ranges are critical | an overall score of 25.05 is rated critical while 26.0 is medium | contiguous bands, with low at 25 or below, medium up to 50, high up to 75 and critical above 75 | medium, not executed | Dating.RiskLevelGap | Dating.RiskLevelMonotone |
| src/auth.rs:283-287 | the extractor builds its verifier from `Settings::default()`, whose secret is the 25-character "your-super-secret-jwt-key"; tokens are signed with the configured secret, which startup validation requires to have at least 32 characters | any token issued by a running server is rejected with 401 "Invalid token: InvalidSignature" | verify with the `AuthService` held in the application state | high, not executed | Auth.IssuedTokenRejectedAsWritten | Auth.IssuedTokenAuthenticates |

The handler models call the as-written halves of the first and fourth rows (`Users.ProfileUsage`, `Dating.AnalyzeConversation`), so they return what the program returns. Their contracts state where the two halves agree. The extractor is modelled both ways: `Auth.Authenticate` is the code as written, and `Auth.AuthenticateWith` takes an explicit secret.

=== FILE: auth.dfy ===
/**
 * Authentication rules of src/auth.rs: token issue and expiry, the Redis
 * blacklist entry, the password-strength rule, request-body validation, and
 * how a request's `Authorization` header becomes an authenticated user.
 *
 * Signing and decoding of tokens, password hashing and key generation are
 * library calls: the result of decoding a token is an input here.
 */
module Auth {

  import opened Wrappers
  import Text
  import Tiers
  import Uuids
  import Config
  import Database
  import Errors

  const SecondsPerHour: nat := 3600
  const SecondsPerDay: nat := 86400

  /** Access-token claims; `tier` is the tier's name. */
  datatype Claims = Claims(sub: string, email: string, tier: string, exp: int, iat: int, jti: string)

  datatype RefreshClaims = RefreshClaims(sub: string, jti: string, exp: int, iat: int)

  /** `generate_tokens`: the claims of the token pair issued at `now`; the ids are fresh UUIDs supplied by the caller. */
  function GenerateTokens(user: Database.User, auth: Config.AuthConfig, now: int, accessJti: string, refreshJti: string)
    : (r: (Claims, RefreshClaims))
    ensures r.0.iat == now && r.1.iat == now
    ensures r.0.exp - r.0.iat == auth.jwtExpirationHours * SecondsPerHour
    ensures r.1.exp - r.1.iat == auth.refreshTokenExpirationDays * SecondsPerDay
    ensures Uuids.Parse(r.0.sub) == Some(user.id) && r.1.sub == r.0.sub
    ensures Tiers.FromStr(r.0.tier) == Ok(user.tier)
    ensures r.0.email == user.email
  {
    Uuids.RoundTrip(user.id);
    Tiers.RoundTrip(user.tier);
    var sub := Uuids.ToString(user.id);
    (Claims(sub, user.email, Tiers.ToString(user.tier), now + auth.jwtExpirationHours * SecondsPerHour, now, accessJti),
     RefreshClaims(sub, refreshJti, now + auth.refreshTokenExpirationDays * SecondsPerDay, now))
  }

  /** Seconds until an access token expires, as reported to clients. */
  function ExpiresIn(auth: Config.AuthConfig): (n: nat)
    ensures forall u, now, a, b :: GenerateTokens(u, auth, now, a, b).0.exp == now + n
  {
    auth.jwtExpirationHours * SecondsPerHour
  }

  /**
   * The rule `verify_access_token` and `verify_refresh_token` share, given
   * what the decoder produced: a decoder error is reported after `invalid`, and a
   * decoded token is still rejected with `expired` when its expiry lies
   * strictly before now.
   */
  function CheckExpiry<C>(decoded: Result<C, string>, exp: C -> int, now: int, invalid: string, expired: string)
    : (r: Result<C, string>)
    ensures r.Ok? <==> decoded.Ok? && exp(decoded.value) >= now
    ensures r.Ok? ==> r.value == decoded.value
    ensures decoded.Err? ==> r == Err(invalid + decoded.error)
    ensures decoded.Ok? && exp(decoded.value) < now ==> r == Err(expired)
  {
    match decoded
    case Err(e) => Err(invalid + e)
    case Ok(c) => if exp(c) < now then Err(expired) else Ok(c)
  }

  function AccessExp(c: Claims): int { c.exp }
  function RefreshExp(c: RefreshClaims): int { c.exp }

  /** `verify_access_token`: `CheckExpiry` on the access claims with its messages. */
  function VerifyAccessToken(decoded: Result<Claims, string>, now: int): Result<Claims, string>
  {
    CheckExpiry(decoded, AccessExp, now, "Invalid token: ", "Token has expired")
  }

  /** `verify_refresh_token`: the same rule with its own messages. */
  function VerifyRefreshToken(decoded: Result<RefreshClaims, string>, now: int): Result<RefreshClaims, string>
  {
    CheckExpiry(decoded, RefreshExp, now, "Invalid refresh token: ", "Refresh token has expired")
  }

  /** A freshly issued token pair is accepted exactly up to and including its expiry second. */
  lemma IssuedTokensValidUntilExpiry(user: Database.User, auth: Config.AuthConfig, now: int, a: string, b: string, t: int)
    ensures VerifyAccessToken(Ok(GenerateTokens(user, auth, now, a, b).0), t).Ok?
      <==> t <= now + auth.jwtExpirationHours * SecondsPerHour
    ensures VerifyRefreshToken(Ok(GenerateTokens(user, auth, now, a, b).1), t).Ok?
      <==> t <= now + auth.refreshTokenExpirationDays * SecondsPerDay
  {
  }

  /** A Redis store of keys with their expiry instants. */
  type Store = map<string, int>

  function BlacklistKey(jti: string): string {
    "blacklist:" + jti
  }

  /** `SETEX key ttl`: the key lives for `ttl` seconds from now. */
  function SetEx(store: Store, key: string, ttl: nat, now: int): Store {
    store[key := now + ttl]
  }

  predicate KeyExists(store: Store, key: string, t: int) {
    key in store && t < store[key]
  }

  /** `blacklist_token`: write the id for the token's remaining lifetime, only if any remains. */
  function BlacklistToken(store: Store, jti: string, exp: int, now: int): (r: Store)
    ensures exp <= now ==> r == store
    ensures exp > now ==> r == store[BlacklistKey(jti) := exp]
  {
    var ttl := exp - now;
    if ttl > 0 then SetEx(store, BlacklistKey(jti), ttl, now) else store
  }

  /** `is_token_blacklisted` */
  predicate IsTokenBlacklisted(store: Store, jti: string, t: int) {
    KeyExists(store, BlacklistKey(jti), t)
  }

  /**
   * A blacklisted token stays listed for the rest of its lifetime, and the
   * entry lapses exactly when the token itself would be rejected as expired
   * (from `exp + 1` on), except for the final second `t == exp`.
   */
  lemma BlacklistCoversLifetime(store: Store, jti: string, exp: int, now: int, t: int, decoded: Claims)
    requires exp > now && now <= t
    requires decoded.jti == jti && decoded.exp == exp
    ensures t < exp ==> IsTokenBlacklisted(BlacklistToken(store, jti, exp, now), jti, t)
    ensures t >= exp ==> !IsTokenBlacklisted(BlacklistToken(store, jti, exp, now), jti, t)
    ensures t > exp ==> VerifyAccessToken(Ok(decoded), t).Err?
  {
  }

  const PasswordMinLength: nat := 8

  /** Rust `!c.is_alphanumeric()`, with the ASCII reading of "alphanumeric". */
  predicate IsSpecial(c: char) { !Text.IsAsciiAlphanumeric(c) }

  predicate HasUpper(p: string) { Text.AnyChar(p, Text.IsAsciiUpper) }
  predicate HasLower(p: string) { Text.AnyChar(p, Text.IsAsciiLower) }
  predicate HasDigit(p: string) { Text.AnyChar(p, Text.IsAsciiDigit) }
  predicate HasSpecial(p: string) { Text.AnyChar(p, IsSpecial) }

  /** `validate_password_strength`: the code of the first rule the password breaks. */
  function ValidatePasswordStrength(p: string): (r: Result<(), string>)
    ensures r.Ok? <==> |p| >= PasswordMinLength && HasUpper(p) && HasLower(p) && HasDigit(p) && HasSpecial(p)
    ensures |p| < PasswordMinLength ==> r == Err("password_too_short")
  {
    if |p| < PasswordMinLength then Err("password_too_short")
    else if !HasUpper(p) then Err("missing_uppercase")
    else if !HasLower(p) then Err("missing_lowercase")
    else if !HasDigit(p) then Err("missing_digit")
    else if !HasSpecial(p) then Err("missing_special_char")
    else Ok(())
  }

  /** The rules in the order they are checked. */
  function PasswordRules(): seq<(string, string -> bool)> {
    [("password_too_short", (p: string) => |p| >= PasswordMinLength),
     ("missing_uppercase", HasUpper),
     ("missing_lowercase", HasLower),
     ("missing_digit", HasDigit),
     ("missing_special_char", HasSpecial)]
  }

  /**
   * First-failure order: the reported code belongs to a broken rule, and every
   * rule checked before it holds.
   */
  lemma PasswordFirstFailure(p: string)
    requires ValidatePasswordStrength(p).Err?
    ensures exists i :: (0 <= i < 5 && PasswordRules()[i].0 == ValidatePasswordStrength(p).error
                         && !PasswordRules()[i].1(p)
                         && forall j :: 0 <= j < i ==> PasswordRules()[j].1(p))
  {
    var rules := PasswordRules();
    var i := if |p| < PasswordMinLength then 0 else if !HasUpper(p) then 1 else if !HasLower(p) then 2
      else if !HasDigit(p) then 3 else 4;
    assert rules[i].0 == ValidatePasswordStrength(p).error;
    assert !rules[i].1(p);
    assert forall j :: 0 <= j < i ==> rules[j].1(p);
  }

  /** A field validation failure, as the validation library reports it. */
  datatype FieldError = FieldError(code: string, min: Option<nat>, message: Option<string>)

  datatype RegisterRequest = RegisterRequest(email: string, password: string, confirmPassword: string, name: Option<string>)

  datatype LoginRequest = LoginRequest(email: string, password: string)

  /**
   * `RegisterRequest::validate`: the failures of every field, keyed by field
   * name; a field is listed only if it fails. Whether the address is
   * well-formed is decided by the validation library and is an input.
   */
  function ValidateRegister(req: RegisterRequest, emailValid: bool): (errs: map<string, seq<FieldError>>)
    ensures "email" in errs <==> !emailValid
    ensures "password" in errs <==> ValidatePasswordStrength(req.password).Err?
    ensures "name" in errs <==> req.name.Some? && |req.name.value| < 1
    ensures errs.Keys <= {"email", "password", "name"}
  {
    var emailErrs := if emailValid then [] else [FieldError("email", None, Some("Invalid email format"))];
    var lengthErrs :=
      if |req.password| < 8 then [FieldError("length", Some(8), Some("Password must be at least 8 characters"))] else [];
    var strengthErrs :=
      match ValidatePasswordStrength(req.password)
      case Ok(_) => []
      case Err(code) => [FieldError(code, None, None)];
    var nameErrs :=
      if req.name.Some? && |req.name.value| < 1 then [FieldError("length", Some(1), Some("Name is required"))] else [];
    var m1 := if |emailErrs| > 0 then map["email" := emailErrs] else map[];
    var m2 := if |lengthErrs + strengthErrs| > 0 then m1["password" := lengthErrs + strengthErrs] else m1;
    if |nameErrs| > 0 then m2["name" := nameErrs] else m2
  }

  /** `LoginRequest::validate` */
  function ValidateLogin(req: LoginRequest, emailValid: bool): (errs: map<string, seq<FieldError>>)
    ensures "email" in errs <==> !emailValid
    ensures "password" in errs <==> req.password == ""
    ensures errs.Keys <= {"email", "password"}
  {
    var m1 := if emailValid then map[] else map["email" := [FieldError("email", None, Some("Invalid email format"))]];
    if |req.password| < 1 then m1["password" := [FieldError("length", Some(1), Some("Password is required"))]] else m1
  }

  /** The text `validation_error_response` shows for one failure. */
  function FieldErrorText(e: FieldError): string {
    Errors.FieldErrorMessage(e.code, if e.min.Some? then Some(Text.IntToString(e.min.value)) else None, None, e.message)
  }

  /** A password that is too short is reported twice: by the length rule and by the strength rule. */
  lemma ShortPasswordMessages(req: RegisterRequest, emailValid: bool)
    requires |req.password| < 8
    ensures ValidateRegister(req, emailValid)["password"] ==
      [FieldError("length", Some(8), Some("Password must be at least 8 characters")), FieldError("password_too_short", None, None)]
    ensures FieldErrorText(ValidateRegister(req, emailValid)["password"][0]) == "Must be at least 8 characters long"
    ensures FieldErrorText(ValidateRegister(req, emailValid)["password"][1]) == "Password must be at least 8 characters long"
  {
    assert Text.IntToString(8) == "8";
  }

  /** `HeaderValue::to_str` succeeds iff every byte is visible ASCII or a tab. */
  predicate HeaderReadable(h: string) {
    forall i :: 0 <= i < |h| ==> h[i] == '\t' || (32 <= h[i] as int < 127)
  }

  const BearerPrefix: string := "Bearer "

  /** The token of an `Authorization: Bearer <token>` header. */
  function BearerToken(header: Option<string>): (r: Option<string>)
    ensures r.Some? <==> header.Some? && HeaderReadable(header.value) && Text.IsPrefix(BearerPrefix, header.value)
    ensures r.Some? ==> header.value == BearerPrefix + r.value
  {
    if header.Some? && HeaderReadable(header.value) && Text.IsPrefix(BearerPrefix, header.value) then
      var t := header.value[|BearerPrefix|..];
      assert header.value == BearerPrefix + t;
      Some(t)
    else None
  }

  /** The header a client builds from a token gives that token back. */
  lemma BearerRoundTrip(token: string)
    requires HeaderReadable(token)
    ensures BearerToken(Some(BearerPrefix + token)) == Some(token)
  {
    var h := BearerPrefix + token;
    assert h[..|BearerPrefix|] == BearerPrefix;
    assert h[|BearerPrefix|..] == token;
    forall i | 0 <= i < |h| ensures h[i] == '\t' || (32 <= h[i] as int < 127) {
      if i >= |BearerPrefix| {
        assert h[i] == token[i - |BearerPrefix|];
      }
    }
  }

  /**
   * A compact token as the HS256 decoder sees it: the claims it carries and
   * the secret whose HMAC signs it. What a header's token text decodes to is
   * an input (`parse`), `None` when the text is not a well-formed token.
   */
  datatype Signed<C> = Signed(claims: C, key: string)

  /** `Validation::default()` accepts an `exp` up to this many seconds in the past. */
  const DecoderLeeway: int := 60

  /**
   * `jsonwebtoken::decode` with the default validation: the signature must be
   * the one `key` produces, then `exp` may lie at most the leeway in the past.
   * Errors read as the library's error kind.
   */
  function Decode<C>(token: Option<Signed<C>>, key: string, exp: C -> int, now: int): (r: Result<C, string>)
    ensures r.Ok? <==> token.Some? && token.value.key == key && exp(token.value.claims) >= now - DecoderLeeway
    ensures r.Ok? ==> r.value == token.value.claims
    ensures token.Some? && token.value.key != key ==> r == Err("InvalidSignature")
  {
    match token
    case None => Err("InvalidToken")
    case Some(t) =>
      if t.key != key then Err("InvalidSignature")
      else if exp(t.claims) < now - DecoderLeeway then Err("ExpiredSignature")
      else Ok(t.claims)
  }

  datatype AuthenticatedUser = AuthenticatedUser(userId: Uuids.Uuid, email: string, tier: Tiers.Tier, claims: Claims)

  /**
   * `AuthenticatedUser::from_request` verifying with the secret `key`: header,
   * then token verification, then the user id, then the tier; every failure
   * is a 401 with its own message.
   */
  function AuthenticateWith(header: Option<string>, parse: string -> Option<Signed<Claims>>, key: string, now: int)
    : (r: Result<AuthenticatedUser, Errors.AppError>)
    ensures r.Err? ==> r.error.Unauthorized?
    ensures BearerToken(header).None? ==> r == Err(Errors.Unauthorized("Missing authorization header"))
    ensures r.Ok? <==> (BearerToken(header).Some? && parse(BearerToken(header).value).Some?
                        && var c := parse(BearerToken(header).value).value;
                        c.key == key && c.claims.exp >= now
                        && Uuids.Parse(c.claims.sub).Some? && Tiers.FromStr(c.claims.tier).Ok?)
    ensures r.Ok? ==> (var c := parse(BearerToken(header).value).value.claims;
                       r.value.claims == c && Uuids.Parse(c.sub) == Some(r.value.userId)
                       && Tiers.FromStr(c.tier) == Ok(r.value.tier) && r.value.email == c.email)
  {
    if BearerToken(header).None? then Err(Errors.Unauthorized("Missing authorization header"))
    else match VerifyAccessToken(Decode(parse(BearerToken(header).value), key, AccessExp, now), now)
      case Err(e) => Err(Errors.Unauthorized(e))
      case Ok(c) =>
        match Uuids.Parse(c.sub)
        case None => Err(Errors.Unauthorized("Invalid user ID in token"))
        case Some(id) =>
          match Tiers.FromStr(c.tier)
          case Err(_) => Err(Errors.Unauthorized("Invalid subscription tier in token"))
          case Ok(tier) => Ok(AuthenticatedUser(id, c.email, tier, c))
  }

  /** The extractor builds its own verifier from the default settings, not from the application state. */
  const ExtractorKey: string := Config.Default().auth.jwtSecret

  /**
   * `AuthenticatedUser::from_request` as written: only a token signed with
   * the default secret can authenticate. The last ensures names that secret:
   * the extractor is `AuthenticateWith` under "your-super-secret-jwt-key".
   */
  function Authenticate(header: Option<string>, parse: string -> Option<Signed<Claims>>, now: int)
    : (r: Result<AuthenticatedUser, Errors.AppError>)
    ensures r.Err? ==> r.error.Unauthorized?
    ensures r.Ok? ==> BearerToken(header).Some? && parse(BearerToken(header).value).Some?
                      && parse(BearerToken(header).value).value.key == Config.DefaultJwtSecret
    ensures r == AuthenticateWith(header, parse, Config.DefaultJwtSecret, now)
  {
    AuthenticateWith(header, parse, ExtractorKey, now)
  }

  /**
   * As written, no token issued by a running server authenticates: the
   * server signs with its configured secret, which startup validation forces
   * to at least 32 characters, while the extractor verifies with the
   * 25-character default.
   */
  lemma IssuedTokenRejectedAsWritten(settings: Config.Settings, user: Database.User, issued: int, a: string, b: string,
                                     token: string, parse: string -> Option<Signed<Claims>>, t: int)
    requires Config.Validate(settings).Ok?
    requires HeaderReadable(token)
    requires parse(token) == Some(Signed(GenerateTokens(user, settings.auth, issued, a, b).0, settings.auth.jwtSecret))
    ensures Authenticate(Some(BearerPrefix + token), parse, t) == Err(Errors.Unauthorized("Invalid token: InvalidSignature"))
  {
    BearerRoundTrip(token);
    ValidatedKeyIsNotDefault(settings);
    InvalidSignatureText();
  }

  lemma ValidatedKeyIsNotDefault(settings: Config.Settings)
    requires Config.Validate(settings).Ok?
    ensures settings.auth.jwtSecret != ExtractorKey
  {
    Config.DefaultFailsOnJwtSecret();
  }

  lemma InvalidSignatureText()
    ensures "Invalid token: " + "InvalidSignature" == "Invalid token: InvalidSignature"
  {
  }

  /**
   * Verifying with the secret of the application state, a request carrying a
   * token issued to `user` authenticates as that same user, with the same
   * tier, at any moment up to the token's expiry.
   */
  lemma IssuedTokenAuthenticates(user: Database.User, settings: Config.Settings, issued: int, a: string, b: string,
                                 token: string, parse: string -> Option<Signed<Claims>>, t: int)
    requires HeaderReadable(token)
    requires parse(token) == Some(Signed(GenerateTokens(user, settings.auth, issued, a, b).0, settings.auth.jwtSecret))
    requires t <= issued + settings.auth.jwtExpirationHours * SecondsPerHour
    ensures var r := AuthenticateWith(Some(BearerPrefix + token), parse, settings.auth.jwtSecret, t);
      r.Ok? && r.value.userId == user.id && r.value.tier == user.tier && r.value.email == user.email
  {
    BearerRoundTrip(token);
  }

  /** `ApiKeyAuth::from_request`: never succeeds; only the message depends on the header. */
  function ApiKeyAuthenticate(header: Option<string>): (r: Errors.AppError)
    ensures r.Unauthorized? && Errors.StatusCode(r) == 401
    ensures r.msg == "Missing API key" <==> header.None? || !HeaderReadable(header.value)
  {
    if header.None? || !HeaderReadable(header.value) then Errors.Unauthorized("Missing API key")
    else Errors.Unauthorized("API key authentication not implemented")
  }
}

=== FILE: auth_api.dfy ===
/**
 * The account handlers of src/api/auth.rs: registration, login and token
 * refresh. Database tables are sequences, the clock is a parameter, and the
 * results of the library calls (address check, password hashing and
 * verification, token decoding, fresh ids) are inputs.
 */
module AuthApi {

  import opened Wrappers
  import Tiers
  import Uuids
  import Config
  import Calendar
  import Database
  import Errors
  import Auth
  import Users

  datatype ProfileUsage = ProfileUsage(monthlyQueries: nat, queriesUsed: nat, queriesRemaining: nat, resetDate: int)

  datatype UserProfile = UserProfile(
    id: string, email: string, name: Option<string>, tier: string, usage: ProfileUsage, createdAt: int)

  datatype AuthResponse = AuthResponse(
    access: Auth.Claims, refresh: Auth.RefreshClaims, expiresIn: nat, user: UserProfile)

  /** Fresh values the handlers draw from libraries: a user id, token ids and the password hash. */
  datatype Fresh = Fresh(userId: Uuids.Uuid, accessJti: string, refreshJti: string, passwordHash: string)

  /** The response shared by all three handlers, for `user` with the given usage figures. */
  function Respond(user: Database.User, auth: Config.AuthConfig, now: int, ids: Fresh, usage: ProfileUsage)
    : (r: AuthResponse)
    ensures r.expiresIn == Auth.ExpiresIn(auth)
    ensures r.access.exp == now + r.expiresIn
    ensures Tiers.FromStr(r.user.tier) == Ok(user.tier) && Uuids.Parse(r.user.id) == Some(user.id)
  {
    var (access, refresh) := Auth.GenerateTokens(user, auth, now, ids.accessJti, ids.refreshJti);
    Tiers.RoundTrip(user.tier);
    Uuids.RoundTrip(user.id);
    AuthResponse(access, refresh, Auth.ExpiresIn(auth),
      UserProfile(Uuids.ToString(user.id), user.email, user.name, Tiers.ToString(user.tier), usage, user.createdAt))
  }

  /**
   * `register`: field validation, then the password confirmation, then an
   * existing account with that address, each reported as a validation error;
   * otherwise a new free-tier user is stored and signed in. `rendered` is the
   * serialised field-error map, whose key order the source leaves to a hash
   * map.
   */
  function Register(
    req: Auth.RegisterRequest, emailValid: bool, rendered: string, users: seq<Database.User>,
    auth: Config.AuthConfig, now: int, ids: Fresh)
    : (r: Result<(seq<Database.User>, AuthResponse), Errors.AppError>)
    ensures |Auth.ValidateRegister(req, emailValid)| > 0 ==> r == Err(Errors.ValidationError(rendered))
    ensures r.Err? ==> r.error.ValidationError?
    ensures r.Ok? <==> (|Auth.ValidateRegister(req, emailValid)| == 0 && req.password == req.confirmPassword
                        && Database.GetUser(users, Database.ByEmail(req.email)).None?)
    ensures r.Ok? ==> (r.value.0 == users + [Database.CreateUser(ids.userId, req.email, ids.passwordHash, req.name, now)]
                       && r.value.1.user.usage == ProfileUsage(100, 0, 100, now)
                       && r.value.1.user.tier == "free")
  {
    if |Auth.ValidateRegister(req, emailValid)| > 0 then Err(Errors.ValidationError(rendered))
    else if req.password != req.confirmPassword then Err(Errors.ValidationError("Passwords do not match"))
    else if Database.GetUser(users, Database.ByEmail(req.email)).Some? then Err(Errors.ValidationError("Email already registered"))
    else
      var user := Database.CreateUser(ids.userId, req.email, ids.passwordHash, req.name, now);
      Ok((users + [user], Respond(user, auth, now, ids, ProfileUsage(100, 0, 100, now))))
  }

  /**
   * The order of the registration checks: each message appears only when
   * every earlier check passed. `rendered` is free text and could spell one
   * of the later messages, hence the guards on it.
   */
  lemma RegisterCheckOrder(
    req: Auth.RegisterRequest, emailValid: bool, rendered: string, users: seq<Database.User>,
    auth: Config.AuthConfig, now: int, ids: Fresh)
    ensures var r := Register(req, emailValid, rendered, users, auth, now, ids);
      ((r == Err(Errors.ValidationError("Passwords do not match")) && rendered != "Passwords do not match")
          ==> (|Auth.ValidateRegister(req, emailValid)| == 0 && req.password != req.confirmPassword))
      && ((r == Err(Errors.ValidationError("Email already registered")) && rendered != "Email already registered")
          ==> (|Auth.ValidateRegister(req, emailValid)| == 0 && req.password == req.confirmPassword
               && Database.GetUser(users, Database.ByEmail(req.email)).Some?))
  {
  }

  /**
   * The usage figures reported at login and refresh for the current month;
   * unlike the profile, the reset date is simply the present moment.
   */
  function CurrentUsage(usage: seq<Database.UsageTracking>, user: Database.User, now: Calendar.DateTime): (u: ProfileUsage)
    requires Calendar.ValidDateTime(now)
    ensures u.monthlyQueries == Users.MonthlyLimit(user.tier)
    ensures u.queriesUsed == Users.TotalRequests(Database.GetUserUsage(usage, user.id, Calendar.MonthKey(now)))
    ensures u.queriesRemaining <= u.monthlyQueries && u.queriesRemaining + u.queriesUsed >= u.monthlyQueries
    ensures u.queriesUsed <= u.monthlyQueries ==> u.queriesRemaining + u.queriesUsed == u.monthlyQueries
    ensures u.queriesRemaining == Users.RequestsRemaining(u.monthlyQueries, u.queriesUsed)
    ensures u.queriesUsed >= u.monthlyQueries ==> u.queriesRemaining == 0
    ensures u.resetDate == Calendar.Timestamp(now)
  {
    var used := Users.TotalRequests(Database.GetUserUsage(usage, user.id, Calendar.MonthKey(now)));
    var limit := Users.MonthlyLimit(user.tier);
    ProfileUsage(limit, used, Users.RequestsRemaining(limit, used), Calendar.Timestamp(now))
  }

  /** `update_user_last_login` */
  function RecordLogin(users: seq<Database.User>, id: Uuids.Uuid, now: int): (r: seq<Database.User>)
    ensures |r| == |users|
    ensures forall i :: 0 <= i < |users| && users[i].id != id ==> r[i] == users[i]
    ensures forall i :: 0 <= i < |users| && users[i].id == id ==> r[i] == users[i].(lastLogin := Some(now))
  {
    seq(|users|, i requires 0 <= i < |users| => if users[i].id == id then users[i].(lastLogin := Some(now)) else users[i])
  }

  const InvalidCredentials: string := "Invalid credentials"

  /**
   * `login`: field validation, then the account lookup, then the password
   * check. `passwordCheck` is the verifier's answer for the stored hash; a
   * hash it cannot read is an internal error.
   */
  function Login(
    req: Auth.LoginRequest, emailValid: bool, rendered: string, users: seq<Database.User>,
    passwordCheck: Result<bool, string>, usage: seq<Database.UsageTracking>,
    auth: Config.AuthConfig, now: Calendar.DateTime, ids: Fresh)
    : (r: Result<(seq<Database.User>, AuthResponse), Errors.AppError>)
    requires Calendar.ValidDateTime(now)
    ensures |Auth.ValidateLogin(req, emailValid)| > 0 ==> r == Err(Errors.ValidationError(rendered))
    ensures r.Ok? <==> (|Auth.ValidateLogin(req, emailValid)| == 0 && Database.GetUser(users, Database.ByEmail(req.email)).Some?
                        && passwordCheck == Ok(true))
    ensures r.Ok? ==> (var user := Database.GetUser(users, Database.ByEmail(req.email)).value;
                       r.value.0 == RecordLogin(users, user.id, Calendar.Timestamp(now))
                       && r.value.1.user.usage == CurrentUsage(usage, user, now))
  {
    if |Auth.ValidateLogin(req, emailValid)| > 0 then Err(Errors.ValidationError(rendered))
    else match Database.GetUser(users, Database.ByEmail(req.email))
      case None => Err(Errors.Unauthorized(InvalidCredentials))
      case Some(user) =>
        match passwordCheck
        case Err(e) => Err(Errors.FromAnyhow(e))
        case Ok(false) => Err(Errors.Unauthorized(InvalidCredentials))
        case Ok(true) =>
          var t := Calendar.Timestamp(now);
          Ok((RecordLogin(users, user.id, t), Respond(user, auth, t, ids, CurrentUsage(usage, user, now))))
  }

  /**
   * An unknown address and a wrong password for an existing account give the
   * very same answer, whatever the verifier said in the first case.
   */
  lemma LoginDoesNotRevealAccounts(
    req: Auth.LoginRequest, emailValid: bool, rendered: string, users: seq<Database.User>, known: seq<Database.User>,
    usage: seq<Database.UsageTracking>, auth: Config.AuthConfig, now: Calendar.DateTime, ids: Fresh, check: Result<bool, string>)
    requires Calendar.ValidDateTime(now)
    requires |Auth.ValidateLogin(req, emailValid)| == 0
    requires Database.GetUser(users, Database.ByEmail(req.email)).None?
    requires Database.GetUser(known, Database.ByEmail(req.email)).Some?
    ensures Login(req, emailValid, rendered, users, check, usage, auth, now, ids)
      == Login(req, emailValid, rendered, known, Ok(false), usage, auth, now, ids)
      == Err(Errors.Unauthorized(InvalidCredentials))
  {
  }

  /** A wrong password for an existing account is answered exactly like an unknown account. */
  lemma WrongPasswordLikeUnknownAccount(
    req: Auth.LoginRequest, emailValid: bool, rendered: string, users: seq<Database.User>,
    usage: seq<Database.UsageTracking>, auth: Config.AuthConfig, now: Calendar.DateTime, ids: Fresh)
    requires Calendar.ValidDateTime(now)
    requires |Auth.ValidateLogin(req, emailValid)| == 0
    ensures Login(req, emailValid, rendered, users, Ok(false), usage, auth, now, ids) == Err(Errors.Unauthorized(InvalidCredentials))
  {
  }

  /**
   * `refresh_token` as written: a refresh token that fails verification is
   * passed up as a generic error and so becomes an internal server error.
   */
  function RefreshAsWritten(
    decoded: Result<Auth.RefreshClaims, string>, users: seq<Database.User>, usage: seq<Database.UsageTracking>,
    auth: Config.AuthConfig, now: Calendar.DateTime, ids: Fresh)
    : (r: Result<AuthResponse, Errors.AppError>)
    requires Calendar.ValidDateTime(now)
    ensures Auth.VerifyRefreshToken(decoded, Calendar.Timestamp(now)).Err? ==> r.Err? && Errors.StatusCode(r.error) == 500
  {
    match Auth.VerifyRefreshToken(decoded, Calendar.Timestamp(now))
    case Err(e) => Err(Errors.FromAnyhow(e))
    case Ok(claims) => RefreshWithClaims(claims, users, usage, auth, now, ids)
  }

  /** The steps after verification: the subject must be a UUID naming an active user. */
  function RefreshWithClaims(
    claims: Auth.RefreshClaims, users: seq<Database.User>, usage: seq<Database.UsageTracking>,
    auth: Config.AuthConfig, now: Calendar.DateTime, ids: Fresh)
    : (r: Result<AuthResponse, Errors.AppError>)
    requires Calendar.ValidDateTime(now)
    ensures r.Err? ==> r.error.Unauthorized?
    ensures r.Ok? <==> Uuids.Parse(claims.sub).Some? && Database.GetUser(users, Database.ById(Uuids.Parse(claims.sub).value)).Some?
    ensures r.Ok? ==> Uuids.Parse(r.value.access.sub) == Uuids.Parse(claims.sub)
  {
    match Uuids.Parse(claims.sub)
    case None => Err(Errors.Unauthorized("Invalid token"))
    case Some(id) =>
      match Database.GetUser(users, Database.ById(id))
      case None => Err(Errors.Unauthorized("User not found"))
      case Some(user) =>
        var t := Calendar.Timestamp(now);
        Ok(Respond(user, auth, t, ids, CurrentUsage(usage, user, now)))
  }

  /** A refresh token that expired a second ago makes the as-written handler answer 500. */
  lemma RefreshAsWrittenExpiredIs500(
    claims: Auth.RefreshClaims, users: seq<Database.User>, usage: seq<Database.UsageTracking>,
    auth: Config.AuthConfig, now: Calendar.DateTime, ids: Fresh)
    requires Calendar.ValidDateTime(now) && claims.exp == Calendar.Timestamp(now) - 1
    ensures RefreshAsWritten(Ok(claims), users, usage, auth, now, ids) == Err(Errors.InternalServerError("Refresh token has expired"))
    ensures Refresh(Ok(claims), users, usage, auth, now, ids) == Err(Errors.Unauthorized("Refresh token has expired"))
  {
  }

  /** `refresh_token` with a failed verification reported as 401, like every other token failure. */
  function Refresh(
    decoded: Result<Auth.RefreshClaims, string>, users: seq<Database.User>, usage: seq<Database.UsageTracking>,
    auth: Config.AuthConfig, now: Calendar.DateTime, ids: Fresh)
    : (r: Result<AuthResponse, Errors.AppError>)
    requires Calendar.ValidDateTime(now)
    ensures r.Err? ==> r.error.Unauthorized? && Errors.StatusCode(r.error) == 401
    ensures Auth.VerifyRefreshToken(decoded, Calendar.Timestamp(now)).Err? ==>
      r == Err(Errors.Unauthorized(Auth.VerifyRefreshToken(decoded, Calendar.Timestamp(now)).error))
    ensures r.Ok? ==> Uuids.Parse(r.value.access.sub) == Uuids.Parse(decoded.value.sub)
  {
    match Auth.VerifyRefreshToken(decoded, Calendar.Timestamp(now))
    case Err(e) => Err(Errors.Unauthorized(e))
    case Ok(claims) => RefreshWithClaims(claims, users, usage, auth, now, ids)
  }

  /** The two agree whenever verification succeeds. */
  lemma RefreshAgreesAfterVerification(
    decoded: Result<Auth.RefreshClaims, string>, users: seq<Database.User>, usage: seq<Database.UsageTracking>,
    auth: Config.AuthConfig, now: Calendar.DateTime, ids: Fresh)
    requires Calendar.ValidDateTime(now)
    requires Auth.VerifyRefreshToken(decoded, Calendar.Timestamp(now)).Ok?
    ensures Refresh(decoded, users, usage, auth, now, ids) == RefreshAsWritten(decoded, users, usage, auth, now, ids)
  {
  }
}

=== FILE: calendar.dfy ===
/**
 * Proleptic Gregorian calendar dates and date-times (chrono's `NaiveDate`
 * and `DateTime<Utc>` fields), day numbers for date arithmetic, the
 * `with_*` field setters that fail on impossible dates, and the `%Y-%m-%d`
 * date parser.
 */
module Calendar {

  import opened Wrappers
  import Text

  predicate IsLeapYear(y: int) {
    (y % 4 == 0 && y % 100 != 0) || y % 400 == 0
  }

  function DaysInMonth(y: int, m: int): (n: nat)
    requires 1 <= m <= 12
    ensures 28 <= n <= 31
  {
    if m == 2 then (if IsLeapYear(y) then 29 else 28)
    else if m in {4, 6, 9, 11} then 30
    else 31
  }

  function YearLength(y: int): nat {
    if IsLeapYear(y) then 366 else 365
  }

  datatype Date = Date(year: int, month: int, day: int)

  predicate ValidDate(d: Date) {
    1 <= d.month <= 12 && 1 <= d.day <= DaysInMonth(d.year, d.month)
  }

  /** Days in the months of `y` before month `m` (`m == 13` gives the whole year). */
  function DaysBeforeMonth(y: int, m: int): nat
    requires 1 <= m <= 13
  {
    [0, 0, 31, 59, 90, 120, 151, 181, 212, 243, 273, 304, 334, 365][m] + (if m > 2 && IsLeapYear(y) then 1 else 0)
  }

  /** The table is the running sum of the month lengths. */
  lemma DaysBeforeMonthStep(y: int, m: int)
    requires 1 <= m <= 12
    ensures DaysBeforeMonth(y, m + 1) == DaysBeforeMonth(y, m) + DaysInMonth(y, m)
    ensures DaysBeforeMonth(y, 13) == YearLength(y)
  {
  }

  /** Days from 1970-01-01 to the first day of year `y` (negative before 1970). */
  function DaysBeforeYear(y: int): int
    decreases if y >= 1970 then y - 1970 else 1970 - y
  {
    if y == 1970 then 0
    else if y > 1970 then DaysBeforeYear(y - 1) + YearLength(y - 1)
    else DaysBeforeYear(y + 1) - YearLength(y)
  }

  lemma DaysBeforeYearStep(y: int)
    ensures DaysBeforeYear(y + 1) == DaysBeforeYear(y) + YearLength(y)
  {
  }

  /** The number of days since 1970-01-01. */
  function DayNumber(d: Date): int
    requires ValidDate(d)
  {
    DaysBeforeYear(d.year) + DaysBeforeMonth(d.year, d.month) + d.day - 1
  }

  /** Calendar order: year, then month, then day. */
  predicate DateLt(a: Date, b: Date) {
    a.year < b.year || (a.year == b.year && (a.month < b.month || (a.month == b.month && a.day < b.day)))
  }

  lemma {:induction false} MonthBounds(y: int, m: int, m2: int)
    requires 1 <= m < m2 <= 13
    ensures DaysBeforeMonth(y, m) + DaysInMonth(y, m) <= DaysBeforeMonth(y, m2)
    decreases m2 - m
  {
    DaysBeforeMonthStep(y, m);
    if m2 > m + 1 {
      MonthBounds(y, m, m2 - 1);
      DaysBeforeMonthStep(y, m2 - 1);
    }
  }

  lemma {:induction false} YearBounds(y: int, y2: int)
    requires y < y2
    ensures DaysBeforeYear(y) + YearLength(y) <= DaysBeforeYear(y2)
    decreases y2 - y
  {
    DaysBeforeYearStep(y);
    if y2 > y + 1 {
      YearBounds(y + 1, y2);
      DaysBeforeYearStep(y + 1);
    }
  }

  /** A valid date's day number lies inside its year. */
  lemma DayNumberInYear(d: Date)
    requires ValidDate(d)
    ensures DaysBeforeYear(d.year) <= DayNumber(d) < DaysBeforeYear(d.year) + YearLength(d.year)
  {
    DaysBeforeMonthStep(d.year, d.month);
    if d.month < 12 {
      MonthBounds(d.year, d.month, 13);
    }
  }

  /** Day numbers order valid dates exactly as the calendar does. */
  lemma DayNumberMonotonic(a: Date, b: Date)
    requires ValidDate(a) && ValidDate(b)
    ensures DateLt(a, b) <==> DayNumber(a) < DayNumber(b)
    ensures a == b <==> DayNumber(a) == DayNumber(b)
  {
    DayNumberInYear(a);
    DayNumberInYear(b);
    if a.year < b.year {
      YearBounds(a.year, b.year);
    } else if b.year < a.year {
      YearBounds(b.year, a.year);
    } else if a.month < b.month {
      MonthBounds(a.year, a.month, b.month);
    } else if b.month < a.month {
      MonthBounds(b.year, b.month, a.month);
    }
  }

  /** A date-time in UTC, to the nanosecond. */
  datatype DateTime = DateTime(date: Date, hour: int, minute: int, second: int, nanosecond: int)

  predicate ValidDateTime(t: DateTime) {
    ValidDate(t.date) && 0 <= t.hour < 24 && 0 <= t.minute < 60 && 0 <= t.second < 60 && 0 <= t.nanosecond < 1_000_000_000
  }

  /** `with_year`: fails when the day does not exist in that year (29 February). */
  function WithYear(t: DateTime, y: int): (r: Option<DateTime>)
    requires ValidDateTime(t)
    ensures r.Some? ==> ValidDateTime(r.value)
    ensures r.Some? <==> ValidDate(t.date.(year := y))
    ensures r.None? <==> t.date.month == 2 && t.date.day == 29 && !IsLeapYear(y)
    ensures r.Some? ==> r.value.date == t.date.(year := y) && r.value.(date := t.date) == t
  {
    if t.date.day <= DaysInMonth(y, t.date.month) then Some(t.(date := t.date.(year := y))) else None
  }

  /** `with_month`: fails for a month outside 1..12 or when the day does not exist in it. */
  function WithMonth(t: DateTime, m: int): (r: Option<DateTime>)
    requires ValidDateTime(t)
    ensures r.Some? <==> 1 <= m <= 12 && t.date.day <= DaysInMonth(t.date.year, m)
    ensures r.Some? ==> ValidDateTime(r.value) && r.value.date.month == m
  {
    if 1 <= m <= 12 && t.date.day <= DaysInMonth(t.date.year, m) then Some(t.(date := t.date.(month := m))) else None
  }

  /** `with_day(1)`, `with_hour(0)`, `with_minute(0)`, `with_second(0)`, `with_nanosecond(0)`, which cannot fail. */
  function StartOfMonth(t: DateTime): (r: DateTime)
    requires ValidDateTime(t)
    ensures ValidDateTime(r)
  {
    DateTime(t.date.(day := 1), 0, 0, 0, 0)
  }

  function Timestamp(t: DateTime): int
    requires ValidDateTime(t)
  {
    DayNumber(t.date) * 86400 + t.hour * 3600 + t.minute * 60 + t.second
  }

  /** `%Y`: four digits for years 0 to 9999, otherwise a sign and at least four digits. */
  function YearText(y: int): (s: string)
    ensures 0 <= y <= 9999 ==> |s| == 4
  {
    if 0 <= y <= 9999 then
      Text.NatToStringShort(y, 4);
      Text.PadLeft(Text.NatToString(y), 4)
    else if y < 0 then "-" + Text.PadLeft(Text.NatToString(-y), 4)
    else "+" + Text.PadLeft(Text.NatToString(y), 4)
  }

  /** `format("%Y-%m")`, the key usage is counted under. */
  function MonthKey(t: DateTime): string
    requires ValidDateTime(t)
  {
    YearText(t.date.year) + "-" + Text.PadLeft(Text.NatToString(t.date.month), 2)
  }

  /** Parse a run of at least `lo` and at most `hi` ASCII digits at the start of `s`. */
  function DigitRun(s: string, hi: nat): (k: nat)
    ensures k <= hi && k <= |s|
    ensures forall i :: 0 <= i < k ==> Text.IsAsciiDigit(s[i])
    ensures k < hi && k < |s| ==> !Text.IsAsciiDigit(s[k])
  {
    if hi == 0 || |s| == 0 || !Text.IsAsciiDigit(s[0]) then 0
    else
      var k := 1 + DigitRun(s[1..], hi - 1);
      assert forall i :: 1 <= i < k ==> s[i] == s[1..][i - 1];
      k
  }

  lemma {:induction false} DigitRunExact(s: string, hi: nat, n: nat)
    requires n <= hi && n <= |s|
    requires forall i :: 0 <= i < n ==> Text.IsAsciiDigit(s[i])
    requires n == hi || n == |s| || !Text.IsAsciiDigit(s[n])
    ensures DigitRun(s, hi) == n
  {
    if n > 0 {
      DigitRunExact(s[1..], hi - 1, n - 1);
    }
  }

  /** The length of the whitespace run at the start of `s`. */
  function SpaceRun(s: string): (k: nat)
    ensures k <= |s|
    ensures forall i :: 0 <= i < k ==> Text.IsRustWhitespace(s[i])
    ensures k < |s| ==> !Text.IsRustWhitespace(s[k])
  {
    if |s| == 0 || !Text.IsRustWhitespace(s[0]) then 0
    else
      var k := 1 + SpaceRun(s[1..]);
      assert forall i :: 1 <= i < k ==> s[i] == s[1..][i - 1];
      k
  }

  /**
   * One numeric item of chrono's parser: whitespace before it is skipped,
   * then one to `width` digits are read or, for a signed item, a `+` or `-`
   * followed by any number of digits. The result is the value and the
   * number of characters used.
   */
  function ScanNumber(s: string, width: nat, signed: bool): (r: Option<(int, nat)>)
    ensures r.Some? ==> 0 < r.value.1 <= |s|
    ensures r.Some? && !signed ==> r.value.0 >= 0
  {
    var w := SpaceRun(s);
    var t := s[w..];
    if signed && |t| > 0 && (t[0] == '+' || t[0] == '-') then
      var u := t[1..];
      var k := DigitRun(u, |u|);
      if k == 0 then None
      else
        assert Text.AllDigits(u[..k]);
        var v: int := Text.DigitsValue(u[..k]);
        Some((if t[0] == '-' then -v else v, w + 1 + k))
    else
      var k := DigitRun(t, width);
      if k == 0 then None
      else
        assert Text.AllDigits(t[..k]);
        Some((Text.DigitsValue(t[..k]), w + k))
  }

  /** The years a `NaiveDate` can hold. */
  const MinYear: int := -262144
  const MaxYear: int := 262143

  /**
   * `NaiveDate::parse_from_str(s, "%Y-%m-%d")`: a signed year item, a
   * hyphen, a two-digit month item, a hyphen and a two-digit day item,
   * nothing after; the date must exist and its year fit a `NaiveDate`.
   */
  function ParseDate(s: string): (r: Option<Date>)
    ensures r.Some? ==> ValidDate(r.value) && MinYear <= r.value.year <= MaxYear
  {
    match ScanNumber(s, 4, true)
    case None => None
    case Some((y, n)) => if n >= |s| || s[n] != '-' then None else ParseMonthDay(y, s[n + 1..])
  }

  /** The rest of `ParseDate` after the year and its hyphen. */
  function ParseMonthDay(y: int, s: string): (r: Option<Date>)
    ensures r.Some? ==> ValidDate(r.value) && r.value.year == y && MinYear <= y <= MaxYear
  {
    match ScanNumber(s, 2, false)
    case None => None
    case Some((m, n)) => if n >= |s| || s[n] != '-' then None else ParseDay(y, m, s[n + 1..])
  }

  /** The rest of `ParseDate` after the month and its hyphen. */
  function ParseDay(y: int, m: int, s: string): (r: Option<Date>)
    ensures r.Some? ==> ValidDate(r.value) && r.value.year == y && r.value.month == m && MinYear <= y <= MaxYear
  {
    match ScanNumber(s, 2, false)
    case None => None
    case Some((dd, n)) =>
      var d := Date(y, m, dd);
      if n == |s| && MinYear <= y <= MaxYear && ValidDate(d) then Some(d) else None
  }

  /** A field of `n` plain digits, ended by a non-digit, the end of input or the width, is read whole. */
  lemma ScanDigits(s: string, width: nat, signed: bool, n: nat)
    requires 0 < n <= width && n <= |s|
    requires Text.AllDigits(s[..n])
    requires n == width || n == |s| || !Text.IsAsciiDigit(s[n])
    ensures Text.AllDigits(s[..n])
    ensures ScanNumber(s, width, signed) == Some((Text.DigitsValue(s[..n]), n))
  {
    assert Text.IsAsciiDigit(s[..n][0]);
    assert SpaceRun(s) == 0;
    assert s[0..] == s;
    forall i | 0 <= i < n ensures Text.IsAsciiDigit(s[i]) {
      assert s[i] == s[..n][i];
    }
    DigitRunExact(s, width, n);
  }

  lemma {:induction false} SpaceRunExact(s: string, n: nat)
    requires n <= |s|
    requires forall i :: 0 <= i < n ==> Text.IsRustWhitespace(s[i])
    requires n == |s| || !Text.IsRustWhitespace(s[n])
    ensures SpaceRun(s) == n
  {
    if n > 0 {
      SpaceRunExact(s[1..], n - 1);
    }
  }

  /** Whitespace in front of a numeric item only lengthens what the item uses. */
  lemma ScanAfterSpace(ws: string, s: string, width: nat, signed: bool)
    requires forall i :: 0 <= i < |ws| ==> Text.IsRustWhitespace(ws[i])
    requires |s| > 0 ==> !Text.IsRustWhitespace(s[0])
    ensures ScanNumber(ws + s, width, signed) ==
      match ScanNumber(s, width, signed) case None => None case Some((v, n)) => Some((v, |ws| + n))
  {
    var a := ws + s;
    SpaceRunExact(a, |ws|);
    SpaceRunExact(s, 0);
    assert a[|ws|..] == s;
    assert s[0..] == s;
  }

  /** A signed item reads the whole digit run after its sign. */
  lemma ScanSigned(s: string, width: nat, n: nat)
    requires |s| > n > 0 && (s[0] == '+' || s[0] == '-')
    requires Text.AllDigits(s[1..n + 1])
    requires n + 1 == |s| || !Text.IsAsciiDigit(s[n + 1])
    ensures ScanNumber(s, width, true) ==
      Some((if s[0] == '-' then -(Text.DigitsValue(s[1..n + 1]) as int) else Text.DigitsValue(s[1..n + 1]), n + 1))
  {
    SpaceRunExact(s, 0);
    assert s[0..] == s;
    var u := s[1..];
    assert u[..n] == s[1..n + 1];
    forall i | 0 <= i < n ensures Text.IsAsciiDigit(u[i]) {
      assert u[i] == s[1..n + 1][i];
    }
    DigitRunExact(u, |u|, n);
  }

  /** `ParseDate` once the year item is known. */
  lemma ParseDateFromYear(s: string, y: int, n: nat)
    requires ScanNumber(s, 4, true) == Some((y, n))
    ensures ParseDate(s) == if n >= |s| || s[n] != '-' then None else ParseMonthDay(y, s[n + 1..])
  {
  }

  /** Whitespace before the year is skipped. */
  lemma LeadingSpaceIgnored(ws: string, s: string)
    requires forall i :: 0 <= i < |ws| ==> Text.IsRustWhitespace(ws[i])
    requires |s| > 0 ==> !Text.IsRustWhitespace(s[0])
    ensures ParseDate(ws + s) == ParseDate(s)
  {
    var a := ws + s;
    ScanAfterSpace(ws, s, 4, true);
    match ScanNumber(s, 4, true)
    case None =>
    case Some((y, n)) =>
      ParseDateFromYear(a, y, |ws| + n);
      ParseDateFromYear(s, y, n);
      if n < |s| {
        assert a[|ws| + n] == s[n];
        assert a[|ws| + n + 1..] == s[n + 1..];
      }
  }

  /**
   * A year written with a sign may have any number of digits: `+`/`-`, the
   * digits `s[1..n + 1]`, a hyphen, and the month and day follow.
   */
  lemma SignedYear(s: string, n: nat)
    requires |s| > n + 1 && n > 0 && (s[0] == '+' || s[0] == '-')
    requires Text.AllDigits(s[1..n + 1]) && s[n + 1] == '-'
    ensures ParseDate(s) ==
      ParseMonthDay(if s[0] == '-' then -(Text.DigitsValue(s[1..n + 1]) as int) else Text.DigitsValue(s[1..n + 1]), s[n + 2..])
  {
    ScanSigned(s, 4, n);
    ParseDateFromYear(s, if s[0] == '-' then -(Text.DigitsValue(s[1..n + 1]) as int) else Text.DigitsValue(s[1..n + 1]), n + 1);
  }

  /** Without a sign the year has at most four digits, so a fifth digit fails the parse. */
  lemma UnsignedYearTooLong(s: string)
    requires |s| >= 5 && Text.AllDigits(s[..5])
    ensures ParseDate(s) == None
  {
    assert s[..4] == s[..5][..4];
    ScanDigits(s, 4, true, 4);
    ParseDateFromYear(s, Text.DigitsValue(s[..4]), 4);
    assert s[4] == s[..5][4];
  }

  /** `%Y-%m-%d` */
  function FormatDate(d: Date): string
    requires ValidDate(d)
  {
    YearText(d.year) + "-" + Text.PadLeft(Text.NatToString(d.month), 2) + "-" + Text.PadLeft(Text.NatToString(d.day), 2)
  }

  /** Formatting a date of the years 0 to 9999 and parsing it back gives the same date. */
  lemma FormatParseRoundTrip(d: Date)
    requires ValidDate(d) && 0 <= d.year <= 9999
    ensures ParseDate(FormatDate(d)) == Some(d)
  {
    var y := YearText(d.year);
    var m := Text.PadLeft(Text.NatToString(d.month), 2);
    var dd := Text.PadLeft(Text.NatToString(d.day), 2);
    Text.NatToStringShort(d.month, 2);
    Text.NatToStringShort(d.day, 2);
    Text.PadLeftValue(d.year, 4);
    Text.PadLeftValue(d.month, 2);
    Text.PadLeftValue(d.day, 2);
    ParseParts(y, m, dd);
  }

  /**
   * Four, two and two digits joined by hyphens parse as the date they spell,
   * when it exists and its year fits.
   */
  lemma ParseParts(y: string, m: string, dd: string)
    requires |y| == 4 && |m| == 2 && |dd| == 2
    requires Text.AllDigits(y) && Text.AllDigits(m) && Text.AllDigits(dd)
    ensures var d := Date(Text.DigitsValue(y), Text.DigitsValue(m), Text.DigitsValue(dd));
      ParseDate(y + "-" + m + "-" + dd) == if ValidDate(d) && d.year <= MaxYear then Some(d) else None
  {
    var s1 := m + "-" + dd;
    assert y + "-" + m + "-" + dd == y + "-" + s1;
    YearDigits(y, s1);
    MonthDayDigits(Text.DigitsValue(y), m, dd);
    DayDigits(Text.DigitsValue(y), Text.DigitsValue(m), dd);
  }

  lemma YearDigits(y: string, rest: string)
    requires |y| == 4 && Text.AllDigits(y)
    ensures ParseDate(y + "-" + rest) == ParseMonthDay(Text.DigitsValue(y), rest)
  {
    var s := y + "-" + rest;
    assert s[..4] == y && s[4] == '-' && s[5..] == rest;
    ScanDigits(s, 4, true, 4);
  }

  lemma DayDigits(year: nat, month: int, dd: string)
    requires |dd| == 2 && Text.AllDigits(dd)
    ensures var d := Date(year, month, Text.DigitsValue(dd));
      ParseDay(year, month, dd) == if ValidDate(d) && year <= MaxYear then Some(d) else None
  {
    assert dd[..2] == dd;
    ScanDigits(dd, 2, false, 2);
  }

  lemma MonthDayDigits(year: nat, m: string, dd: string)
    requires |m| == 2 && Text.AllDigits(m) && |dd| == 2 && Text.AllDigits(dd)
    ensures ParseMonthDay(year, m + "-" + dd) == ParseDay(year, Text.DigitsValue(m), dd)
  {
    var s1 := m + "-" + dd;
    assert s1[..2] == m && s1[2] == '-' && s1[3..] == dd;
    ScanDigits(s1, 2, false, 2);
  }
}

=== FILE: config.dfy ===
/**
 * Application settings (src/config.rs): the built-in defaults and the
 * startup validation of the security-relevant values. String lengths are
 * counted in characters.
 */
module Config {

  import opened Wrappers

  datatype ServerConfig = ServerConfig(
    host: string, port: nat, workers: Option<nat>, maxConnections: Option<nat>, requestTimeoutSeconds: nat)

  datatype DatabaseConfig = DatabaseConfig(
    sqliteUrl: string, mongodbUrl: Option<string>, maxConnections: nat, minConnections: nat,
    acquireTimeoutSeconds: nat, idleTimeoutSeconds: nat)

  datatype AuthConfig = AuthConfig(
    jwtSecret: string, jwtExpirationHours: nat, refreshTokenExpirationDays: nat, bcryptCost: nat, apiKeyLength: nat)

  datatype RedisConfig = RedisConfig(
    url: string, maxConnections: nat, connectionTimeoutSeconds: nat, commandTimeoutSeconds: nat)

  datatype SecurityConfig = SecurityConfig(
    corsAllowedOrigins: seq<string>, encryptionKey: string, passwordMinLength: nat,
    requireUppercase: bool, requireLowercase: bool, requireNumbers: bool, requireSpecial: bool,
    maxLoginAttempts: nat, lockoutDurationMinutes: nat)

  datatype LoggingConfig = LoggingConfig(
    level: string, filePath: Option<string>, maxFileSizeMb: nat, maxFiles: nat, jsonFormat: bool)

  datatype RateLimitConfig = RateLimitConfig(
    requestsPerMinute: nat, burstSize: nat, premiumMultiplier: nat, enterpriseMultiplier: nat)

  datatype Settings = Settings(
    server: ServerConfig, database: DatabaseConfig, auth: AuthConfig, redis: RedisConfig,
    security: SecurityConfig, logging: LoggingConfig, rateLimiting: RateLimitConfig)

  const DefaultJwtSecret: string := "your-super-secret-jwt-key"
  const DefaultEncryptionKey: string := "your-encryption-key-32-chars-long!!"

  function Default(): (s: Settings)
    ensures s.auth.jwtExpirationHours == 24 && s.auth.refreshTokenExpirationDays == 30
    ensures s.auth.apiKeyLength == 32 && s.server.port == 3000
  {
    Settings(
      ServerConfig("0.0.0.0", 3000, None, Some(1000), 30),
      DatabaseConfig("sqlite:./guardr.db", None, 20, 1, 30, 300),
      AuthConfig(DefaultJwtSecret, 24, 30, 12, 32),
      RedisConfig("redis://127.0.0.1:6379", 10, 5, 3),
      SecurityConfig(["https://guardr.app", "https://www.guardr.app"], DefaultEncryptionKey, 8,
                     true, true, true, true, 5, 15),
      LoggingConfig("info", Some("logs/guardr.log"), 10, 5, true),
      RateLimitConfig(60, 10, 5, 20))
  }

  const JwtTooShort: string := "JWT secret must be at least 32 characters"
  const BadEncryptionKey: string := "Encryption key must be exactly 32 characters"
  const BadBcryptCost: string := "BCrypt cost must be between 10 and 15"

  /** The three startup checks, each reporting its own message; the first failing one wins. */
  function Validate(s: Settings): (r: Result<(), string>)
    ensures r.Ok? <==> |s.auth.jwtSecret| >= 32 && |s.security.encryptionKey| == 32 && 10 <= s.auth.bcryptCost <= 15
    ensures r.Err? ==> r.error in {JwtTooShort, BadEncryptionKey, BadBcryptCost}
  {
    if |s.auth.jwtSecret| < 32 then Err(JwtTooShort)
    else if |s.security.encryptionKey| != 32 then Err(BadEncryptionKey)
    else if s.auth.bcryptCost < 10 || s.auth.bcryptCost > 15 then Err(BadBcryptCost)
    else Ok(())
  }

  /**
   * First-failure order: a short JWT secret is reported whatever else is wrong,
   * the encryption key is reported only once the secret is long enough, and
   * the bcrypt cost only once both strings are acceptable.
   */
  lemma ValidateOrder(s: Settings)
    ensures |s.auth.jwtSecret| < 32 ==> Validate(s) == Err(JwtTooShort)
    ensures Validate(s) == Err(BadEncryptionKey) <==> |s.auth.jwtSecret| >= 32 && |s.security.encryptionKey| != 32
    ensures Validate(s) == Err(BadBcryptCost) <==>
      |s.auth.jwtSecret| >= 32 && |s.security.encryptionKey| == 32 && !(10 <= s.auth.bcryptCost <= 15)
  {
  }

  /** The shipped defaults do not pass validation: the secret has 25 characters. */
  lemma DefaultFailsOnJwtSecret()
    ensures |Default().auth.jwtSecret| == 25
    ensures Validate(Default()) == Err(JwtTooShort)
  {
  }

  /**
   * The default encryption key has 35 characters, so replacing only the JWT
   * secret by a long enough one still fails, now on the key.
   */
  lemma DefaultKeyAlsoFails(secret: string)
    requires |secret| >= 32
    ensures |Default().security.encryptionKey| == 35
    ensures Validate(Default().(auth := Default().auth.(jwtSecret := secret))) == Err(BadEncryptionKey)
  {
  }
}

=== FILE: database.dfy ===
/**
 * The persistent records of the backend (src/database.rs) and the row
 * selections its queries make. Tables are sequences of rows; timestamps are
 * Unix seconds; the current time is a parameter.
 */
module Database {

  import opened Wrappers
  import Tiers
  import Seqs
  import Uuids

  datatype User = User(
    id: Uuids.Uuid, email: string, passwordHash: string, name: Option<string>, tier: Tiers.Tier,
    emailVerified: bool, createdAt: int, lastLogin: Option<int>, isActive: bool)

  datatype ApiKey = ApiKey(
    id: Uuids.Uuid, userId: Uuids.Uuid, name: string, keyHash: string, keyPrefix: string,
    lastUsed: Option<int>, createdAt: int, expiresAt: Option<int>, isActive: bool)

  /** One usage counter row; counts start at 1 and only grow, so they are natural numbers here. */
  datatype UsageTracking = UsageTracking(userId: Uuids.Uuid, monthYear: string, endpoint: string, requestsCount: nat)

  datatype SecurityReport = SecurityReport(
    id: Uuids.Uuid, userId: Uuids.Uuid, reportType: string, inputDataHash: string, results: string,
    riskScore: Option<int>, createdAt: int, expiresAt: Option<int>)

  const SecondsPerDay: nat := 86400

  /** Reports are kept for 30 days. */
  const ReportLifetime: nat := 30 * SecondsPerDay

  /** `create_user`: a new account starts on the free tier, unverified and active. */
  function CreateUser(id: Uuids.Uuid, email: string, passwordHash: string, name: Option<string>, now: int): (u: User)
    ensures u.id == id && u.email == email && u.name == name && u.createdAt == now
    ensures u.tier == Tiers.Free && !u.emailVerified && u.isActive && u.lastLogin.None?
  {
    User(id, email, passwordHash, name, Tiers.Free, false, now, None, true)
  }

  /** The column a user is looked up by. */
  datatype UserKey = ByEmail(email: string) | ById(id: Uuids.Uuid)

  predicate Matches(u: User, key: UserKey) {
    match key
    case ByEmail(e) => u.email == e
    case ById(id) => u.id == id
  }

  /**
   * `get_user_by_email` and `get_user_by_id`: the first active user whose
   * column equals the key (`fetch_optional` on a query with `is_active = true`).
   */
  function GetUser(users: seq<User>, key: UserKey): (r: Option<User>)
    ensures r.Some? <==> exists i :: 0 <= i < |users| && users[i].isActive && Matches(users[i], key)
    ensures r.Some? ==> r.value in users && r.value.isActive && Matches(r.value, key)
  {
    if |users| == 0 then None
    else if users[0].isActive && Matches(users[0], key) then Some(users[0])
    else
      assert forall i :: 1 <= i < |users| ==> users[i] == users[1..][i - 1];
      GetUser(users[1..], key)
  }

  /** `create_api_key`: a new active key with no expiry and no use yet. */
  function CreateApiKey(id: Uuids.Uuid, userId: Uuids.Uuid, name: string, keyHash: string, keyPrefix: string, now: int)
    : (k: ApiKey)
    ensures k.userId == userId && k.keyPrefix == keyPrefix && k.isActive
    ensures k.expiresAt.None? && k.lastUsed.None? && k.createdAt == now
  {
    ApiKey(id, userId, name, keyHash, keyPrefix, None, now, None, true)
  }

  /** `get_user_usage`: the user's counters for one `YYYY-MM` month. */
  function GetUserUsage(usage: seq<UsageTracking>, userId: Uuids.Uuid, monthYear: string): (r: seq<UsageTracking>)
    ensures forall x :: x in r <==> x in usage && x.userId == userId && x.monthYear == monthYear
  {
    Seqs.Filter(usage, (x: UsageTracking) => x.userId == userId && x.monthYear == monthYear)
  }

  /** The descending `created_at` order the queries use. */
  function IntLt(a: int, b: int): bool { a < b }

  function KeyCreatedAt(k: ApiKey): int { k.createdAt }

  function ReportCreatedAt(r: SecurityReport): int { r.createdAt }

  lemma IntLtIsStrictTotalOrder()
    ensures Seqs.StrictTotalOrder(IntLt)
  {
  }

  predicate OwnedActiveKey(k: ApiKey, userId: Uuids.Uuid) {
    k.userId == userId && k.isActive
  }

  /** `list_user_api_keys`: the user's active keys, newest first. */
  function ListUserApiKeys(keys: seq<ApiKey>, userId: Uuids.Uuid): (r: seq<ApiKey>)
    ensures forall k :: k in r <==> k in keys && OwnedActiveKey(k, userId)
    ensures Seqs.SortedDesc(r, KeyCreatedAt, IntLt)
  {
    var owned := Seqs.Filter(keys, (k: ApiKey) => OwnedActiveKey(k, userId));
    var r := Seqs.SortDesc(owned, KeyCreatedAt, IntLt);
    IntLtIsStrictTotalOrder();
    Seqs.SortDescSorted(owned, KeyCreatedAt, IntLt);
    Seqs.SortDescMembers(owned, KeyCreatedAt, IntLt);
    r
  }

  predicate KeyMatches(k: ApiKey, userId: Uuids.Uuid, keyId: Uuids.Uuid) {
    k.id == keyId && k.userId == userId
  }

  /**
   * `revoke_api_key`: deactivate every key with this id owned by this user;
   * the flag reports whether any row matched (an already revoked key still
   * matches).
   */
  function RevokeApiKey(keys: seq<ApiKey>, userId: Uuids.Uuid, keyId: Uuids.Uuid): (r: (seq<ApiKey>, bool))
    ensures |r.0| == |keys|
    ensures r.1 <==> exists i :: 0 <= i < |keys| && KeyMatches(keys[i], userId, keyId)
    ensures forall i :: 0 <= i < |keys| ==>
      r.0[i] == (if KeyMatches(keys[i], userId, keyId) then keys[i].(isActive := false) else keys[i])
  {
    var updated := seq(|keys|, i requires 0 <= i < |keys| =>
      if KeyMatches(keys[i], userId, keyId) then keys[i].(isActive := false) else keys[i]);
    var any := exists i :: 0 <= i < |keys| && KeyMatches(keys[i], userId, keyId);
    (updated, any)
  }

  /**
   * After a revocation the key is gone from its owner's active list, and the
   * active lists of other users are unchanged.
   */
  lemma RevokeHidesKey(keys: seq<ApiKey>, userId: Uuids.Uuid, keyId: Uuids.Uuid, other: Uuids.Uuid)
    requires other != userId
    ensures forall k :: k in ListUserApiKeys(RevokeApiKey(keys, userId, keyId).0, userId) ==> k.id != keyId
    ensures ListUserApiKeys(RevokeApiKey(keys, userId, keyId).0, other) == ListUserApiKeys(keys, other)
  {
    var after := RevokeApiKey(keys, userId, keyId).0;
    forall k | k in ListUserApiKeys(after, userId) ensures k.id != keyId {
      var i :| 0 <= i < |after| && after[i] == k;
    }
    var p := (k: ApiKey) => OwnedActiveKey(k, other);
    assert Seqs.Filter(after, p) == Seqs.Filter(keys, p) by {
      FilterUnchangedOutside(keys, after, p, userId, keyId);
    }
  }

  lemma {:induction false} FilterUnchangedOutside(keys: seq<ApiKey>, after: seq<ApiKey>, p: ApiKey -> bool, userId: Uuids.Uuid, keyId: Uuids.Uuid)
    requires |after| == |keys|
    requires forall i :: 0 <= i < |keys| ==>
      after[i] == (if KeyMatches(keys[i], userId, keyId) then keys[i].(isActive := false) else keys[i])
    requires forall k :: p(k) ==> k.userId != userId
    ensures Seqs.Filter(after, p) == Seqs.Filter(keys, p)
  {
    if |keys| > 0 {
      FilterUnchangedOutside(keys[1..], after[1..], p, userId, keyId);
    }
  }

  /** A report is visible while it has no expiry or its expiry is still in the future. */
  predicate IsLive(r: SecurityReport, now: int) {
    r.expiresAt.None? || r.expiresAt.value > now
  }

  /** `create_security_report`: the stored row, created now and expiring 30 days later. */
  function CreateSecurityReport(
    id: Uuids.Uuid, userId: Uuids.Uuid, reportType: string, inputDataHash: string, results: string,
    riskScore: Option<int>, now: int): (r: SecurityReport)
    ensures r.userId == userId && r.reportType == reportType && r.createdAt == now
    ensures forall t :: IsLive(r, t) <==> t < now + ReportLifetime
  {
    SecurityReport(id, userId, reportType, inputDataHash, results, riskScore, now, Some(now + ReportLifetime))
  }

  predicate VisibleTo(r: SecurityReport, userId: Uuids.Uuid, now: int) {
    r.userId == userId && IsLive(r, now)
  }

  /** All of the user's live reports, newest first. */
  function VisibleReports(reports: seq<SecurityReport>, userId: Uuids.Uuid, now: int): (r: seq<SecurityReport>)
    ensures forall x :: x in r <==> x in reports && VisibleTo(x, userId, now)
    ensures Seqs.SortedDesc(r, ReportCreatedAt, IntLt)
  {
    var visible := Seqs.Filter(reports, (x: SecurityReport) => VisibleTo(x, userId, now));
    IntLtIsStrictTotalOrder();
    Seqs.SortDescSorted(visible, ReportCreatedAt, IntLt);
    Seqs.SortDescMembers(visible, ReportCreatedAt, IntLt);
    Seqs.SortDesc(visible, ReportCreatedAt, IntLt)
  }

  /** `get_user_reports`: the user's live reports, newest first, one SQL page. */
  function GetUserReports(reports: seq<SecurityReport>, userId: Uuids.Uuid, limit: int, offset: int, now: int)
    : (r: seq<SecurityReport>)
    ensures forall x :: x in r ==> x in reports && VisibleTo(x, userId, now)
    ensures limit >= 0 ==> |r| <= limit
    ensures Seqs.SortedDesc(r, ReportCreatedAt, IntLt)
  {
    var sorted := VisibleReports(reports, userId, now);
    Seqs.PageSorted(sorted, limit, offset, ReportCreatedAt, IntLt);
    Seqs.Page(sorted, limit, offset)
  }

  /** `get_report_by_id`: the report with this id, if it belongs to the user and has not expired. */
  function GetReportById(reports: seq<SecurityReport>, userId: Uuids.Uuid, reportId: Uuids.Uuid, now: int)
    : (r: Option<SecurityReport>)
    ensures r.Some? <==> exists i :: 0 <= i < |reports| && reports[i].id == reportId && VisibleTo(reports[i], userId, now)
    ensures r.Some? ==> r.value in reports && r.value.id == reportId && VisibleTo(r.value, userId, now)
  {
    if |reports| == 0 then None
    else if reports[0].id == reportId && VisibleTo(reports[0], userId, now) then Some(reports[0])
    else
      var rest := GetReportById(reports[1..], userId, reportId, now);
      assert forall i :: 1 <= i < |reports| ==> reports[i] == reports[1..][i - 1];
      rest
  }

  /** Nothing created more than 30 days ago is ever returned. */
  lemma ExpiredReportsHidden(reports: seq<SecurityReport>, userId: Uuids.Uuid, reportId: Uuids.Uuid, now: int)
    requires forall i :: 0 <= i < |reports| ==> reports[i].expiresAt == Some(reports[i].createdAt + ReportLifetime)
    ensures forall x :: x in GetUserReports(reports, userId, -1, 0, now) ==> x.createdAt > now - ReportLifetime
    ensures GetReportById(reports, userId, reportId, now).Some? ==>
      GetReportById(reports, userId, reportId, now).value.createdAt > now - ReportLifetime
  {
  }
}

=== FILE: dating.dfy ===
/**
 * The integer rules of the dating-safety endpoints in src/api/dating.rs:
 * pressure-phrase counting, the identity-claim checks, the free-tier
 * message limit, the thresholds that raise indicators and red flags, and
 * the advice per risk level. The floating-point scores (love bombing,
 * response times, the overall score) are inputs here; the overall score is
 * a `real`, which is exact where `f32` rounds.
 */
module Dating {

  import opened Wrappers
  import Text
  import Tiers
  import Errors

  // ------------------------------------------------------ pressure phrases

  const PressurePatterns: seq<string> := [
    "meet tonight", "come over now", "don't tell anyone", "delete this",
    "send money", "urgent", "emergency", "secret", "private", "alone"]

  /** How many of `pats` occur in the (already lower-cased) text. */
  function PatternHits(lower: string, pats: seq<string>): (n: nat)
    ensures n <= |pats|
  {
    if |pats| == 0 then 0
    else PatternHits(lower, pats[..|pats| - 1]) + (if Text.Contains(lower, pats[|pats| - 1]) then 1 else 0)
  }

  /** The pressure count of a conversation: one per (message, phrase) pair that matches. */
  function PressureTotal(contents: seq<string>): nat
  {
    if |contents| == 0 then 0
    else PressureTotal(contents[..|contents| - 1])
         + PatternHits(Text.ToLower(contents[|contents| - 1]), PressurePatterns)
  }

  /**
   * `detect_pressure_indicators`: for every message, lower-case it and add
   * one for every phrase it contains.
   */
  method DetectPressureIndicators(contents: seq<string>) returns (count: nat)
    ensures count == PressureTotal(contents)
    ensures count <= 10 * |contents|
  {
    count := 0;
    for i := 0 to |contents|
      invariant count == PressureTotal(contents[..i])
    {
      var lower := Text.ToLower(contents[i]);
      var hits := 0;
      for j := 0 to |PressurePatterns|
        invariant hits == PatternHits(lower, PressurePatterns[..j])
      {
        if Text.Contains(lower, PressurePatterns[j]) {
          hits := hits + 1;
        }
        assert PressurePatterns[..j + 1][..j] == PressurePatterns[..j];
      }
      assert PressurePatterns[..|PressurePatterns|] == PressurePatterns;
      count := count + hits;
      assert contents[..i + 1][..i] == contents[..i];
    }
    assert contents[..|contents|] == contents;
    PressureTotalBound(contents);
  }

  /** Each message matches at most every phrase once. */
  lemma {:induction false} PressureTotalBound(contents: seq<string>)
    ensures PressureTotal(contents) <= |PressurePatterns| * |contents|
    decreases |contents|
  {
    if |contents| > 0 {
      PressureTotalBound(contents[..|contents| - 1]);
    }
  }

  /** Counts add up over a conversation split in two. */
  lemma {:induction false} PressureTotalAppend(a: seq<string>, b: seq<string>)
    ensures PressureTotal(a + b) == PressureTotal(a) + PressureTotal(b)
    decreases |b|
  {
    if |b| > 0 {
      var init := b[..|b| - 1];
      assert (a + b)[..|a + b| - 1] == a + init;
      assert (a + b)[|a + b| - 1] == b[|b| - 1];
      PressureTotalAppend(a, init);
      var last := PatternHits(Text.ToLower(b[|b| - 1]), PressurePatterns);
      assert PressureTotal(a + b) == PressureTotal(a + init) + last;
      assert PressureTotal(b) == PressureTotal(init) + last;
    } else {
      assert a + b == a;
    }
  }

  /** Shouting does not hide a phrase: only the lower-cased text counts. */
  lemma PressureIgnoresCase(a: string, b: string)
    requires Text.ToLower(a) == Text.ToLower(b)
    ensures PressureTotal([a]) == PressureTotal([b])
  {
    assert [a][..0] == [b][..0];
  }

  // -------------------------------------------------------- identity claims

  type U8 = x: nat | x < 256

  datatype Claims = Claims(name: Option<string>, age: Option<U8>, location: Option<string>, occupation: Option<string>)

  /** Ages 18 to 80 inclusive pass; every other claimed age is suspicious. */
  predicate UnusualAge(age: U8) {
    !(18 <= age <= 80)
  }

  predicate NameMentioned(name: string, contents: seq<string>) {
    exists i :: 0 <= i < |contents| && Text.Contains(Text.ToLower(contents[i]), Text.ToLower(name))
  }

  /**
   * The integer part of `IdentityConsistency`. With at most one claim
   * checked, the score `verified / (verified + unverified) * 100` is 100 or
   * 0 exactly.
   */
  datatype Consistency = Consistency(
    consistencyScore: nat, inconsistencies: seq<string>, verified: nat, unverified: nat, suspicious: seq<string>)

  /** `analyze_consistency`: the name must appear in some message, in any case; the age must be plausible. */
  function AnalyzeConsistency(claims: Claims, contents: seq<string>): (c: Consistency)
    ensures c.verified + c.unverified <= 1
    ensures c.verified + c.unverified == 1 <==> claims.name.Some?
    ensures c.unverified == 1 <==> c.inconsistencies == ["Name not mentioned in conversation"]
    ensures c.unverified == 0 <==> c.inconsistencies == []
    ensures c.verified == 1 <==> claims.name.Some? && NameMentioned(claims.name.value, contents)
    ensures c.suspicious != [] <==> claims.age.Some? && UnusualAge(claims.age.value)
    ensures c.consistencyScore == (if c.verified == 1 then 100 else 0)
  {
    var mentioned := claims.name.Some? && NameMentioned(claims.name.value, contents);
    var missing := claims.name.Some? && !mentioned;
    var suspicious := if claims.age.Some? && UnusualAge(claims.age.value) then ["Unusual age range"] else [];
    Consistency(if mentioned then 100 else 0,
                if missing then ["Name not mentioned in conversation"] else [],
                if mentioned then 1 else 0, if missing then 1 else 0, suspicious)
  }

  /** Without participant information nothing is verified and the score is 0. */
  const NoClaims: Consistency := Consistency(0, ["No participant information provided"], 0, 0, [])

  datatype IdentityVerification = IdentityVerification(
    verifiedClaims: seq<string>, unverifiedClaims: seq<string>, suspicious: seq<string>, recommendations: seq<string>)

  /**
   * `verify_identity_claims`: a given name or age is accepted as verified
   * (the age is still flagged when implausible); a missing location or
   * occupation is listed as unverified. Education and social media are
   * ignored.
   */
  function VerifyIdentityClaims(claims: Claims): (r: IdentityVerification)
    ensures |r.verifiedClaims| == (if claims.name.Some? then 1 else 0) + (if claims.age.Some? then 1 else 0)
    ensures |r.unverifiedClaims| == (if claims.location.None? then 1 else 0) + (if claims.occupation.None? then 1 else 0)
    ensures r.suspicious != [] <==> claims.age.Some? && UnusualAge(claims.age.value)
    ensures |r.recommendations| == 3
  {
    var verified := (if claims.name.Some? then ["name"] else []) + (if claims.age.Some? then ["age"] else []);
    var unverified := (if claims.location.None? then ["location"] else [])
                      + (if claims.occupation.None? then ["occupation"] else []);
    var suspicious := if claims.age.Some? && UnusualAge(claims.age.value) then ["Age outside typical range"] else [];
    IdentityVerification(verified, unverified, suspicious, IdentityRecommendations)
  }

  const IdentityRecommendations: seq<string> := [
    "Request additional verification through video call",
    "Cross-reference social media profiles",
    "Verify location claims during conversation"]

  /** An implausible age is flagged and yet still listed as a verified claim. */
  lemma ImplausibleAgeStillVerified(claims: Claims)
    requires claims.age.Some? && UnusualAge(claims.age.value)
    ensures "age" in VerifyIdentityClaims(claims).verifiedClaims
    ensures VerifyIdentityClaims(claims).suspicious == ["Age outside typical range"]
  {
    var verified := (if claims.name.Some? then ["name"] else []) + ["age"];
    assert verified[|verified| - 1] == "age";
  }

  // --------------------------------------------------------------- levels

  /** The four risk levels; the response carries each by its lower-case name. */
  datatype Level = Low | Medium | High | Critical {
    function Name(): string {
      match this
      case Low => "low"
      case Medium => "medium"
      case High => "high"
      case Critical => "critical"
    }
  }

  /**
   * The `match` on the overall score as written: the ranges
   * `0.0..=25.0`, `25.1..=50.0` and `50.1..=75.0` leave the gaps
   * (25.0, 25.1) and (50.0, 50.1), which fall to `"critical"`.
   */
  function RiskLevelAsWritten(score: real): (level: Level)
    ensures level == Critical <==> score < 0.0 || score > 75.0 || 25.0 < score < 25.1 || 50.0 < score < 50.1
  {
    if 0.0 <= score <= 25.0 then Low
    else if 25.1 <= score <= 50.0 then Medium
    else if 50.1 <= score <= 75.0 then High
    else Critical
  }

  /** A score just above 25 is rated critical, above scores of 26 to 75. */
  lemma RiskLevelGap()
    ensures RiskLevelAsWritten(25.05) == Critical
    ensures RiskLevelAsWritten(26.0) == Medium
    ensures RiskLevelAsWritten(50.05) == Critical
  {
  }

  /** The evidently intended bands: up to 25 low, up to 50 medium, up to 75 high, above that critical. */
  function RiskLevel(score: real): (level: Level)
    ensures level == Critical <==> score > 75.0
    ensures level == Low <==> score <= 25.0
  {
    if score <= 25.0 then Low
    else if score <= 50.0 then Medium
    else if score <= 75.0 then High
    else Critical
  }

  function LevelRank(level: Level): nat {
    match level
    case Low => 0
    case Medium => 1
    case High => 2
    case Critical => 3
  }

  /** The corrected bands are monotone: a higher score never gets a lower level. */
  lemma RiskLevelMonotone(a: real, b: real)
    requires a <= b
    ensures LevelRank(RiskLevel(a)) <= LevelRank(RiskLevel(b))
  {
  }

  /** Both classifications agree everywhere outside the gaps and below 0. */
  lemma RiskLevelAgreesOutsideGaps(score: real)
    requires 0.0 <= score
    requires !(25.0 < score < 25.1) && !(50.0 < score < 50.1)
    ensures RiskLevelAsWritten(score) == RiskLevel(score)
  {
  }

  /** Advice per level: 3, 3, 2 and 1 recommendations, and always one safety tip. */
  function Advice(level: Level): (r: (seq<string>, seq<string>))
    ensures |r.0| == (if level == Critical || level == High then 3 else if level == Medium then 2 else 1)
    ensures |r.1| == 1
  {
    match level
    case Critical => (CriticalAdvice, CriticalTips)
    case High => (HighAdvice, HighTips)
    case Medium => (MediumAdvice, MediumTips)
    case Low => (LowAdvice, LowTips)
  }

  const CriticalAdvice: seq<string> := [
    "Consider ending this communication immediately",
    "Block this person on all platforms",
    "Report this profile to the dating platform"]
  const CriticalTips: seq<string> := ["Trust your instincts - if something feels wrong, it probably is"]
  const HighAdvice: seq<string> := [
    "Proceed with extreme caution",
    "Verify identity through video call before meeting",
    "Always meet in public places"]
  const HighTips: seq<string> := ["Tell friends/family about your plans"]
  const MediumAdvice: seq<string> := [
    "Take additional safety precautions",
    "Verify identity before meeting"]
  const MediumTips: seq<string> := ["Meet in public places during daytime"]
  const LowAdvice: seq<string> := ["Continue with normal safety precautions"]
  const LowTips: seq<string> := ["Always inform someone of your whereabouts"]

  // ---------------------------------------------------------- the handler

  const FreeMessageLimit: nat := 50

  datatype Analysis = Analysis(
    riskLevel: Level,
    pressureIndicators: nat,
    indicators: seq<string>,
    redFlags: seq<string>,
    identity: Consistency,
    recommendations: seq<string>,
    safetyTips: seq<string>)

  /**
   * `analyze_conversation` over message contents, rating the score with the
   * bands as written. `loveBombing` and `overall` are the floating-point
   * scores, computed outside the model.
   */
  function AnalyzeConversation(tier: Tiers.Tier, contents: seq<string>, claims: Option<Claims>,
                               loveBombing: real, overall: real): (r: Result<Analysis, Errors.AppError>)
    ensures r.Err? <==> tier == Tiers.Free && |contents| > FreeMessageLimit
    ensures r.Err? ==> r.error == Errors.BadRequest("Free tier limited to 50 messages per analysis")
    ensures r.Ok? ==> r.value.pressureIndicators == PressureTotal(contents)
    ensures r.Ok? ==> ("pressure_tactics" in r.value.indicators <==> PressureTotal(contents) > 2)
    ensures r.Ok? ==> ("immediate_danger" in r.value.redFlags <==> PressureTotal(contents) > 5)
    ensures r.Ok? ==> ("identity_inconsistency" in r.value.redFlags <==> r.value.identity.verified == 0)
    ensures r.Ok? ==> (r.value.recommendations, r.value.safetyTips) == Advice(r.value.riskLevel)
    ensures r.Ok? && 0.0 <= overall && !(25.0 < overall < 25.1) && !(50.0 < overall < 50.1) ==>
      r.value.riskLevel == RiskLevel(overall)
    ensures r.Ok? && overall > 75.0 ==> r.value.riskLevel == Critical && r.value.recommendations == CriticalAdvice
  {
    if tier == Tiers.Free && |contents| > FreeMessageLimit then
      Err(Errors.BadRequest("Free tier limited to 50 messages per analysis"))
    else
      var pressure := PressureTotal(contents);
      var identity := if claims.Some? then AnalyzeConsistency(claims.value, contents) else NoClaims;
      var level := RiskLevelAsWritten(overall);
      var advice := Advice(level);
      Ok(Analysis(level, pressure, Indicators(loveBombing, pressure),
                  RedFlags(pressure, identity.consistencyScore), identity, advice.0, advice.1))
  }

  /** Love bombing above 30 and more than two pressure phrases, in that order. */
  function Indicators(loveBombing: real, pressure: nat): (r: seq<string>)
    ensures "love_bombing" in r <==> loveBombing > 30.0
    ensures "pressure_tactics" in r <==> pressure > 2
  {
    (if loveBombing > 30.0 then ["love_bombing"] else [])
    + (if pressure > 2 then ["pressure_tactics"] else [])
  }

  /** More than five pressure phrases, and a consistency score below 30, in that order. */
  function RedFlags(pressure: nat, consistencyScore: int): (r: seq<string>)
    ensures "immediate_danger" in r <==> pressure > 5
    ensures "identity_inconsistency" in r <==> consistencyScore < 30
  {
    (if pressure > 5 then ["immediate_danger"] else [])
    + (if consistencyScore < 30 then ["identity_inconsistency"] else [])
  }

  /** More than two pressure phrases always raise the indicator, on any tier that may ask. */
  lemma ThreePhrasesRaiseIndicator(tier: Tiers.Tier, a: string, b: string, c: string, rest: seq<string>,
                                   claims: Option<Claims>, loveBombing: real, overall: real)
    requires tier != Tiers.Free
    requires PressureTotal([a, b, c]) >= 3
    ensures "pressure_tactics" in AnalyzeConversation(tier, [a, b, c] + rest, claims, loveBombing, overall).value.indicators
  {
    PressureTotalAppend([a, b, c], rest);
  }
}

=== FILE: demo_check.dfy ===
/**
 * The public demo endpoint of src/api/mod.rs (`demo_check`): a mock
 * assessment whose score depends only on the length of the name, with fixed
 * advice and tips. Lengths are counted in characters.
 */
module DemoCheck {

  import opened Wrappers
  import Text

  datatype SafetyTip = SafetyTip(category: string, message: string)

  datatype DemoResponse = DemoResponse(
    name: string,
    riskLevel: string,
    riskScore: nat,
    personVerification: string,
    recommendations: seq<string>,
    safetyTips: seq<SafetyTip>)

  /** `(len * 7) % 100`. */
  function DemoScore(name: string): (score: nat)
    ensures score < 100
    ensures |name| == 0 ==> score == 0
  {
    (|name| * 7) % 100
  }

  /** Each further character adds 7 to the score, wrapping round at 100. */
  lemma DemoScoreStep(name: string, c: char)
    ensures DemoScore(name + [c]) == (DemoScore(name) + 7) % 100
  {
    var k := |name| * 7;
    assert |name + [c]| * 7 == k + 7;
    ModShift(k % 100 + 7, k / 100);
    assert k % 100 + 7 + 100 * (k / 100) == k + 7;
  }

  /** A high score reads as low risk: 70 and above is LOW, 40 and above MEDIUM, the rest HIGH. */
  function RiskLevel(score: nat): (level: string)
    ensures level == "LOW" <==> score >= 70
    ensures level == "MEDIUM" <==> 40 <= score < 70
    ensures level == "HIGH" <==> score < 40
  {
    if score >= 70 then "LOW" else if score >= 40 then "MEDIUM" else "HIGH"
  }

  const VerificationPrefix: string := "Demo verification for "
  const VerificationSuffix: string :=
    ": This is a demonstration of Guardr's OSINT capabilities. "
    + "In production, we would check 40+ databases, scan for breaches, verify identity claims, "
    + "and analyze behavioral patterns. Real analysis takes 60-120 seconds."

  /** `" in {location}"` when a location is given, else nothing. */
  function LocationText(location: Option<string>): (t: string)
    ensures location.None? <==> t == []
    ensures location.Some? ==> t == " in " + location.value
  {
    match location
    case None => []
    case Some(l) => " in " + l
  }

  /** The fixed demonstration text around the subject of the check. */
  function Framed(subject: string): string {
    VerificationPrefix + subject + VerificationSuffix
  }

  function Verification(name: string, location: Option<string>): (text: string)
    ensures Text.IsPrefix(VerificationPrefix + name, text)
    ensures Text.IsSuffixOf(VerificationSuffix, text)
    ensures |text| == |VerificationPrefix| + |name| + |LocationText(location)| + |VerificationSuffix|
  {
    var text := Framed(name + LocationText(location));
    assert text[..|VerificationPrefix + name|] == VerificationPrefix + name;
    assert text[|text| - |VerificationSuffix|..] == VerificationSuffix;
    text
  }

  const Recommendations: seq<string> := [
    "Video call before meeting in person to verify identity",
    "Meet in a public place for your first meeting",
    "Tell a trusted friend where you're going",
    "Trust your instincts - if something feels off, it probably is"]

  const SafetyTips: seq<SafetyTip> := [
    SafetyTip("Smart Habits", "Always meet in public places for first dates"),
    SafetyTip("Did You Know?", "69% of LGBTQ+ individuals experience harassment in online dating"),
    SafetyTip("You Decide", "You are an adult. Use Guardr's insights to make informed decisions about your safety.")]

  /** `demo_check`: echoes the name, scores it, and returns four recommendations and three tips. */
  function Demo(name: string, location: Option<string>): (r: DemoResponse)
    ensures r.name == name
    ensures r.riskScore < 100
    ensures r.riskLevel in {"LOW", "MEDIUM", "HIGH"}
    ensures (r.riskLevel == "LOW") <==> r.riskScore >= 70
    ensures |r.recommendations| == 4 && |r.safetyTips| == 3
    ensures location.Some? ==> Text.Contains(r.personVerification, " in " + location.value)
  {
    var score := DemoScore(name);
    var text := Verification(name, location);
    assert location.Some? ==> Text.Contains(text, " in " + location.value) by {
      if location.Some? {
        var at := |VerificationPrefix + name|;
        assert text[at..at + |LocationText(location)|] == " in " + location.value;
        assert Text.OccursAt(text, " in " + location.value, at);
        Text.ContainsWindow(text, " in " + location.value);
      }
    }
    DemoResponse(name, RiskLevel(score), score, text, Recommendations, SafetyTips)
  }

  /** A location reads as if it were part of the name: only the text changes, never the score. */
  lemma LocationExtendsName(name: string, location: string)
    ensures Demo(name, Some(location)).personVerification == Demo(name + " in " + location, None).personVerification
    ensures Demo(name, Some(location)).riskScore == Demo(name, None).riskScore
  {
    VerificationExtends(name, location);
  }

  lemma VerificationExtends(name: string, location: string)
    ensures Verification(name, Some(location)) == Verification(name + " in " + location, None)
  {
    SubjectsAgree(name, location);
  }

  lemma SubjectsAgree(name: string, location: string)
    ensures name + LocationText(Some(location)) == name + " in " + location + LocationText(None)
  {
    Assoc(name, " in ", location);
  }

  lemma Assoc(a: string, b: string, c: string)
    ensures a + (b + c) == a + b + c + []
  {
  }

  /** Names whose lengths differ by 100 get the same score and level. */
  lemma {:induction false} ScoreRepeatsEvery100(a: string, b: string)
    requires |b| == |a| + 100
    ensures Demo(b, None).riskScore == Demo(a, None).riskScore
    ensures Demo(b, None).riskLevel == Demo(a, None).riskLevel
  {
    var n := |a| * 7;
    assert |b| * 7 == n + 700;
    ModShift(n, 7);
  }

  lemma ModShift(n: nat, k: nat)
    ensures (n + 100 * k) % 100 == n % 100
  {
    var q := n / 100;
    var r := n % 100;
    assert n + 100 * k == 100 * (q + k) + r;
  }

  /** The empty name scores 0 and is rated HIGH; a ten-letter name scores 70 and is rated LOW. */
  lemma ShortNamesLookRisky()
    ensures Demo("", None).riskLevel == "HIGH"
    ensures Demo("abcdefghij", None).riskScore == 70 && Demo("abcdefghij", None).riskLevel == "LOW"
  {
  }
}

=== FILE: demo_form.dfy ===
/**
 * The breach-check demo on the home page (website/src/app/page.tsx):
 * `handleDemoSearch` and the result view, as a state machine over three
 * kinds of event: the user typing, the form being submitted, and the
 * outstanding request settling. The browser's part is modelled as far as
 * it decides what reaches the handler: the value sanitisation and the
 * constraint validation of the `required` email field. The network is an
 * input: a settled request either yields a parsed JSON body or fails.
 */
module DemoForm {

  import opened Wrappers
  import Seqs
  import Text
  import Json

  /**
   * The component's state: the input text, the last result (`null` at
   * first), the loading flag, and the body of the request in flight.
   */
  datatype Form = Form(email: string, results: Json.Value, loading: bool, pending: Option<Json.Value>)

  const Initial: Form := Form("", Json.Null, false, None)

  /** What a settled request delivered. */
  datatype Outcome = Parsed(body: Json.Value) | Failed

  datatype Event = Typed(text: string) | Submitted | Settled(outcome: Outcome)

  /** The loading flag is up exactly while a request is in flight. */
  predicate Consistent(f: Form) {
    f.loading <==> f.pending.Some?
  }

  /** `!demoEmail.trim()`: nothing but JavaScript whitespace was typed. */
  predicate Blank(email: string) {
    Text.Trim(email, Text.IsJsWhitespace) == []
  }

  /** A text is blank exactly when every character of it is whitespace. */
  lemma BlankIffAllWhitespace(email: string)
    ensures Blank(email) <==> forall i :: 0 <= i < |email| ==> Text.IsJsWhitespace(email[i])
  {
    var t := Text.TrimStart(email, Text.IsJsWhitespace);
    if Blank(email) {
      assert Text.TrimEnd(t, Text.IsJsWhitespace) == [];
    }
  }

  /** The request body, `JSON.stringify({ email: demoEmail })`, before serialisation. */
  function RequestBody(email: string): (body: Json.Value)
    ensures Json.Lookup(body, "email") == Some(Json.Str(email))
  {
    var fields := [("email", Json.Str(email))];
    Json.FieldLookupLast(fields, "email", 0);
    Json.Object(fields)
  }

  /**
   * `handleDemoSearch` up to its `await`: a blank input changes nothing;
   * otherwise loading starts and the untrimmed text is sent, while the
   * previous result stays on screen.
   */
  function HandleSubmit(f: Form): (r: Form)
    ensures Blank(f.email) ==> r == f
    ensures !Blank(f.email) ==> (
      r.loading && r.pending == Some(RequestBody(f.email))
      && r.email == f.email && r.results == f.results)
  {
    if Blank(f.email) then f
    else Form(f.email, f.results, true, Some(RequestBody(f.email)))
  }

  /** The result stored when the request or its JSON parse throws. */
  const ConnectError: Json.Value := Json.Object([("error", Json.Str("Failed to connect to Guardr API"))])

  /**
   * The rest of `handleDemoSearch`: the parsed body replaces the result
   * wholesale, a failure stores the connection error, and either way
   * loading ends.
   */
  function HandleSettled(f: Form, outcome: Outcome): (r: Form)
    ensures !r.loading && r.pending.None?
    ensures r.email == f.email
    ensures outcome.Parsed? ==> r.results == outcome.body
    ensures outcome.Failed? ==> r.results == ConnectError
  {
    var results := match outcome
      case Parsed(body) => body
      case Failed => ConnectError;
    Form(f.email, results, false, None)
  }

  /** The submit button is disabled while loading, so the form cannot be submitted then. */
  predicate SubmitEnabled(f: Form) {
    !f.loading
  }

  predicate IsNewline(c: char) { c == '\n' || c == '\r' }

  /** What the value sanitisation keeps of the typed text: all but line breaks. */
  predicate NotNewline(c: char) { !IsNewline(c) }

  /**
   * The value sanitisation of an `<input type="email">`: line breaks are
   * removed, then leading and trailing ASCII whitespace. `e.target.value`,
   * which `onChange` stores, is the sanitised value.
   */
  function SanitizeEmail(v: string): (r: string)
    ensures forall i :: 0 <= i < |r| ==> !IsNewline(r[i])
    ensures r == [] || (!Text.IsHtmlWhitespace(r[0]) && !Text.IsHtmlWhitespace(r[|r| - 1]))
    ensures var kept := Seqs.Filter(v, NotNewline);
      Text.TrimWindow(kept, r, Text.LeadingRun(kept, Text.IsHtmlWhitespace), Text.IsHtmlWhitespace)
  {
    var kept := Seqs.Filter(v, NotNewline);
    var r := Text.Trim(kept, Text.IsHtmlWhitespace);
    WindowHasNoNewline(kept, r);
    r
  }

  lemma WindowHasNoNewline(kept: string, r: string)
    requires Text.TrimWindow(kept, r, Text.LeadingRun(kept, Text.IsHtmlWhitespace), Text.IsHtmlWhitespace)
    requires forall c :: c in kept ==> NotNewline(c)
    ensures forall i :: 0 <= i < |r| ==> !IsNewline(r[i])
  {
    var k := Text.LeadingRun(kept, Text.IsHtmlWhitespace);
    forall i | 0 <= i < |r| ensures !IsNewline(r[i]) {
      assert r[i] == kept[k + i];
      assert kept[k + i] in kept;
    }
  }

  /** The characters the HTML standard allows before the `@` of a valid e-mail address. */
  predicate IsLocalChar(c: char) {
    Text.IsAsciiAlphanumeric(c) || c in ".!#$%&'*+/=?^_`{|}~-"
  }

  /** A domain label: 1 to 63 letters, digits and hyphens, beginning and ending with a letter or digit. */
  predicate ValidLabel(l: string) {
    1 <= |l| <= 63 && Text.IsAsciiAlphanumeric(l[0]) && Text.IsAsciiAlphanumeric(l[|l| - 1])
    && forall i :: 0 <= i < |l| ==> Text.IsAsciiAlphanumeric(l[i]) || l[i] == '-'
  }

  /** The position of the first `c` in `s`, or `|s|` when there is none. */
  function IndexOf(s: string, c: char): (k: nat)
    ensures k <= |s|
    ensures k < |s| ==> s[k] == c
    ensures forall i :: 0 <= i < k ==> s[i] != c
  {
    if |s| == 0 || s[0] == c then 0
    else
      var k := 1 + IndexOf(s[1..], c);
      assert forall i :: 1 <= i < k ==> s[i] == s[1..][i - 1];
      k
  }

  /** One or more valid labels separated by dots. */
  predicate ValidDomain(d: string)
    decreases |d|
  {
    var k := IndexOf(d, '.');
    ValidLabel(d[..k]) && (k == |d| || ValidDomain(d[k + 1..]))
  }

  /**
   * The HTML standard's "valid e-mail address": one or more local-part
   * characters, an `@`, and a domain.
   */
  predicate ValidEmail(s: string) {
    var k := IndexOf(s, '@');
    0 < k < |s| && (forall i :: 0 <= i < k ==> IsLocalChar(s[i])) && ValidDomain(s[k + 1..])
  }

  /**
   * One event. Typing stores the sanitised value. A submission reaches the
   * handler only while the button is enabled and the field passes the
   * browser's constraint validation: it is `required` and of type email, so
   * its value must be a valid e-mail address. A settle arrives only for a
   * request in flight.
   */
  function Step(f: Form, e: Event): (r: Form)
    ensures e.Typed? ==> r == f.(email := SanitizeEmail(e.text))
    ensures e.Submitted? && (f.loading || !ValidEmail(f.email)) ==> r == f
    ensures e.Settled? && f.pending.None? ==> r == f
  {
    match e
    case Typed(text) => f.(email := SanitizeEmail(text))
    case Submitted => if SubmitEnabled(f) && ValidEmail(f.email) then HandleSubmit(f) else f
    case Settled(outcome) => if f.pending.Some? then HandleSettled(f, outcome) else f
  }

  /** A valid e-mail address begins with a local-part character, so it is never blank. */
  lemma ValidEmailNotBlank(s: string)
    requires ValidEmail(s)
    ensures !Blank(s)
  {
    BlankIffAllWhitespace(s);
    assert IsLocalChar(s[0]);
  }

  /**
   * Every submission the browser lets through starts a request carrying the
   * field's text: the handler's own blank check never fires.
   */
  lemma AcceptedSubmitSends(f: Form)
    requires SubmitEnabled(f) && ValidEmail(f.email)
    ensures Step(f, Submitted).loading && Step(f, Submitted).pending == Some(RequestBody(f.email))
  {
    ValidEmailNotBlank(f.email);
  }

  /** Every event keeps the loading flag in step with the request in flight. */
  lemma StepKeepsConsistent(f: Form, e: Event)
    requires Consistent(f)
    ensures Consistent(Step(f, e))
  {
  }

  function Run(f: Form, events: seq<Event>): (r: Form)
    decreases |events|
  {
    if |events| == 0 then f else Run(Step(f, events[0]), events[1..])
  }

  /** Every reachable state is consistent: at most one request is ever in flight. */
  lemma {:induction false} RunKeepsConsistent(f: Form, events: seq<Event>)
    requires Consistent(f)
    ensures Consistent(Run(f, events))
    decreases |events|
  {
    if |events| > 0 {
      StepKeepsConsistent(f, events[0]);
      RunKeepsConsistent(Step(f, events[0]), events[1..]);
    }
  }

  /** Once a request settles, loading is over, whatever the outcome. */
  lemma SettleEndsLoading(f: Form, outcome: Outcome)
    requires Consistent(f) && f.loading
    ensures !Step(f, Settled(outcome)).loading
  {
  }

  /** A whitespace-only entry sends nothing and changes nothing. */
  lemma BlankSubmitIsInert(f: Form)
    requires forall i :: 0 <= i < |f.email| ==> Text.IsJsWhitespace(f.email[i])
    ensures Step(f, Submitted) == f
  {
    BlankIffAllWhitespace(f.email);
  }

  /**
   * Spaces typed around an address are dropped by the field, and the bare
   * address is sent.
   */
  lemma PaddedEmailSentTrimmed(f: Form, s: string)
    requires SubmitEnabled(f) && ValidEmail(s)
    ensures Run(f, [Typed(" " + s + " "), Submitted]).pending == Some(RequestBody(s))
  {
    ValidEmailIsPlain(s);
    SanitizeSpacePadded(s);
    var events := [Typed(" " + s + " "), Submitted];
    var typed := Step(f, events[0]);
    AcceptedSubmitSends(typed);
    assert events[1..] == [Submitted];
    assert Run(typed, [Submitted]) == Step(typed, Submitted);
  }

  /** A value without line breaks or outer whitespace survives sanitisation of a space on either side. */
  lemma SanitizeSpacePadded(s: string)
    requires s != [] && !Text.IsHtmlWhitespace(s[0]) && !Text.IsHtmlWhitespace(s[|s| - 1])
    requires forall i :: 0 <= i < |s| ==> !IsNewline(s[i])
    ensures SanitizeEmail(" " + s + " ") == s
  {
    var v := " " + s + " ";
    Seqs.FilterAll(v, NotNewline);
    TrimSpacePadded(s);
  }

  lemma TrimSpacePadded(s: string)
    requires s != [] && !Text.IsHtmlWhitespace(s[0]) && !Text.IsHtmlWhitespace(s[|s| - 1])
    ensures Text.Trim(" " + s + " ", Text.IsHtmlWhitespace) == s
  {
    var v := " " + s + " ";
    var t := s + " ";
    assert v[1..] == t;
    assert Text.TrimStart(v, Text.IsHtmlWhitespace) == Text.TrimStart(t, Text.IsHtmlWhitespace);
    assert Text.TrimStart(t, Text.IsHtmlWhitespace) == t;
    assert t[..|t| - 1] == s;
    assert Text.TrimEnd(t, Text.IsHtmlWhitespace) == Text.TrimEnd(s, Text.IsHtmlWhitespace);
  }

  predicate IsDomainChar(c: char) {
    Text.IsAsciiAlphanumeric(c) || c == '-' || c == '.'
  }

  lemma {:induction false} ValidDomainChars(d: string)
    requires ValidDomain(d)
    ensures forall i :: 0 <= i < |d| ==> IsDomainChar(d[i])
    decreases |d|
  {
    var k := IndexOf(d, '.');
    forall i | 0 <= i < k ensures IsDomainChar(d[i]) {
      assert d[i] == d[..k][i];
    }
    if k < |d| {
      ValidDomainChars(d[k + 1..]);
      forall i | k + 1 <= i < |d| ensures IsDomainChar(d[i]) {
        assert d[i] == d[k + 1..][i - k - 1];
      }
    }
  }

  /** A valid e-mail address holds no whitespace and no line break. */
  lemma ValidEmailIsPlain(s: string)
    requires ValidEmail(s)
    ensures s != []
    ensures forall i :: 0 <= i < |s| ==> !Text.IsHtmlWhitespace(s[i]) && !IsNewline(s[i])
  {
    var k := IndexOf(s, '@');
    ValidDomainChars(s[k + 1..]);
    forall i | 0 <= i < |s| ensures !Text.IsHtmlWhitespace(s[i]) && !IsNewline(s[i]) {
      if i < k {
        LocalCharPlain(s[i]);
      } else if i > k {
        assert s[i] == s[k + 1..][i - k - 1];
        DomainCharPlain(s[i]);
      }
    }
  }

  lemma LocalCharPlain(c: char)
    requires IsLocalChar(c)
    ensures !Text.IsHtmlWhitespace(c) && !IsNewline(c)
  {
  }

  lemma DomainCharPlain(c: char)
    requires IsDomainChar(c)
    ensures !Text.IsHtmlWhitespace(c) && !IsNewline(c)
  {
  }

  // ------------------------------------------------------------------- view

  datatype BadgeVariant = Danger | Warning | Success

  datatype View = NoResult | ErrorView(message: Json.Value) | ReportView(badge: BadgeVariant)

  /** The badge of a report: HIGH is danger, MEDIUM a warning, anything else success. */
  function Badge(riskLevel: Json.Value): (b: BadgeVariant)
    ensures b == Danger <==> riskLevel == Json.Str("HIGH")
    ensures b == Warning <==> riskLevel == Json.Str("MEDIUM")
  {
    if riskLevel == Json.Str("HIGH") then Danger
    else if riskLevel == Json.Str("MEDIUM") then Warning
    else Success
  }

  /** `{demoResults && (demoResults.error ? error : report)}`. */
  function ViewOf(results: Json.Value): (v: View)
    ensures v.NoResult? <==> !Json.Truthy(results)
    ensures v.ErrorView? <==> Json.Truthy(results) && Json.Truthy(Json.Index(results, "error"))
    ensures v.ErrorView? ==> v.message == Json.Index(results, "error")
  {
    if !Json.Truthy(results) then NoResult
    else if Json.Truthy(Json.Index(results, "error")) then ErrorView(Json.Index(results, "error"))
    else ReportView(Badge(Json.Index(results, "risk_level")))
  }

  /** A failed request always shows the error view with the connection message. */
  lemma FailureShowsError(f: Form)
    requires f.pending.Some?
    ensures ViewOf(Step(f, Settled(Failed)).results) == ErrorView(Json.Str("Failed to connect to Guardr API"))
  {
    Json.FieldLookupLast(ConnectError.fields, "error", 0);
  }

  /** A body with an empty `error` text is still shown as a report. */
  lemma EmptyErrorShowsReport()
    ensures ViewOf(Json.Object([("error", Json.Str(""))])).ReportView?
  {
    Json.FieldLookupLast([("error", Json.Str(""))], "error", 0);
  }
}

=== FILE: errors.dfy ===
/**
 * The application error type of the backend (src/errors.rs): how each error
 * becomes an HTTP status, a machine-readable type, a user-facing message, a
 * logging decision and a JSON response body, and how the business-level
 * `SecurityError` is folded into it.
 */
module Errors {

  import opened Wrappers
  import Json
  import Text

  /** What kind of `sqlx::Error` a database error carries; only this classification is observable. */
  datatype DbFailure =
    | RowNotFound
    | UniqueViolation
    | ForeignKeyViolation
    | OtherConstraint
    | OtherSqlx

  datatype AppError =
    | Unauthorized(msg: string)
    | Forbidden(msg: string)
    | NotFound(msg: string)
    | ValidationError(msg: string)
    | RateLimitExceeded(msg: string)
    | DatabaseError(db: DbFailure)
    | RedisError(msg: string)
    | JsonError(msg: string)
    | JwtError(msg: string)
    | HashError(msg: string)
    | ExternalApiError(msg: string)
    | ConfigError(msg: string)
    | InternalServerError(msg: string)
    | BadRequest(msg: string)
    | ServiceUnavailable(msg: string)
    | RequestTimeout(msg: string)
    | InsufficientStorage(msg: string)
    | TooManyRequests(msg: string)

  /** Variants the handlers raise for a caller's mistake: not logged, 4xx. */
  predicate IsClientError(e: AppError) {
    e.Unauthorized? || e.Forbidden? || e.NotFound? || e.ValidationError?
    || e.BadRequest? || e.RateLimitExceeded? || e.TooManyRequests?
  }

  function StatusCode(e: AppError): (code: nat)
    ensures 400 <= code < 600
    ensures IsClientError(e) ==> code < 500
  {
    match e
    case Unauthorized(_) => 401
    case Forbidden(_) => 403
    case NotFound(_) => 404
    case ValidationError(_) => 400
    case BadRequest(_) => 400
    case RateLimitExceeded(_) => 429
    case TooManyRequests(_) => 429
    case ServiceUnavailable(_) => 503
    case RequestTimeout(_) => 408
    case InsufficientStorage(_) => 507
    case DatabaseError(db) => DbStatusCode(db)
    case _ => 500
  }

  function DbStatusCode(db: DbFailure): nat {
    match db
    case RowNotFound => 404
    case UniqueViolation => 409
    case ForeignKeyViolation => 400
    case _ => 500
  }

  function ErrorType(e: AppError): string {
    match e
    case Unauthorized(_) => "UNAUTHORIZED"
    case Forbidden(_) => "FORBIDDEN"
    case NotFound(_) => "NOT_FOUND"
    case ValidationError(_) => "VALIDATION_ERROR"
    case BadRequest(_) => "BAD_REQUEST"
    case RateLimitExceeded(_) => "RATE_LIMIT_EXCEEDED"
    case TooManyRequests(_) => "TOO_MANY_REQUESTS"
    case ServiceUnavailable(_) => "SERVICE_UNAVAILABLE"
    case RequestTimeout(_) => "REQUEST_TIMEOUT"
    case InsufficientStorage(_) => "INSUFFICIENT_STORAGE"
    case DatabaseError(_) => "DATABASE_ERROR"
    case RedisError(_) => "REDIS_ERROR"
    case JsonError(_) => "JSON_ERROR"
    case JwtError(_) => "JWT_ERROR"
    case HashError(_) => "HASH_ERROR"
    case ExternalApiError(_) => "EXTERNAL_API_ERROR"
    case ConfigError(_) => "CONFIG_ERROR"
    case InternalServerError(_) => "INTERNAL_SERVER_ERROR"
  }

  /** The position of the variant in the declaration: an independent name for "which variant". */
  function Variant(e: AppError): nat {
    match e
    case Unauthorized(_) => 0
    case Forbidden(_) => 1
    case NotFound(_) => 2
    case ValidationError(_) => 3
    case RateLimitExceeded(_) => 4
    case DatabaseError(_) => 5
    case RedisError(_) => 6
    case JsonError(_) => 7
    case JwtError(_) => 8
    case HashError(_) => 9
    case ExternalApiError(_) => 10
    case ConfigError(_) => 11
    case InternalServerError(_) => 12
    case BadRequest(_) => 13
    case ServiceUnavailable(_) => 14
    case RequestTimeout(_) => 15
    case InsufficientStorage(_) => 16
    case TooManyRequests(_) => 17
  }

  /** The error type names the variant and nothing else: equal types iff equal variants. */
  lemma ErrorTypeInjective(a: AppError, b: AppError)
    ensures ErrorType(a) == ErrorType(b) <==> Variant(a) == Variant(b)
  {
  }

  function UserMessage(e: AppError): string {
    match e
    case Unauthorized(_) => UnauthorizedText
    case Forbidden(_) => ForbiddenText
    case NotFound(_) => NotFoundText
    case ValidationError(m) => "Validation failed: " + m
    case BadRequest(m) => "Invalid request: " + m
    case RateLimitExceeded(_) => RateLimitText
    case TooManyRequests(_) => TooManyRequestsText
    case ServiceUnavailable(_) => UnavailableText
    case RequestTimeout(_) => TimeoutText
    case InsufficientStorage(_) => StorageText
    case DatabaseError(db) => DbUserMessage(db)
    case _ => UnexpectedText
  }

  const UnauthorizedText: string := "Authentication required or invalid credentials"
  const ForbiddenText: string := "Access denied for this resource"
  const NotFoundText: string := "The requested resource was not found"
  const RateLimitText: string := "Rate limit exceeded. Please try again later"
  const TooManyRequestsText: string := "Too many requests. Please slow down"
  const UnavailableText: string := "Service temporarily unavailable. Please try again later"
  const TimeoutText: string := "Request timeout. Please try again"
  const StorageText: string := "Storage quota exceeded"
  const UnexpectedText: string := "An unexpected error occurred. Please try again later"

  function DbUserMessage(db: DbFailure): string {
    match db
    case RowNotFound => "Resource not found"
    case UniqueViolation => "Resource already exists"
    case ForeignKeyViolation => "Invalid reference to related resource"
    case _ => "Database operation failed"
  }

  /** The same error variant carrying a different inner message (database errors carry none). */
  function WithMessage(e: AppError, m: string): AppError {
    match e
    case Unauthorized(_) => Unauthorized(m)
    case Forbidden(_) => Forbidden(m)
    case NotFound(_) => NotFound(m)
    case ValidationError(_) => ValidationError(m)
    case RateLimitExceeded(_) => RateLimitExceeded(m)
    case DatabaseError(db) => DatabaseError(db)
    case RedisError(_) => RedisError(m)
    case JsonError(_) => JsonError(m)
    case JwtError(_) => JwtError(m)
    case HashError(_) => HashError(m)
    case ExternalApiError(_) => ExternalApiError(m)
    case ConfigError(_) => ConfigError(m)
    case InternalServerError(_) => InternalServerError(m)
    case BadRequest(_) => BadRequest(m)
    case ServiceUnavailable(_) => ServiceUnavailable(m)
    case RequestTimeout(_) => RequestTimeout(m)
    case InsufficientStorage(_) => InsufficientStorage(m)
    case TooManyRequests(_) => TooManyRequests(m)
  }

  /**
   * Only validation and bad-request errors show their inner message to the
   * user (at the end of the text); for every other variant the text does not
   * depend on the message at all.
   */
  lemma UserMessageExposure(e: AppError, m: string)
    ensures e.ValidationError? ==> UserMessage(e) == "Validation failed: " + e.msg
    ensures e.BadRequest? ==> UserMessage(e) == "Invalid request: " + e.msg
    ensures !e.ValidationError? && !e.BadRequest? ==> UserMessage(WithMessage(e, m)) == UserMessage(e)
    ensures (e.ValidationError? || e.BadRequest?) && e.msg != m ==> UserMessage(WithMessage(e, m)) != UserMessage(e)
  {
    match e {
      case ValidationError(msg) =>
        if msg != m { PrefixCancels("Validation failed: ", msg, m); }
      case BadRequest(msg) =>
        if msg != m { PrefixCancels("Invalid request: ", msg, m); }
      case _ =>
        MessageIgnored(e, m);
    }
  }

  /** Every variant other than validation and bad request drops its message from the user text. */
  lemma MessageIgnored(e: AppError, m: string)
    requires !e.ValidationError? && !e.BadRequest?
    ensures UserMessage(WithMessage(e, m)) == UserMessage(e)
  {
    if IsClientError(e) {
      ClientMessageIgnored(e, m);
    } else {
      ServerMessageIgnored(e, m);
    }
  }

  lemma ClientMessageIgnored(e: AppError, m: string)
    requires e.Unauthorized? || e.Forbidden? || e.NotFound? || e.RateLimitExceeded? || e.TooManyRequests?
    ensures UserMessage(WithMessage(e, m)) == UserMessage(e)
  {
    match e {
      case Unauthorized(_) =>
      case Forbidden(_) =>
      case NotFound(_) =>
      case RateLimitExceeded(_) =>
      case TooManyRequests(_) =>
    }
  }

  lemma ServerMessageIgnored(e: AppError, m: string)
    requires !IsClientError(e)
    ensures UserMessage(WithMessage(e, m)) == UserMessage(e)
  {
    match e {
      case DatabaseError(_) =>
      case RedisError(_) =>
      case JsonError(_) =>
      case JwtError(_) =>
      case HashError(_) =>
      case ExternalApiError(_) =>
      case ConfigError(_) =>
      case InternalServerError(_) =>
      case ServiceUnavailable(_) =>
      case RequestTimeout(_) =>
      case InsufficientStorage(_) =>
    }
  }

  lemma PrefixCancels(p: string, a: string, b: string)
    requires a != b
    ensures p + a != p + b
  {
    assert (p + a)[|p|..] == a;
    assert (p + b)[|p|..] == b;
  }

  predicate ShouldLog(e: AppError) {
    !IsClientError(e)
  }

  /**
   * Apart from database errors, an error is left out of the log exactly when
   * its status is one of the client statuses 400, 401, 403, 404 and 429.
   */
  lemma ShouldLogByStatus(e: AppError)
    requires !e.DatabaseError?
    ensures !ShouldLog(e) <==> StatusCode(e) in {400, 401, 403, 404, 429}
  {
  }

  /** The JSON body of an error response; the timestamp and request id are supplied by the caller. */
  function ResponseBody(e: AppError, timestamp: string, requestId: string): (body: Json.Value)
    ensures Json.Index(body, "success") == Json.Bool(false)
    ensures Json.Index(Json.Index(body, "error"), "code") == Json.Num(StatusCode(e))
    ensures Json.Index(Json.Index(body, "error"), "type") == Json.Str(ErrorType(e))
  {
    var inner := [
      ("type", Json.Str(ErrorType(e))),
      ("message", Json.Str(UserMessage(e))),
      ("code", Json.Num(StatusCode(e)))];
    var outer := [
      ("success", Json.Bool(false)),
      ("error", Json.Obj(inner)),
      ("timestamp", Json.Str(timestamp)),
      ("request_id", Json.Str(requestId))];
    Json.FieldLookupLast(inner, "type", 0);
    Json.FieldLookupLast(inner, "code", 2);
    Json.FieldLookupLast(outer, "success", 0);
    Json.FieldLookupLast(outer, "error", 1);
    Json.Obj(outer)
  }

  type U8 = x: int | 0 <= x < 0x100

  /** Business-rule failures of the security analysis. */
  datatype SecurityError =
    | WeakPassword
    | EmailBreached
    | PasswordBreached
    | HighRiskScore(score: U8)
    | InvalidAnalysisRequest

  function FromSecurityError(se: SecurityError): (e: AppError)
    ensures e.BadRequest?
    ensures StatusCode(e) == 400 && !ShouldLog(e)
  {
    match se
    case WeakPassword => BadRequest("Password is too weak")
    case EmailBreached => BadRequest("Email found in known data breaches")
    case PasswordBreached => BadRequest("Password found in known data breaches")
    case HighRiskScore(score) => BadRequest("High security risk detected (score: " + Text.IntToString(score) + ")")
    case InvalidAnalysisRequest => BadRequest("Invalid security analysis request")
  }

  /** Distinct security errors stay distinguishable after conversion. */
  lemma FromSecurityErrorInjective(a: SecurityError, b: SecurityError)
    requires FromSecurityError(a) == FromSecurityError(b)
    ensures a == b
  {
    if a.HighRiskScore? && b.HighRiskScore? {
      var p := "High security risk detected (score: ";
      var sa := Text.IntToString(a.score);
      var sb := Text.IntToString(b.score);
      assert p + sa + ")" == p + sb + ")";
      assert (p + sa + ")")[|p|..|p| + |sa|] == sa;
      assert |sa| == |sb|;
      assert (p + sb + ")")[|p|..|p| + |sb|] == sb;
      Text.IntToStringInjective(a.score, b.score);
    }
  }

  /** `From<anyhow::Error>`: any unexpected failure becomes a logged 500. */
  function FromAnyhow(message: string): (e: AppError)
    ensures StatusCode(e) == 500 && ShouldLog(e)
    ensures UserMessage(e) == "An unexpected error occurred. Please try again later"
  {
    InternalServerError(message)
  }

  /** `rate_limit_error`: a 429 naming the limit and its window. */
  function RateLimitError(limit: nat, window: string): (e: AppError)
    ensures e.RateLimitExceeded? && StatusCode(e) == 429 && !ShouldLog(e)
    ensures Text.Contains(e.msg, window)
  {
    var m := "Rate limit of " + Text.IntToString(limit) + " requests per " + window + " exceeded";
    Text.ContainsSelf(window);
    assert Text.OccursAt(m, window, |"Rate limit of " + Text.IntToString(limit) + " requests per "|);
    Text.ContainsWindow(m, window);
    RateLimitExceeded(m)
  }

  /** Message text for one field-validation failure code (`validation_error_response`). */
  function FieldErrorMessage(code: string, minParam: Option<string>, maxParam: Option<string>, message: Option<string>): string {
    match code
    case "email" => "Invalid email format"
    case "length" =>
      if minParam.Some? then "Must be at least " + minParam.value + " characters long"
      else if maxParam.Some? then "Must be at most " + maxParam.value + " characters long"
      else "Invalid length"
    case "range" => "Value out of allowed range"
    case "password_too_short" => "Password must be at least 8 characters long"
    case "missing_uppercase" => "Password must contain at least one uppercase letter"
    case "missing_lowercase" => "Password must contain at least one lowercase letter"
    case "missing_digit" => "Password must contain at least one number"
    case "missing_special_char" => "Password must contain at least one special character"
    case _ => message.GetOr("Invalid value")
  }
}

=== FILE: filters.dfy ===
/**
 * The breach-dump filters: src/filter.rs (drop the entries of the `result`
 * array whose email mentions one blocked address) and src/filtermain.rs
 * (drop two blocked addresses, order by breach date newest first, flag weak
 * passwords). Both act on the parsed JSON; reading and writing the files is
 * not modelled.
 */
module Filters {

  import opened Wrappers
  import Text
  import Json
  import Seqs

  /** The entry's `email`, when it is a string. */
  function Email(entry: Json.Value): Option<string> {
    Json.AsStr(Json.Index(entry, "email"))
  }

  // ------------------------------------------------------------ filter.rs

  const BasicBlocked: string := "dan@hotmail.com"

  /** `run_filter`'s retain test: drop an entry whose string email contains the blocked address. */
  predicate KeepBasic(entry: Json.Value) {
    Email(entry).None? || !Text.Contains(Email(entry).value, BasicBlocked)
  }

  /** The top-level object's `result` field, when it is an array. */
  function ResultArray(v: Json.Value): (r: Option<seq<Json.Value>>)
    ensures r.Some? ==> v.Obj?
  {
    match Json.Lookup(v, "result")
    case Some(Arr(items)) => Some(items)
    case _ => None
  }

  /** `run_filter` on the parsed input: only the `result` array is touched. */
  function BasicFilter(v: Json.Value): (r: Json.Value)
    ensures ResultArray(v).None? ==> r == v
    ensures ResultArray(v).Some? ==> (
      r.Obj? && ResultArray(r).Some?
      && (forall k :: k != "result" ==> Json.Lookup(r, k) == Json.Lookup(v, k))
      && (forall e :: e in ResultArray(r).value <==> e in ResultArray(v).value && KeepBasic(e)))
  {
    match ResultArray(v)
    case None => v
    case Some(items) => Json.Set(v, "result", Json.Arr(Seqs.Filter(items, KeepBasic)))
  }

  /** Kept entries keep their relative order: the result array is the order-preserving filter. */
  lemma BasicFilterKeepsOrder(v: Json.Value)
    requires ResultArray(v).Some?
    ensures ResultArray(BasicFilter(v)) == Some(Seqs.Filter(ResultArray(v).value, KeepBasic))
  {
  }

  /** Filtering a second time removes nothing more. */
  lemma BasicFilterIdempotent(v: Json.Value)
    ensures BasicFilter(BasicFilter(v)) == BasicFilter(v)
  {
    if ResultArray(v).Some? {
      var items := ResultArray(v).value;
      var kept := Seqs.Filter(items, KeepBasic);
      Seqs.FilterFilter(items, KeepBasic, KeepBasic, KeepBasic);
      var once := BasicFilter(v);
      assert ResultArray(once) == Some(kept);
      SetFieldTwice(v.fields, "result", Json.Arr(kept));
    }
  }

  /** Assigning a field the value it was just given changes nothing. */
  lemma SetFieldTwice(fs: seq<(string, Json.Value)>, key: string, x: Json.Value)
    ensures Json.SetField(Json.SetField(fs, key, x), key, x) == Json.SetField(fs, key, x)
  {
    var once := Json.SetField(fs, key, x);
    assert key in Json.Keys(once);
    var twice := Json.SetField(once, key, x);
    assert |twice| == |once|;
    forall i | 0 <= i < |once| ensures twice[i] == once[i] {
      if once[i].0 == key {
        assert once[i] == (key, x) by {
          SetFieldValues(fs, key, x, i);
        }
      }
    }
  }

  /** Every field a key assignment leaves under that key holds the assigned value. */
  lemma SetFieldValues(fs: seq<(string, Json.Value)>, key: string, x: Json.Value, i: int)
    requires 0 <= i < |Json.SetField(fs, key, x)| && Json.SetField(fs, key, x)[i].0 == key
    ensures Json.SetField(fs, key, x)[i].1 == x
  {
  }

  // -------------------------------------------------------- filtermain.rs

  const AdvancedBlocked: seq<string> := ["dan@hotmail.com", "mcrib96@gmail.com"]

  /** `run_advanced_filter`'s retain test: drop an entry whose string email is exactly a blocked address. */
  predicate KeepAdvanced(entry: Json.Value) {
    Email(entry).None? || Email(entry).value !in AdvancedBlocked
  }

  /** `source.breach_date`, or the empty text when it is missing or not a string. */
  function BreachDate(entry: Json.Value): string {
    Json.AsStr(Json.Index(Json.Index(entry, "source"), "breach_date")).GetOr("")
  }

  /** The 19 substrings `is_weak_password` looks for, case-sensitively. */
  const WeakPatterns: seq<string> := [
    "123456", "password", "qwerty", "1q2w3e4r", "letmein", "iloveyou",
    "admin", "welcome", "monkey", "football", "abc123", "passw0rd", "zaq1zaq1",
    "root", "changeme", "trustno1", "shadow", "master", "superman"]

  predicate IsWeakPassword(password: string) {
    Text.ContainsAny(password, WeakPatterns)
  }

  /** The entry's password is a string with a weak pattern in it. */
  predicate HasWeakPassword(entry: Json.Value) {
    var p := Json.AsStr(Json.Index(entry, "password"));
    p.Some? && IsWeakPassword(p.value)
  }

  /** Sets `weak_password` to true on an entry with a weak password; nothing else changes. */
  function Flag(entry: Json.Value): (r: Json.Value)
    ensures forall k :: k != "weak_password" ==> Json.Lookup(r, k) == Json.Lookup(entry, k)
    ensures HasWeakPassword(entry) ==> Json.Lookup(r, "weak_password") == Some(Json.Bool(true))
    ensures !HasWeakPassword(entry) ==> r == entry
  {
    if HasWeakPassword(entry) then Json.Set(entry, "weak_password", Json.Bool(true)) else entry
  }

  function FlagAll(es: seq<Json.Value>): (r: seq<Json.Value>)
    ensures |r| == |es|
    ensures forall i :: 0 <= i < |es| ==> r[i] == Flag(es[i])
  {
    if |es| == 0 then [] else [Flag(es[0])] + FlagAll(es[1..])
  }

  /** Flagging leaves the email and the breach date as they were. */
  lemma FlagKeepsKeys(entry: Json.Value)
    ensures Email(Flag(entry)) == Email(entry)
    ensures KeepAdvanced(Flag(entry)) == KeepAdvanced(entry)
    ensures BreachDate(Flag(entry)) == BreachDate(entry)
  {
    assert Json.Lookup(Flag(entry), "email") == Json.Lookup(entry, "email");
    assert Json.Lookup(Flag(entry), "source") == Json.Lookup(entry, "source");
  }

  /** Strings compared as `str::cmp` does form a strict total order. */
  lemma StrLtIsStrictTotalOrder()
    ensures Seqs.StrictTotalOrder(Text.StrLt)
  {
    forall a ensures !Text.StrLt(a, a) {
      Text.StrLtIrreflexive(a);
    }
    forall a, b, c | Text.StrLt(a, b) && Text.StrLt(b, c) ensures Text.StrLt(a, c) {
      Text.StrLtTransitive(a, b, c);
    }
    forall a, b | a != b ensures Text.StrLt(a, b) || Text.StrLt(b, a) {
      Text.StrLtTotal(a, b);
    }
  }

  /** The retained entries, newest breach first, ties in their original order. */
  function Ordered(items: seq<Json.Value>): (r: seq<Json.Value>)
    ensures |r| == |Seqs.Filter(items, KeepAdvanced)|
    ensures multiset(r) == multiset(Seqs.Filter(items, KeepAdvanced))
    ensures Seqs.SortedDesc(r, BreachDate, Text.StrLt)
  {
    var kept := Seqs.Filter(items, KeepAdvanced);
    StrLtIsStrictTotalOrder();
    Seqs.SortDescSorted(kept, BreachDate, Text.StrLt);
    Seqs.SortDesc(kept, BreachDate, Text.StrLt)
  }

  /** `run_advanced_filter` on the parsed input: a non-array passes through. */
  function AdvancedFilter(v: Json.Value): (r: Json.Value)
    ensures !v.Arr? ==> r == v
    ensures v.Arr? ==> r.Arr? && |r.items| <= |v.items|
    ensures v.Arr? ==> forall i :: 0 <= i < |r.items| ==> KeepAdvanced(r.items[i])
    ensures v.Arr? ==> forall i, j :: 0 <= i < j < |r.items| ==>
      !Text.StrLt(BreachDate(r.items[i]), BreachDate(r.items[j]))
  {
    match v
    case Arr(items) =>
      FlaggedFacts(items);
      Json.Arr(FlagAll(Ordered(items)))
    case _ => v
  }

  lemma FlaggedFacts(items: seq<Json.Value>)
    ensures var r := FlagAll(Ordered(items));
      |r| <= |items|
      && (forall i :: 0 <= i < |r| ==> KeepAdvanced(r[i]))
      && (forall i, j :: 0 <= i < j < |r| ==> !Text.StrLt(BreachDate(r[i]), BreachDate(r[j])))
  {
    FlaggedKept(items);
    FlaggedSorted(Ordered(items));
  }

  lemma FlaggedKept(items: seq<Json.Value>)
    ensures forall i :: 0 <= i < |Ordered(items)| ==> KeepAdvanced(Flag(Ordered(items)[i]))
  {
    var ordered := Ordered(items);
    forall i | 0 <= i < |ordered| ensures KeepAdvanced(Flag(ordered[i])) {
      var e := ordered[i];
      assert e in multiset(ordered);
      InFiltered(items, e);
      FlagKeepsKeys(e);
    }
  }

  lemma InFiltered(items: seq<Json.Value>, e: Json.Value)
    requires e in multiset(Seqs.Filter(items, KeepAdvanced))
    ensures KeepAdvanced(e)
  {
    assert e in Seqs.Filter(items, KeepAdvanced);
  }

  lemma FlaggedSorted(ordered: seq<Json.Value>)
    requires Seqs.SortedDesc(ordered, BreachDate, Text.StrLt)
    ensures forall i, j :: 0 <= i < j < |ordered| ==>
      !Text.StrLt(BreachDate(Flag(ordered[i])), BreachDate(Flag(ordered[j])))
  {
    forall i, j | 0 <= i < j < |ordered|
      ensures !Text.StrLt(BreachDate(Flag(ordered[i])), BreachDate(Flag(ordered[j])))
    {
      FlagKeepsKeys(ordered[i]);
      FlagKeepsKeys(ordered[j]);
    }
  }

  /**
   * Up to the added flags, the output is a stable reordering of the kept
   * entries: the same entries, and among equal dates the same order.
   */
  lemma AdvancedFilterIsStableReorder(items: seq<Json.Value>, date: string)
    ensures AdvancedFilter(Json.Arr(items)).items == FlagAll(Ordered(items))
    ensures multiset(Ordered(items)) == multiset(Seqs.Filter(items, KeepAdvanced))
    ensures Seqs.FilterKey(Ordered(items), BreachDate, date)
         == Seqs.FilterKey(Seqs.Filter(items, KeepAdvanced), BreachDate, date)
  {
    StrLtIsStrictTotalOrder();
    Seqs.SortDescStable(Seqs.Filter(items, KeepAdvanced), BreachDate, Text.StrLt, date);
  }

  /** An entry without a string email survives, flagged if its password is weak. */
  lemma AdvancedKeepsEntriesWithoutEmail(items: seq<Json.Value>, e: Json.Value)
    requires e in items && Email(e).None?
    ensures Flag(e) in AdvancedFilter(Json.Arr(items)).items
  {
    KeptIsOrdered(items, e);
    FlaggedIn(Ordered(items), e);
  }

  lemma KeptIsOrdered(items: seq<Json.Value>, e: Json.Value)
    requires e in items && KeepAdvanced(e)
    ensures e in Ordered(items)
  {
    var kept := Seqs.Filter(items, KeepAdvanced);
    assert e in kept;
    assert e in multiset(kept);
    assert e in multiset(Ordered(items));
  }

  lemma FlaggedIn(es: seq<Json.Value>, e: Json.Value)
    requires e in es
    ensures Flag(e) in FlagAll(es)
  {
    var i :| 0 <= i < |es| && es[i] == e;
    assert FlagAll(es)[i] == Flag(e);
  }
}

=== FILE: json.dfy ===
/**
 * A small model of JSON values as the Rust (`serde_json::Value`), Python
 * (`dict`/`list`) and TypeScript code of the system sees them.
 *
 * Objects are ordered field lists. A lookup returns the value of the LAST
 * field with that key, as both `serde_json` and Python keep the last of
 * duplicate keys. Numbers are integers: no part of the modelled logic reads a
 * fractional JSON number.
 */
module Json {

  import opened Wrappers

  datatype Value =
    | Null
    | Bool(b: bool)
    | Num(n: int)
    | Str(s: string)
    | Arr(items: seq<Value>)
    | Obj(fields: seq<(string, Value)>)

  function FieldLookup(fs: seq<(string, Value)>, key: string): (r: Option<Value>)
    ensures r.Some? <==> exists i :: 0 <= i < |fs| && fs[i].0 == key
    decreases |fs|
  {
    if |fs| == 0 then None
    else if fs[|fs| - 1].0 == key then Some(fs[|fs| - 1].1)
    else FieldLookup(fs[..|fs| - 1], key)
  }

  /** The lookup finds the last field carrying the key. */
  lemma {:induction false} FieldLookupLast(fs: seq<(string, Value)>, key: string, i: int)
    requires 0 <= i < |fs| && fs[i].0 == key
    requires forall j :: i < j < |fs| ==> fs[j].0 != key
    ensures FieldLookup(fs, key) == Some(fs[i].1)
    decreases |fs|
  {
    if i < |fs| - 1 {
      FieldLookupLast(fs[..|fs| - 1], key, i);
    }
  }

  /** `value.get(key)`: the field of an object, `None` for a missing key or a non-object. */
  function Lookup(v: Value, key: string): Option<Value> {
    if v.Obj? then FieldLookup(v.fields, key) else None
  }

  /** `value[key]` in `serde_json`: `Null` for a missing key or a non-object. */
  function Index(v: Value, key: string): Value {
    Lookup(v, key).GetOr(Null)
  }

  /** `value.as_str()` */
  function AsStr(v: Value): Option<string> {
    if v.Str? then Some(v.s) else None
  }

  /** `value.as_u64()`: a non-negative integer that fits in 64 bits. */
  function AsU64(v: Value): Option<nat> {
    if v.Num? && 0 <= v.n < 0x1_0000_0000_0000_0000 then Some(v.n) else None
  }

  function Keys(fs: seq<(string, Value)>): set<string> {
    set i | 0 <= i < |fs| :: fs[i].0
  }

  /**
   * Assignment of a field: every field with that key gets the new value in
   * place, and a missing key is appended at the end.
   */
  function SetField(fs: seq<(string, Value)>, key: string, x: Value): (r: seq<(string, Value)>)
    ensures FieldLookup(r, key) == Some(x)
    ensures forall k :: k != key ==> FieldLookup(r, k) == FieldLookup(fs, k)
    ensures Keys(r) == Keys(fs) + {key}
  {
    if key in Keys(fs) then
      var r := seq(|fs|, i requires 0 <= i < |fs| => if fs[i].0 == key then (key, x) else fs[i]);
      ReplaceLookup(fs, key, x);
      assert Keys(r) == Keys(fs) by {
        forall k | k in Keys(fs) ensures k in Keys(r) {
          var i :| 0 <= i < |fs| && fs[i].0 == k;
          assert r[i].0 == k;
        }
      }
      r
    else
      var r := fs + [(key, x)];
      assert r[..|r| - 1] == fs;
      assert Keys(r) == Keys(fs) + {key} by {
        assert r[|fs|].0 == key;
        forall k | k in Keys(r) ensures k in Keys(fs) + {key} {
          var i :| 0 <= i < |r| && r[i].0 == k;
          if i < |fs| { assert fs[i].0 == k; }
        }
      }
      r
  }

  lemma {:induction false} ReplaceLookup(fs: seq<(string, Value)>, key: string, x: Value)
    requires key in Keys(fs)
    ensures var r := seq(|fs|, i requires 0 <= i < |fs| => if fs[i].0 == key then (key, x) else fs[i]);
      FieldLookup(r, key) == Some(x)
      && forall k :: k != key ==> FieldLookup(r, k) == FieldLookup(fs, k)
    decreases |fs|
  {
    var r := seq(|fs|, i requires 0 <= i < |fs| => if fs[i].0 == key then (key, x) else fs[i]);
    var n := |fs| - 1;
    var fs' := fs[..n];
    var r' := seq(|fs'|, i requires 0 <= i < |fs'| => if fs'[i].0 == key then (key, x) else fs'[i]);
    assert r[..n] == r';
    if fs[n].0 == key {
      forall k | k != key ensures FieldLookup(r, k) == FieldLookup(fs, k) {
        OtherKeysUnchanged(fs', key, x, k);
      }
    } else {
      var i :| 0 <= i < |fs| && fs[i].0 == key;
      assert i < n && fs'[i].0 == key;
      ReplaceLookup(fs', key, x);
    }
  }

  lemma {:induction false} OtherKeysUnchanged(fs: seq<(string, Value)>, key: string, x: Value, k: string)
    requires k != key
    ensures var r := seq(|fs|, i requires 0 <= i < |fs| => if fs[i].0 == key then (key, x) else fs[i]);
      FieldLookup(r, k) == FieldLookup(fs, k)
    decreases |fs|
  {
    if |fs| > 0 {
      var r := seq(|fs|, i requires 0 <= i < |fs| => if fs[i].0 == key then (key, x) else fs[i]);
      var n := |fs| - 1;
      var fs' := fs[..n];
      var r' := seq(|fs'|, i requires 0 <= i < |fs'| => if fs'[i].0 == key then (key, x) else fs'[i]);
      assert r[..n] == r';
      OtherKeysUnchanged(fs', key, x, k);
    }
  }

  /** `value[key] = x` on an object (the only case in which the system assigns a field). */
  function Set(v: Value, key: string, x: Value): (r: Value)
    requires v.Obj?
    ensures r.Obj?
    ensures Lookup(r, key) == Some(x)
    ensures forall k :: k != key ==> Lookup(r, k) == Lookup(v, k)
  {
    Obj(SetField(v.fields, key, x))
  }

  /** An object literal built from `(key, value)` pairs. */
  function Object(fields: seq<(string, Value)>): Value {
    Obj(fields)
  }

  /** JavaScript truthiness of a parsed JSON value. */
  predicate Truthy(v: Value) {
    match v
    case Null => false
    case Bool(b) => b
    case Num(n) => n != 0
    case Str(s) => s != ""
    case Arr(_) => true
    case Obj(_) => true
  }
}

=== FILE: middleware.dfy ===
/**
 * The request middleware of src/middleware.rs that decides something: the
 * client address used as the rate-limit key, the rate-limit check itself,
 * and the subscription gate on bulk, admin and export paths.
 */
module Middleware {

  import opened Wrappers
  import Text
  import Tiers
  import Errors
  import Auth
  import Users

  /** Request headers by lower-case name; a repeated header contributes its first value. */
  type Headers = map<string, string>

  /** `headers.get(name)` followed by a successful `to_str()`. */
  function Readable(h: Headers, name: string): (r: Option<string>)
    ensures r.Some? <==> name in h && Auth.HeaderReadable(h[name])
    ensures r.Some? ==> r.value == h[name]
  {
    if name in h && Auth.HeaderReadable(h[name]) then Some(h[name]) else None
  }

  /** `split(',').next()`: the text before the first comma, or all of it. */
  function FirstField(s: string): (r: string)
    ensures Text.IsPrefix(r, s)
    ensures forall i :: 0 <= i < |r| ==> r[i] != ','
    ensures |r| < |s| ==> s[|r|] == ','
  {
    if |s| == 0 || s[0] == ',' then []
    else
      var rest := FirstField(s[1..]);
      assert s[1..][..|rest|] == s[1..|rest| + 1];
      [s[0]] + rest
  }

  /** A window of a comma-free text is comma-free. */
  lemma OccursAtKeepsNoComma(s: string, r: string, i: int)
    requires forall k :: 0 <= k < |s| ==> s[k] != ','
    requires Text.OccursAt(s, r, i)
    ensures forall k :: 0 <= k < |r| ==> r[k] != ','
  {
    forall k | 0 <= k < |r| ensures r[k] != ',' {
      assert r[k] == s[i + k];
    }
  }

  /** A window of a prefix is a window of the whole text. */
  lemma OccursInPrefix(s: string, p: string, r: string, i: int)
    requires Text.IsPrefix(p, s) && Text.OccursAt(p, r, i)
    ensures Text.OccursAt(s, r, i)
  {
    assert s[i..i + |r|] == p[i..i + |r|];
  }

  /** `value.split(',').next()` trimmed: the first hop of a forwarded-for list. */
  function ForwardedClient(value: string): (ip: string)
    ensures Text.Contains(value, ip)
    ensures forall k :: 0 <= k < |ip| ==> ip[k] != ','
    ensures ip == [] || (!Text.IsRustWhitespace(ip[0]) && !Text.IsRustWhitespace(ip[|ip| - 1]))
    ensures var first := FirstField(value);
      Text.TrimWindow(first, ip, Text.LeadingRun(first, Text.IsRustWhitespace), Text.IsRustWhitespace)
  {
    ForwardedClientFacts(value);
    Text.Trim(FirstField(value), Text.IsRustWhitespace)
  }

  lemma ForwardedClientFacts(value: string)
    ensures var ip := Text.Trim(FirstField(value), Text.IsRustWhitespace);
      Text.Contains(value, ip) && forall k :: 0 <= k < |ip| ==> ip[k] != ','
  {
    var first := FirstField(value);
    var ip := Text.Trim(first, Text.IsRustWhitespace);
    var i := Text.LeadingRun(first, Text.IsRustWhitespace);
    OccursAtKeepsNoComma(first, ip, i);
    OccursInPrefix(value, first, ip, i);
    Text.ContainsWindow(value, ip);
  }

  /**
   * `extract_ip_from_headers`: the first entry of `x-forwarded-for`, trimmed;
   * else `x-real-ip`; else `cf-connecting-ip`; a header that is not visible
   * ASCII is passed over as if it were absent.
   */
  function ExtractIp(h: Headers): (r: Option<string>)
    ensures r.None? <==> (Readable(h, "x-forwarded-for").None? && Readable(h, "x-real-ip").None?
                          && Readable(h, "cf-connecting-ip").None?)
    ensures Readable(h, "x-forwarded-for").Some? ==>
      (r.Some? && Text.Contains(h["x-forwarded-for"], r.value)
       && (forall k :: 0 <= k < |r.value| ==> r.value[k] != ',')
       && (r.value == [] || (!Text.IsRustWhitespace(r.value[0]) && !Text.IsRustWhitespace(r.value[|r.value| - 1]))))
    ensures Readable(h, "x-forwarded-for").None? && Readable(h, "x-real-ip").Some? ==> r == Readable(h, "x-real-ip")
    ensures (Readable(h, "x-forwarded-for").None? && Readable(h, "x-real-ip").None?
             && Readable(h, "cf-connecting-ip").Some?) ==> r == Readable(h, "cf-connecting-ip")
  {
    match Readable(h, "x-forwarded-for")
    case Some(value) => Some(ForwardedClient(value))
    case None =>
      match Readable(h, "x-real-ip")
      case Some(value) => Some(value)
      case None => Readable(h, "cf-connecting-ip")
  }

  /** A proxy chain `client, proxy, ...` is keyed by the client address it starts with. */
  lemma ForwardedForNamesClient(h: Headers, ip: string, proxies: string)
    requires "x-forwarded-for" in h && h["x-forwarded-for"] == ip + "," + proxies
    requires Auth.HeaderReadable(ip + "," + proxies)
    requires forall k :: 0 <= k < |ip| ==> ip[k] != ','
    requires ip == [] || (!Text.IsRustWhitespace(ip[0]) && !Text.IsRustWhitespace(ip[|ip| - 1]))
    ensures ExtractIp(h) == Some(ip)
  {
    var value := ip + "," + proxies;
    FirstFieldUpToComma(ip, proxies);
    Text.TrimNoOuterWhitespace(ip, Text.IsRustWhitespace);
  }

  lemma {:induction false} FirstFieldUpToComma(ip: string, rest: string)
    requires forall k :: 0 <= k < |ip| ==> ip[k] != ','
    ensures FirstField(ip + "," + rest) == ip
  {
    if |ip| > 0 {
      assert (ip + "," + rest)[1..] == ip[1..] + "," + rest;
      FirstFieldUpToComma(ip[1..], rest);
    }
  }

  /** The key requests are counted under: the client address, or `"unknown"` without one. */
  function RateLimitKey(h: Headers): (key: string)
    ensures ExtractIp(h).None? ==> key == "unknown"
    ensures ExtractIp(h).Some? ==> key == ExtractIp(h).value
  {
    ExtractIp(h).GetOr("unknown")
  }

  /** A forwarded-for header that starts with a comma gives the empty key, not `"unknown"`. */
  lemma EmptyForwardedForKey(proxies: string)
    requires Auth.HeaderReadable("," + proxies)
    ensures RateLimitKey(map["x-forwarded-for" := "," + proxies]) == ""
  {
    ForwardedForNamesClient(map["x-forwarded-for" := "," + proxies], "", proxies);
    assert "" + "," + proxies == "," + proxies;
  }

  /** Outcome of the rate-limit middleware. */
  datatype Admission =
    | Admitted(key: string)
    | Rejected(error: Errors.AppError)
    | Panicked

  /**
   * `rate_limit_middleware`: a limiter with a per-minute quota of
   * `perMinute` is built for this one request and asked about the key.
   * `NonZeroU32::new(0).unwrap()` panics; a fresh limiter has its whole burst
   * of `perMinute >= 1` cells, so the first check always admits.
   */
  function RateLimit(h: Headers, perMinute: nat): (r: Admission)
    ensures r.Panicked? <==> perMinute == 0
    ensures !r.Rejected?
    ensures r.Admitted? ==> r.key == RateLimitKey(h)
  {
    if perMinute == 0 then Panicked
    else if FreshLimiterAdmits(perMinute) then Admitted(RateLimitKey(h))
    else Rejected(Errors.RateLimitExceeded(
      "Rate limit exceeded for IP " + RateLimitKey(h) + ". Max " + Text.IntToString(perMinute) + " requests per minute."))
  }

  /** A keyed limiter that has seen no request holds `burst` cells for every key. */
  predicate FreshLimiterAdmits(burst: nat) {
    burst >= 1
  }

  /** Outcome of the subscription gate on a path. */
  function SubscriptionGate(user: Option<Tiers.Tier>, path: string): (r: Result<(), Errors.AppError>)
    ensures user.None? ==> r.Ok?
    ensures (user.Some? && Text.Contains(path, "/bulk-")) ==>
      (r.Err? <==> user.value == Tiers.Free)
    ensures (user.Some? && !Text.Contains(path, "/bulk-") && Text.Contains(path, "/admin/")) ==>
      (r.Err? <==> user.value != Tiers.Enterprise)
    ensures (user.Some? && !Text.Contains(path, "/bulk-") && !Text.Contains(path, "/admin/")
             && Text.Contains(path, "/export")) ==>
      (r.Err? <==> user.value == Tiers.Free)
    ensures (user.Some? && !Text.Contains(path, "/bulk-") && !Text.Contains(path, "/admin/")
             && !Text.Contains(path, "/export")) ==> r.Ok?
    ensures r.Err? ==> r.error.Forbidden?
  {
    match user
    case None => Ok(())
    case Some(tier) =>
      if Text.Contains(path, "/bulk-") then
        (if tier == Tiers.Free then Err(Errors.Forbidden("Bulk operations require a premium subscription")) else Ok(()))
      else if Text.Contains(path, "/admin/") then
        (if tier != Tiers.Enterprise then Err(Errors.Forbidden("Admin operations require an enterprise subscription"))
         else Ok(()))
      else if Text.Contains(path, "/export") then
        (if tier == Tiers.Free then Err(Errors.Forbidden("Export functionality requires a premium subscription"))
         else Ok(()))
      else Ok(())
  }

  /** A tier that passes the gate on a path lets every higher tier pass too. */
  lemma GateMonotoneInTier(a: Tiers.Tier, b: Tiers.Tier, path: string)
    requires Users.TierRank(a) <= Users.TierRank(b)
    requires SubscriptionGate(Some(a), path).Ok?
    ensures SubscriptionGate(Some(b), path).Ok?
  {
  }

  /**
   * The first matching rule decides: an admin path that also names a bulk
   * operation lets a Pro user through, while the admin path alone does not.
   */
  lemma FirstMatchingRuleDecides()
    ensures SubscriptionGate(Some(Tiers.Pro), "/admin/bulk-import").Ok?
    ensures SubscriptionGate(Some(Tiers.Pro), "/admin/").Err?
  {
    BulkAdminPath();
    AdminPath();
  }

  lemma BulkAdminPath()
    ensures Text.Contains("/admin/bulk-import", "/bulk-")
  {
    var p := "/admin/bulk-import";
    assert Text.OccursAt(p, "/bulk-", 6);
    Text.ContainsWindow(p, "/bulk-");
  }

  lemma AdminPath()
    ensures Text.Contains("/admin/", "/admin/") && !Text.Contains("/admin/", "/bulk-")
  {
    var q := "/admin/";
    Text.ContainsSelf(q);
    Text.ContainsWindow(q, "/bulk-");
    assert q[0..6][1] != "/bulk-"[1] && q[1..7][1] != "/bulk-"[1];
    forall i | 0 <= i && i + 6 <= |q| ensures !Text.OccursAt(q, "/bulk-", i) {
      assert i == 0 || i == 1;
    }
  }
}

=== FILE: reports.dfy ===
/**
 * The report endpoints of src/api/reports.rs: the paginated, filtered list
 * of a user's reports, reading and deleting one report by its printed id,
 * the export gate, and the admin gates. Timestamps are Unix seconds.
 */
module Reports {

  import opened Wrappers
  import Seqs
  import Uuids
  import Tiers
  import Json
  import Database
  import Errors

  /** `u32` values, as the query parameters and the offset arithmetic use them. */
  const U32Modulus: nat := 0x1_0000_0000
  type U32 = x: int | 0 <= x < U32Modulus

  /** Largest `u32`, which a float-to-`u32` cast saturates to. */
  const U32Max: U32 := 0xFFFF_FFFF

  const DefaultPerPage: nat := 20
  const MaxPerPage: nat := 100

  /** `ListReportsQuery`; the date bounds are timestamps. */
  datatype ListQuery = ListQuery(
    page: Option<U32>, perPage: Option<U32>, reportType: Option<string>,
    fromDate: Option<int>, toDate: Option<int>)

  /** `ReportSummary`: what the list shows of one report. */
  datatype ReportSummary = ReportSummary(
    id: string, reportType: string, riskScore: Option<int>, createdAt: int, expiresAt: Option<int>)

  datatype PaginationInfo = PaginationInfo(page: U32, perPage: U32, totalPages: U32, totalItems: nat)

  datatype PaginatedReports = PaginatedReports(reports: seq<ReportSummary>, pagination: PaginationInfo)

  /** `page.unwrap_or(1).max(1)`: the requested page, never below the first. */
  function PageNumber(requested: Option<U32>): (p: U32)
    ensures p >= 1
    ensures requested.Some? && requested.value >= 1 ==> p == requested.value
    ensures requested.None? || requested.value == 0 ==> p == 1
  {
    var p := requested.GetOr(1);
    if p < 1 then 1 else p
  }

  /** `per_page.unwrap_or(20).min(100)`: at most 100, and 0 stays 0. */
  function PerPage(requested: Option<U32>): (n: U32)
    ensures n <= MaxPerPage
    ensures requested.None? ==> n == DefaultPerPage
    ensures requested.Some? && requested.value <= MaxPerPage ==> n == requested.value
    ensures requested.Some? && requested.value > MaxPerPage ==> n == MaxPerPage
  {
    var n := requested.GetOr(DefaultPerPage);
    if n < MaxPerPage then n else MaxPerPage
  }

  /** The number of rows before the first row of the page. */
  function Offset(page: U32, perPage: U32): (o: nat)
    requires page >= 1
    ensures perPage > 0 ==> o / perPage == page - 1 && o % perPage == 0
    ensures perPage == 0 ==> o == 0
  {
    var o := (page - 1) * perPage;
    assert perPage > 0 ==> o / perPage == page - 1 && o % perPage == 0 by {
      if perPage > 0 {
        DivModUnique((page - 1) * perPage, perPage, page - 1, 0);
      }
    }
    o
  }

  lemma MulAtLeast(k: int, d: int)
    requires k >= 1 && d > 0
    ensures k * d >= d
  {
  }

  /** Quotient and remainder are determined by `a == q * d + r` with `0 <= r < d`. */
  lemma DivModUnique(a: int, d: int, q: int, r: int)
    requires d > 0 && 0 <= r < d && a == q * d + r
    ensures a / d == q && a % d == r
  {
    var q0 := a / d;
    if q0 > q {
      MulAtLeast(q0 - q, d);
    } else if q0 < q {
      MulAtLeast(q - q0, d);
    }
  }

  /**
   * `(page - 1) * per_page` as the handler computes it: a `u32` product,
   * which wraps modulo 2^32 in a release build before it is widened.
   */
  function OffsetAsWritten(page: U32, perPage: U32): (o: U32)
    requires page >= 1
    ensures Offset(page, perPage) < U32Modulus ==> o == Offset(page, perPage)
  {
    ((page - 1) * perPage) % U32Modulus
  }

  /** Page 42949674 of 100 rows wraps to offset 4: it lists rows of the first page. */
  lemma OffsetAsWrittenWraps()
    ensures Offset(42949674, 100) == 4294967300
    ensures OffsetAsWritten(42949674, 100) == 4
  {
  }

  /** `report_type` equality, when a type is asked for. */
  predicate MatchesType(r: Database.SecurityReport, reportType: Option<string>) {
    reportType.None? || r.reportType == reportType.value
  }

  /** `from <= created_at <= to`, a missing bound imposing nothing. */
  predicate InDateRange(createdAt: int, fromDate: Option<int>, toDate: Option<int>) {
    (fromDate.None? || fromDate.value <= createdAt) && (toDate.None? || createdAt <= toDate.value)
  }

  predicate MatchesQuery(r: Database.SecurityReport, q: ListQuery) {
    MatchesType(r, q.reportType) && InDateRange(r.createdAt, q.fromDate, q.toDate)
  }

  /** The type filter followed by the date filter, each applied only when asked for. */
  function ApplyFilters(rs: seq<Database.SecurityReport>, q: ListQuery): (r: seq<Database.SecurityReport>)
    ensures forall x :: x in r <==> x in rs && MatchesQuery(x, q)
    ensures Seqs.SortedDesc(rs, Database.ReportCreatedAt, Database.IntLt) ==>
      Seqs.SortedDesc(r, Database.ReportCreatedAt, Database.IntLt)
  {
    var typeIs := (x: Database.SecurityReport) => x.reportType == q.reportType.GetOr([]);
    var dated := (x: Database.SecurityReport) => InDateRange(x.createdAt, q.fromDate, q.toDate);
    var byType := if q.reportType.Some? then Seqs.Filter(rs, typeIs) else rs;
    var byDate := if q.fromDate.Some? || q.toDate.Some? then Seqs.Filter(byType, dated) else byType;
    assert Seqs.SortedDesc(rs, Database.ReportCreatedAt, Database.IntLt) ==>
           Seqs.SortedDesc(byDate, Database.ReportCreatedAt, Database.IntLt) by {
      if Seqs.SortedDesc(rs, Database.ReportCreatedAt, Database.IntLt) {
        Seqs.FilterSorted(rs, typeIs, Database.ReportCreatedAt, Database.IntLt);
        Seqs.FilterSorted(byType, dated, Database.ReportCreatedAt, Database.IntLt);
      }
    }
    byDate
  }

  /** The two filters in a row are one filter by the whole query, order kept. */
  lemma ApplyFiltersIsOneFilter(rs: seq<Database.SecurityReport>, q: ListQuery)
    ensures ApplyFilters(rs, q) == Seqs.Filter(rs, (x: Database.SecurityReport) => MatchesQuery(x, q))
  {
    var all := (x: Database.SecurityReport) => MatchesQuery(x, q);
    var byType := (x: Database.SecurityReport) => x.reportType == q.reportType.GetOr([]);
    var byDate := (x: Database.SecurityReport) => InDateRange(x.createdAt, q.fromDate, q.toDate);
    var typeAll := (x: Database.SecurityReport) => MatchesType(x, q.reportType);
    var dateAll := (x: Database.SecurityReport) => InDateRange(x.createdAt, q.fromDate, q.toDate);
    if q.reportType.Some? && (q.fromDate.Some? || q.toDate.Some?) {
      Seqs.FilterFilter(rs, byType, byDate, all);
    } else if q.reportType.Some? {
      Seqs.FilterFilter(rs, byType, dateAll, all);
      Seqs.FilterAll(Seqs.Filter(rs, byType), dateAll);
    } else if q.fromDate.Some? || q.toDate.Some? {
      Seqs.FilterFilter(rs, typeAll, byDate, all);
      Seqs.FilterAll(rs, typeAll);
    } else {
      Seqs.FilterAll(rs, all);
    }
  }

  function Summarize(r: Database.SecurityReport): ReportSummary {
    ReportSummary(Uuids.ToString(r.id), r.reportType, r.riskScore, r.createdAt, r.expiresAt)
  }

  function Summaries(rs: seq<Database.SecurityReport>): (r: seq<ReportSummary>)
    ensures |r| == |rs|
    ensures forall i :: 0 <= i < |rs| ==> r[i] == Summarize(rs[i])
  {
    if |rs| == 0 then [] else [Summarize(rs[0])] + Summaries(rs[1..])
  }

  /** Ceiling division: the least `n` with `n * d >= items`. */
  function CeilDiv(items: nat, d: nat): (n: nat)
    requires d > 0
    ensures n * d >= items && (n == 0 || (n - 1) * d < items)
    ensures n <= items
    ensures items <= d ==> n <= 1
  {
    CeilDivBounds(items, d);
    (items + d - 1) / d
  }

  lemma CeilDivBounds(items: nat, d: nat)
    requires d > 0
    ensures var n := (items + d - 1) / d;
      n * d >= items && (n == 0 || (n - 1) * d < items) && n <= items && (items <= d ==> n <= 1)
  {
    var n := (items + d - 1) / d;
    var m := (items + d - 1) % d;
    assert items + d - 1 == n * d + m && 0 <= m < d;
    assert (n - 1) * d == n * d - d;
    if n >= 2 {
      MulAtLeast(n - 1, d);
      MulAtLeast(d, n - 1);
    }
  }

  /**
   * `(items as f64 / per_page as f64).ceil() as u32`: the least number of
   * pages of `perPage` rows holding `items` rows. With no rows per page the
   * float is NaN (no items) or infinite, which the cast makes 0 or `u32::MAX`.
   */
  function TotalPages(items: nat, perPage: U32): (n: U32)
    requires items < U32Modulus
    ensures perPage > 0 ==> n * perPage >= items && (n == 0 || (n - 1) * perPage < items)
    ensures items == 0 ==> n == 0
    ensures perPage == 0 && items > 0 ==> n == U32Max
    ensures 0 < perPage && items <= perPage ==> n <= 1
  {
    if perPage == 0 then (if items == 0 then 0 else U32Max)
    else CeilDiv(items, perPage)
  }

  /** Row `i` lies in the window of `d` rows that starts at `(i / d) * d`. */
  lemma PageWindow(i: nat, d: nat)
    requires d > 0
    ensures (i / d) * d <= i < (i / d) * d + d
  {
    var q := i / d;
    var r := i % d;
    assert i == q * d + r;
  }

  /** Every report has its summary among the summaries. */
  lemma SummariesComplete(rs: seq<Database.SecurityReport>)
    ensures forall x :: x in rs ==> Summarize(x) in Summaries(rs)
  {
    forall x | x in rs ensures Summarize(x) in Summaries(rs) {
      var i :| 0 <= i < |rs| && rs[i] == x;
      assert Summaries(rs)[i] == Summarize(x);
    }
  }

  lemma SummariesFacts(rs: seq<Database.SecurityReport>)
    ensures forall s :: s in Summaries(rs) ==> exists x :: x in rs && s == Summarize(x)
    ensures Seqs.SortedDesc(rs, Database.ReportCreatedAt, Database.IntLt) ==>
      forall i, j :: 0 <= i < j < |rs| ==> Summaries(rs)[i].createdAt >= Summaries(rs)[j].createdAt
  {
    var r := Summaries(rs);
    forall s | s in r ensures exists x :: x in rs && s == Summarize(x) {
      var i :| 0 <= i < |r| && r[i] == s;
      assert rs[i] in rs;
    }
    if Seqs.SortedDesc(rs, Database.ReportCreatedAt, Database.IntLt) {
      forall i, j | 0 <= i < j < |rs| ensures r[i].createdAt >= r[j].createdAt {
        assert !Database.IntLt(Database.ReportCreatedAt(rs[i]), Database.ReportCreatedAt(rs[j]));
      }
    }
  }

  /** The list handler, given the offset it queries with. */
  function ListAt(reports: seq<Database.SecurityReport>, userId: Uuids.Uuid, q: ListQuery, offset: int, now: int)
    : (r: PaginatedReports)
    ensures r.pagination.page == PageNumber(q.page) && r.pagination.perPage == PerPage(q.perPage)
    ensures |r.reports| <= r.pagination.perPage && r.pagination.totalItems == |r.reports|
    ensures r.pagination.totalPages <= 1
    ensures forall s :: s in r.reports ==>
      exists x :: x in reports && Database.VisibleTo(x, userId, now) && MatchesQuery(x, q) && s == Summarize(x)
    ensures var rows := Database.GetUserReports(reports, userId, PerPage(q.perPage), offset, now);
      forall x :: x in rows && MatchesQuery(x, q) ==> Summarize(x) in r.reports
    ensures forall i, j :: 0 <= i < j < |r.reports| ==> r.reports[i].createdAt >= r.reports[j].createdAt
  {
    var page := PageNumber(q.page);
    var perPage := PerPage(q.perPage);
    var rows := Database.GetUserReports(reports, userId, perPage, offset, now);
    var kept := ApplyFilters(rows, q);
    var summaries := Summaries(kept);
    SummariesFacts(kept);
    SummariesComplete(kept);
    var total := TotalPages(|kept|, perPage);
    PaginatedReports(summaries, PaginationInfo(page, perPage, total, |kept|))
  }

  /**
   * `list_reports`: one database page of the user's live reports, newest
   * first, then narrowed by type and date. The filters run after paging, so
   * a page holds at most `per_page` summaries and reports at most one page.
   */
  function ListReports(reports: seq<Database.SecurityReport>, userId: Uuids.Uuid, q: ListQuery, now: int)
    : (r: PaginatedReports)
    ensures r.pagination.page >= 1 && r.pagination.perPage <= MaxPerPage
    ensures |r.reports| <= r.pagination.perPage && r.pagination.totalItems == |r.reports|
    ensures r.pagination.totalPages <= 1
    ensures forall s :: s in r.reports ==>
      exists x :: x in reports && Database.VisibleTo(x, userId, now) && MatchesQuery(x, q) && s == Summarize(x)
    ensures var rows := Database.GetUserReports(reports, userId, PerPage(q.perPage), Offset(PageNumber(q.page), PerPage(q.perPage)), now);
      forall x :: x in rows && MatchesQuery(x, q) ==> Summarize(x) in r.reports
  {
    var page := PageNumber(q.page);
    ListAt(reports, userId, q, Offset(page, PerPage(q.perPage)), now)
  }

  /** `list_reports` with the offset computed in wrapping `u32` arithmetic. */
  function ListReportsAsWritten(reports: seq<Database.SecurityReport>, userId: Uuids.Uuid, q: ListQuery, now: int)
    : (r: PaginatedReports)
    ensures Offset(PageNumber(q.page), PerPage(q.perPage)) < U32Modulus ==> r == ListReports(reports, userId, q, now)
  {
    var page := PageNumber(q.page);
    ListAt(reports, userId, q, OffsetAsWritten(page, PerPage(q.perPage)), now)
  }

  /** Without filters, the list is the summaries of one database page. */
  lemma ListAtUnfiltered(reports: seq<Database.SecurityReport>, userId: Uuids.Uuid, q: ListQuery, offset: int, now: int)
    requires q.reportType.None? && q.fromDate.None? && q.toDate.None?
    ensures ListAt(reports, userId, q, offset, now).reports
         == Summaries(Database.GetUserReports(reports, userId, PerPage(q.perPage), offset, now))
  {
    var rows := Database.GetUserReports(reports, userId, PerPage(q.perPage), offset, now);
    ApplyFiltersIsOneFilter(rows, q);
    Seqs.FilterAll(rows, (x: Database.SecurityReport) => MatchesQuery(x, q));
  }

  /** The page that holds row `i` at `d` rows per page: `i / d + 1`. */
  function RowPage(i: nat, d: U32): (page: U32)
    requires d > 0 && i / d + 1 < U32Modulus
    ensures page >= 1
    ensures Offset(page, d) <= i < Offset(page, d) + d
  {
    PageWindow(i, d);
    i / d + 1
  }

  /** A live report whose row falls in a page's window is listed on that page. */
  lemma ListedOnPage(reports: seq<Database.SecurityReport>, userId: Uuids.Uuid, page: U32, perPage: U32, i: nat, now: int)
    requires 1 <= page && 0 < perPage <= MaxPerPage
    requires i < |Database.VisibleReports(reports, userId, now)|
    requires Offset(page, perPage) <= i < Offset(page, perPage) + perPage
    ensures Summarize(Database.VisibleReports(reports, userId, now)[i])
      in ListReports(reports, userId, ListQuery(Some(page), Some(perPage), None, None, None), now).reports
  {
    var q := ListQuery(Some(page), Some(perPage), None, None, None);
    var visible := Database.VisibleReports(reports, userId, now);
    var offset := Offset(page, perPage);
    var rows := Database.GetUserReports(reports, userId, perPage, offset, now);
    assert rows == Seqs.Page(visible, perPage, offset);
    assert rows[i - offset] == visible[i];
    ListAtUnfiltered(reports, userId, q, offset, now);
    assert Summaries(rows)[i - offset] == Summarize(visible[i]);
  }

  /**
   * A live report whose row falls in the requested page's window and that
   * matches the query's type and dates is listed, whatever the filters.
   */
  lemma ListedWhenMatching(reports: seq<Database.SecurityReport>, userId: Uuids.Uuid, q: ListQuery, i: nat, now: int)
    requires i < |Database.VisibleReports(reports, userId, now)|
    requires var offset := Offset(PageNumber(q.page), PerPage(q.perPage));
      offset <= i < offset + PerPage(q.perPage)
    requires MatchesQuery(Database.VisibleReports(reports, userId, now)[i], q)
    ensures Summarize(Database.VisibleReports(reports, userId, now)[i]) in ListReports(reports, userId, q, now).reports
  {
    var visible := Database.VisibleReports(reports, userId, now);
    var offset := Offset(PageNumber(q.page), PerPage(q.perPage));
    var rows := Database.GetUserReports(reports, userId, PerPage(q.perPage), offset, now);
    assert rows == Seqs.Page(visible, PerPage(q.perPage), offset);
    assert rows[i - offset] == visible[i];
  }

  /** The page of every live report: each one is listed on page `i / per_page + 1`. */
  lemma ListedOnItsPage(reports: seq<Database.SecurityReport>, userId: Uuids.Uuid, perPage: U32, i: nat, now: int)
    requires 0 < perPage <= MaxPerPage
    requires i < |Database.VisibleReports(reports, userId, now)|
    requires i / perPage + 1 < U32Modulus
    ensures Summarize(Database.VisibleReports(reports, userId, now)[i])
      in ListReports(reports, userId, ListQuery(Some(RowPage(i, perPage)), Some(perPage), None, None, None), now).reports
  {
    ListedOnPage(reports, userId, RowPage(i, perPage), perPage, i, now);
  }

  /** With at least five live reports, the far page as written is not empty, though it should be. */
  lemma ListReportsAsWrittenFarPage(reports: seq<Database.SecurityReport>, userId: Uuids.Uuid, now: int)
    requires 5 <= |Database.VisibleReports(reports, userId, now)| < 4294967300
    ensures ListReports(reports, userId, ListQuery(Some(42949674), Some(100), None, None, None), now).reports == []
    ensures ListReportsAsWritten(reports, userId, ListQuery(Some(42949674), Some(100), None, None, None), now).reports != []
  {
    var q := ListQuery(Some(42949674), Some(100), None, None, None);
    var visible := Database.VisibleReports(reports, userId, now);
    OffsetAsWrittenWraps();
    var rows := Database.GetUserReports(reports, userId, 100, 4, now);
    assert rows == Seqs.Page(visible, 100, 4);
    assert rows[0] == visible[4];
    ListAtUnfiltered(reports, userId, q, 4, now);
    ListAtUnfiltered(reports, userId, q, 4294967300, now);
  }

  /** `get_report`/`delete_report`: the caller's live report named by a printed id. */
  function FindReport(reports: seq<Database.SecurityReport>, userId: Uuids.Uuid, reportId: string, now: int)
    : (r: Result<Database.SecurityReport, Errors.AppError>)
    ensures Uuids.Parse(reportId).None? ==> r == Err(Errors.BadRequest("Invalid report ID"))
    ensures r.Ok? <==> (Uuids.Parse(reportId).Some?
                        && exists i :: 0 <= i < |reports| && reports[i].id == Uuids.Parse(reportId).value
                                    && Database.VisibleTo(reports[i], userId, now))
    ensures r.Err? && Uuids.Parse(reportId).Some? ==> r == Err(Errors.NotFound("Report not found"))
    ensures r.Ok? ==> r.value in reports && Database.VisibleTo(r.value, userId, now)
  {
    match Uuids.Parse(reportId)
    case None => Err(Errors.BadRequest("Invalid report ID"))
    case Some(id) =>
      match Database.GetReportById(reports, userId, id, now)
      case None => Err(Errors.NotFound("Report not found"))
      case Some(report) => Ok(report)
  }

  /** `DetailedReport`: a report with its stored results parsed. */
  datatype DetailedReport = DetailedReport(
    id: string, reportType: string, results: Json.Value, riskScore: Option<int>, createdAt: int, expiresAt: Option<int>)

  /**
   * `get_report`; `parse` stands for `serde_json::from_str`, and a stored
   * result that does not parse is an internal error.
   */
  function GetReport(
    reports: seq<Database.SecurityReport>, userId: Uuids.Uuid, reportId: string, now: int,
    parse: string -> Result<Json.Value, string>)
    : (r: Result<DetailedReport, Errors.AppError>)
    ensures FindReport(reports, userId, reportId, now).Err? ==> r == Err(FindReport(reports, userId, reportId, now).error)
    ensures (FindReport(reports, userId, reportId, now).Ok? && parse(FindReport(reports, userId, reportId, now).value.results).Err?)
            ==> r == Err(Errors.InternalServerError("Failed to parse report results: "
                                                    + parse(FindReport(reports, userId, reportId, now).value.results).error))
    ensures r.Ok? ==> Uuids.Parse(r.value.id) == Uuids.Parse(reportId)
  {
    var report :- FindReport(reports, userId, reportId, now);
    match parse(report.results)
    case Err(e) => Err(Errors.InternalServerError("Failed to parse report results: " + e))
    case Ok(results) =>
      Uuids.RoundTrip(report.id);
      Ok(DetailedReport(Uuids.ToString(report.id), report.reportType, results, report.riskScore,
                        report.createdAt, report.expiresAt))
  }

  /** Every live report of the caller is readable through its printed id. */
  lemma OwnReportReadable(reports: seq<Database.SecurityReport>, i: nat, now: int)
    requires i < |reports| && Database.IsLive(reports[i], now)
    ensures FindReport(reports, reports[i].userId, Uuids.ToString(reports[i].id), now).Ok?
  {
    Uuids.RoundTrip(reports[i].id);
  }

  /**
   * `delete_report`: answers success for the caller's live report but
   * removes nothing; the table is returned as it was.
   */
  function DeleteReport(reports: seq<Database.SecurityReport>, userId: Uuids.Uuid, reportId: string, now: int)
    : (r: Result<(Json.Value, seq<Database.SecurityReport>), Errors.AppError>)
    ensures r.Err? <==> FindReport(reports, userId, reportId, now).Err?
    ensures r.Err? ==> r.error == FindReport(reports, userId, reportId, now).error
    ensures r.Ok? ==> r.value.1 == reports
    ensures r.Ok? ==> Json.Lookup(r.value.0, "success") == Some(Json.Bool(true))
  {
    var found :- FindReport(reports, userId, reportId, now);
    var body := Json.Object([("success", Json.Bool(true)), ("message", Json.Str("Report deleted successfully"))]);
    Json.FieldLookupLast(body.fields, "success", 0);
    Ok((body, reports))
  }

  /** At most this many reports go into an export. */
  const ExportLimit: nat := 1000

  /**
   * `export_reports`: refused to the free tier; otherwise the reports that
   * would be exported (the first 1000 live ones, filtered like the list).
   * The download URL and its expiry come from a fresh UUID and the clock.
   */
  function ExportReports(reports: seq<Database.SecurityReport>, userId: Uuids.Uuid, tier: Tiers.Tier, q: ListQuery, now: int)
    : (r: Result<seq<Database.SecurityReport>, Errors.AppError>)
    ensures r.Err? <==> tier == Tiers.Free
    ensures r.Err? ==> r.error == Errors.Forbidden("Report export requires a premium subscription")
    ensures r.Ok? ==> |r.value| <= ExportLimit
    ensures r.Ok? ==> forall x :: x in r.value ==> x in reports && Database.VisibleTo(x, userId, now) && MatchesQuery(x, q)
    ensures r.Ok? ==> r.value == ApplyFilters(Database.GetUserReports(reports, userId, ExportLimit, 0, now), q)
  {
    if tier == Tiers.Free then Err(Errors.Forbidden("Report export requires a premium subscription"))
    else Ok(ApplyFilters(Database.GetUserReports(reports, userId, ExportLimit, 0, now), q))
  }

  /**
   * While the user has at most 1000 live reports, the export holds exactly
   * those that match the filters: the cap is applied before filtering, so
   * only beyond it can a match be missing.
   */
  lemma ExportIsEveryMatch(reports: seq<Database.SecurityReport>, userId: Uuids.Uuid, tier: Tiers.Tier, q: ListQuery, now: int)
    requires tier != Tiers.Free
    requires |Database.VisibleReports(reports, userId, now)| <= ExportLimit
    ensures forall x :: x in ExportReports(reports, userId, tier, q, now).value <==>
      x in reports && Database.VisibleTo(x, userId, now) && MatchesQuery(x, q)
  {
    var v := Database.VisibleReports(reports, userId, now);
    assert Seqs.Page(v, ExportLimit, 0) == v;
  }

  /** The check the three admin endpoints open with. */
  function AdminGate(tier: Tiers.Tier): (r: Result<(), Errors.AppError>)
    ensures r.Ok? <==> tier == Tiers.Enterprise
    ensures r.Err? ==> r.error == Errors.Forbidden("Admin access required")
  {
    if tier != Tiers.Enterprise then Err(Errors.Forbidden("Admin access required")) else Ok(())
  }

  /** A tier that passes the admin gate may also export. */
  lemma AdminMayExport(reports: seq<Database.SecurityReport>, userId: Uuids.Uuid, tier: Tiers.Tier, q: ListQuery, now: int)
    requires AdminGate(tier).Ok?
    ensures ExportReports(reports, userId, tier, q, now).Ok?
  {
  }

  datatype BreachSource = BreachSource(id: string, name: string, url: string, recordCount: nat, isActive: bool)

  /** `add_breach_source`: an active source with no records yet, for administrators only. */
  function AddBreachSource(tier: Tiers.Tier, name: string, url: string, newId: Uuids.Uuid)
    : (r: Result<BreachSource, Errors.AppError>)
    ensures r.Err? <==> AdminGate(tier).Err?
    ensures r.Ok? ==> r.value.name == name && r.value.url == url && r.value.recordCount == 0 && r.value.isActive
  {
    var admitted :- AdminGate(tier);
    Ok(BreachSource(Uuids.ToString(newId), name, url, 0, true))
  }
}

=== FILE: risk_score.dfy ===
/**
 * The breach-dump risk score of src/risk_score.rs: points for a listed
 * weak password, for repeated occurrences, and for a breach in the last
 * year, capped at 100. Today's date is a parameter, as a day number.
 */
module RiskScore {

  import opened Wrappers
  import Json
  import Calendar

  const WeakPasswordPoints: nat := 40
  const OccurrencePoints: nat := 20
  const RecentBreachPoints: nat := 40
  const MaxScore: nat := 100
  const DaysPerYear: nat := 365

  /**
   * `is_recent_breach`: the text parses as `%Y-%m-%d` and names a day
   * strictly after the day 365 days before today.
   */
  function IsRecentBreach(date: string, today: int): (recent: bool)
    ensures Calendar.ParseDate(date).None? ==> !recent
    ensures recent <==> (Calendar.ParseDate(date).Some?
                         && Calendar.DayNumber(Calendar.ParseDate(date).value) > today - DaysPerYear)
  {
    match Calendar.ParseDate(date)
    case None => false
    case Some(d) => Calendar.DayNumber(d) > today - DaysPerYear
  }

  /** The entry's `password` is a string found in the weak set. */
  predicate HasWeakPassword(entry: Json.Value, weak: set<string>) {
    var p := Json.AsStr(Json.Index(entry, "password"));
    p.Some? && p.value in weak
  }

  /** `occurrences` is an unsigned integer above 1; anything else counts as 1. */
  predicate SeenRepeatedly(entry: Json.Value) {
    Json.AsU64(Json.Index(entry, "occurrences")).GetOr(1) > 1
  }

  /** `source.breach_date` is a string naming a recent day. */
  predicate BreachedRecently(entry: Json.Value, today: int) {
    var d := Json.AsStr(Json.Index(Json.Index(entry, "source"), "breach_date"));
    d.Some? && IsRecentBreach(d.value, today)
  }

  /**
   * `calculate_risk_score`: 40 points for a weak password, 20 for repeated
   * occurrences and 40 for a recent breach, capped at 100.
   */
  function CalculateRiskScore(entry: Json.Value, weak: set<string>, today: int): (score: nat)
    ensures score in {0, 20, 40, 60, 80, 100}
    ensures score >= 80 <==> HasWeakPassword(entry, weak) && BreachedRecently(entry, today)
    ensures score >= 40 <==> HasWeakPassword(entry, weak) || BreachedRecently(entry, today)
    ensures score % 40 == 20 <==> SeenRepeatedly(entry)
  {
    var score := (if HasWeakPassword(entry, weak) then WeakPasswordPoints else 0)
                 + (if SeenRepeatedly(entry) then OccurrencePoints else 0)
                 + (if BreachedRecently(entry, today) then RecentBreachPoints else 0);
    if score < MaxScore then score else MaxScore
  }

  /**
   * Listing the entry's password adds exactly 40 points: the three awards
   * sum to at most 100, so the cap never takes anything off.
   */
  lemma WeakPasswordAdds40(entry: Json.Value, weak: set<string>, today: int)
    requires Json.AsStr(Json.Index(entry, "password")).Some?
    ensures var p := Json.AsStr(Json.Index(entry, "password")).value;
      var without := CalculateRiskScore(entry, weak - {p}, today);
      var with := CalculateRiskScore(entry, weak + {p}, today);
      with == without + WeakPasswordPoints
  {
  }

  /** A longer weak list never lowers a score. */
  lemma WeakListMonotone(entry: Json.Value, small: set<string>, large: set<string>, today: int)
    requires small <= large
    ensures CalculateRiskScore(entry, small, today) <= CalculateRiskScore(entry, large, today)
  {
  }

  /** Scores only fall as time passes. */
  lemma RecencyFades(entry: Json.Value, weak: set<string>, earlier: int, later: int)
    requires earlier <= later
    ensures CalculateRiskScore(entry, weak, later) <= CalculateRiskScore(entry, weak, earlier)
  {
  }

  /** A breach date written as `%Y-%m-%d` is recent iff its day is within the last 365. */
  lemma FormattedDateRecent(d: Calendar.Date, today: int)
    requires Calendar.ValidDate(d) && 0 <= d.year <= 9999
    ensures IsRecentBreach(Calendar.FormatDate(d), today) <==> Calendar.DayNumber(d) > today - DaysPerYear
  {
    Calendar.FormatParseRoundTrip(d);
  }
}

=== FILE: security.dfy ===
/**
 * The scoring rules of the security endpoints in src/api/security.rs:
 * password strength, the breach-check risk score and its advice, the
 * combined risk assessment, the bulk check, and the data-filter endpoint's
 * entry counting. Database lookups and the weak-password list are inputs;
 * hashing, report storage and usage tracking are not modelled.
 */
module Security {

  import opened Wrappers
  import Text
  import Tiers
  import Errors
  import Json
  import Seqs
  import Calendar
  import WeakPass
  import RiskScore
  import Filters
  import Users

  // ------------------------------------------------------- password strength

  /** The 11 substrings `is_common_pattern` looks for in the lower-cased password. */
  const CommonPatterns: seq<string> := [
    "123456", "password", "qwerty", "abc", "111", "000",
    "admin", "user", "login", "welcome", "monkey"]

  /** `is_common_pattern`: a listed pattern occurs in the lower-cased password. */
  predicate IsCommonPattern(password: string) {
    Text.ContainsAny(Text.ToLower(password), CommonPatterns)
  }

  /** Case does not matter to the pattern test. */
  lemma CommonPatternIgnoresCase(a: string, b: string)
    requires Text.ToLower(a) == Text.ToLower(b)
    ensures IsCommonPattern(a) <==> IsCommonPattern(b)
  {
  }

  const CommonPatternPenalty: nat := 20

  /** 20 points from 8 characters, 10 more from 12 and 10 more from 16. */
  function LengthPoints(n: nat): (points: nat)
    ensures points in {0, 20, 30, 40}
    ensures points == 0 <==> n < 8
    ensures points == 20 <==> 8 <= n < 12
    ensures points == 30 <==> 12 <= n < 16
    ensures points == 40 <==> n >= 16
  {
    (if n >= 8 then 20 else 0) + (if n >= 12 then 10 else 0) + (if n >= 16 then 10 else 0)
  }

  predicate IsSymbol(c: char) { !Text.IsAsciiAlphanumeric(c) }

  /**
   * 10 points each for a lower-case letter, an upper-case letter and a digit,
   * 15 for a symbol. Every character falls in exactly one of the four
   * classes, so only the empty password earns nothing.
   */
  function VarietyPoints(password: string): (points: nat)
    ensures points <= 45
    ensures points == 0 <==> |password| == 0
    ensures points == 45 <==> Text.AnyChar(password, Text.IsAsciiLower) && Text.AnyChar(password, Text.IsAsciiUpper)
                              && Text.AnyChar(password, Text.IsAsciiDigit) && Text.AnyChar(password, IsSymbol)
    ensures Text.AnyChar(password, IsSymbol) <==> points % 10 == 5
  {
    assert |password| > 0 ==> CharClass(ClassIndex(password[0]))(password[0]);
    (if Text.AnyChar(password, Text.IsAsciiLower) then 10 else 0)
    + (if Text.AnyChar(password, Text.IsAsciiUpper) then 10 else 0)
    + (if Text.AnyChar(password, Text.IsAsciiDigit) then 10 else 0)
    + (if Text.AnyChar(password, IsSymbol) then 15 else 0)
  }

  /** The four character classes in the order the source tests them. */
  function CharClass(k: nat): char -> bool {
    if k == 0 then Text.IsAsciiLower
    else if k == 1 then Text.IsAsciiUpper
    else if k == 2 then Text.IsAsciiDigit
    else IsSymbol
  }

  /** The class a character belongs to. */
  function ClassIndex(c: char): (k: nat)
    ensures k < 4 && CharClass(k)(c)
    ensures forall j :: 0 <= j < 4 && CharClass(j)(c) ==> j == k
  {
    if Text.IsAsciiLower(c) then 0
    else if Text.IsAsciiUpper(c) then 1
    else if Text.IsAsciiDigit(c) then 2
    else 3
  }

  /** What the first character of a class earns. */
  function ClassAward(c: char): nat {
    if IsSymbol(c) then 15 else 10
  }

  /**
   * Appending a character adds its class's award when no earlier character
   * was of that class, and nothing otherwise; with the empty password at 0
   * this determines the variety points of every password.
   */
  lemma VarietyPerClass(password: string, c: char)
    ensures VarietyPoints(password + [c]) ==
            VarietyPoints(password) + (if Text.AnyChar(password, CharClass(ClassIndex(c))) then 0 else ClassAward(c))
  {
    AnyCharAppendIff(password, c, Text.IsAsciiLower);
    AnyCharAppendIff(password, c, Text.IsAsciiUpper);
    AnyCharAppendIff(password, c, Text.IsAsciiDigit);
    AnyCharAppendIff(password, c, IsSymbol);
  }

  lemma AnyCharAppendIff(s: string, c: char, p: char -> bool)
    ensures Text.AnyChar(s + [c], p) <==> Text.AnyChar(s, p) || p(c)
  {
    var longer := s + [c];
    assert longer[|s|] == c;
    if Text.AnyChar(longer, p) && !p(c) {
      var i :| 0 <= i < |longer| && p(longer[i]);
      assert i < |s| && longer[i] == s[i];
    }
    if Text.AnyChar(s, p) {
      var i :| 0 <= i < |s| && p(s[i]);
      assert longer[i] == s[i];
    }
  }

  /** `u8::saturating_sub` on values that fit. */
  function SaturatingSub(a: nat, b: nat): (r: nat)
    ensures r <= a
    ensures r == 0 || r + b == a
  {
    if a >= b then a - b else 0
  }

  /**
   * `calculate_password_strength`: length and variety points, less 20 for a
   * common pattern (never below 0), then `min(100)`. The awards add up to at
   * most 85, so the `u8` never overflows and the cap never binds.
   */
  function PasswordStrength(password: string): (score: nat)
    ensures score <= 85
    ensures IsCommonPattern(password) ==> score <= 65
    ensures |password| < 8 ==> score <= 45
    ensures !IsCommonPattern(password) && |password| >= 16 ==> score >= 40
    ensures var raw := LengthPoints(|password|) + VarietyPoints(password);
      score == if IsCommonPattern(password) then SaturatingSub(raw, CommonPatternPenalty) else raw
  {
    var raw := LengthPoints(|password|) + VarietyPoints(password);
    var penalised := if IsCommonPattern(password) then SaturatingSub(raw, CommonPatternPenalty) else raw;
    MinNat(penalised, 100)
  }

  /** `Ord::min` on unsigned values. */
  function MinNat(a: nat, b: nat): (r: nat)
    ensures r <= a && r <= b && (r == a || r == b)
  {
    if a < b then a else b
  }

  /** Appending a character never lowers the score, unless it creates a common pattern. */
  lemma AppendNeverLowersStrength(password: string, c: char)
    requires !IsCommonPattern(password + [c])
    ensures PasswordStrength(password) <= PasswordStrength(password + [c])
  {
    var longer := password + [c];
    AnyCharAppendIff(password, c, Text.IsAsciiLower);
    AnyCharAppendIff(password, c, Text.IsAsciiUpper);
    AnyCharAppendIff(password, c, Text.IsAsciiDigit);
    AnyCharAppendIff(password, c, IsSymbol);
    assert VarietyPoints(password) <= VarietyPoints(longer);
    assert LengthPoints(|password|) <= LengthPoints(|longer|);
  }

  /** "Password123!" has every class and 12 characters, but loses 20 for "password" in any case. */
  lemma CapitalisedPatternPenalised()
    ensures PasswordStrength("Password123!") == 55
  {
    var p := "Password123!";
    var lower := Text.ToLower(p);
    assert lower[..8] == "password";
    assert Text.IsPrefix("password", lower);
    assert "password" in CommonPatterns;
    assert IsCommonPattern(p);
    assert Text.IsAsciiLower(p[1]) && Text.IsAsciiUpper(p[0]) && Text.IsAsciiDigit(p[8]) && IsSymbol(p[11]);
  }

  // ----------------------------------------------------------- breach check

  const SecondsPerDay: nat := 86400
  const DaysPerYear: nat := 365

  /** A breach timestamp (seconds) is recent when it is later than 365 days before `now`. */
  predicate IsRecent(breachedAt: int, now: int) {
    breachedAt > now - DaysPerYear * SecondsPerDay
  }

  predicate AnyRecent(breachTimes: seq<int>, now: int) {
    exists i :: 0 <= i < |breachTimes| && IsRecent(breachTimes[i], now)
  }

  /**
   * The risk score of `check_breach`: 10 without breaches, otherwise 30 plus
   * 10 per breach up to 40, plus 20 when one breach is recent.
   */
  function BreachRiskScore(breachTimes: seq<int>, now: int): (score: nat)
    ensures |breachTimes| == 0 <==> score == 10
    ensures |breachTimes| > 0 ==> 40 <= score <= 90
    ensures |breachTimes| > 0 && AnyRecent(breachTimes, now) ==> score >= 60
    ensures |breachTimes| > 0 && !AnyRecent(breachTimes, now) ==> score <= 70
  {
    if |breachTimes| == 0 then 10
    else
      var base := 30 + Seqs.Min(|breachTimes| * 10, 40);
      if AnyRecent(breachTimes, now) then base + 20 else base
  }

  /** Each of the first four breaches adds 10 when recency stays the same. */
  lemma EachBreachAddsTen(breachTimes: seq<int>, extra: int, now: int)
    requires 1 <= |breachTimes| < 4
    requires AnyRecent(breachTimes + [extra], now) == AnyRecent(breachTimes, now)
    ensures BreachRiskScore(breachTimes + [extra], now) == BreachRiskScore(breachTimes, now) + 10
  {
  }

  /** A single old breach scores 40; a recent breach among the same number adds 20. */
  lemma RecencyAddsTwenty(recent: seq<int>, stale: seq<int>, now: int)
    requires |recent| == |stale| > 0
    requires AnyRecent(recent, now) && !AnyRecent(stale, now)
    ensures BreachRiskScore(recent, now) == BreachRiskScore(stale, now) + 20
    ensures |stale| == 1 ==> BreachRiskScore(stale, now) == 40
  {
  }

  /** A further breach never lowers the score. */
  lemma MoreBreachesNeverLower(breachTimes: seq<int>, extra: int, now: int)
    ensures BreachRiskScore(breachTimes, now) <= BreachRiskScore(breachTimes + [extra], now)
  {
    var longer := breachTimes + [extra];
    if AnyRecent(breachTimes, now) {
      var i :| 0 <= i < |breachTimes| && IsRecent(breachTimes[i], now);
      assert longer[i] == breachTimes[i];
    }
  }

  /** From four breaches on, the count no longer matters: only recency does. */
  lemma BreachCountSaturates(a: seq<int>, b: seq<int>, now: int)
    requires |a| >= 4 && |b| >= 4
    requires AnyRecent(a, now) == AnyRecent(b, now)
    ensures BreachRiskScore(a, now) == BreachRiskScore(b, now)
  {
  }

  /** Scores only fall as time passes. */
  lemma BreachRiskFades(breachTimes: seq<int>, earlier: int, later: int)
    requires earlier <= later
    ensures BreachRiskScore(breachTimes, later) <= BreachRiskScore(breachTimes, earlier)
  {
    if AnyRecent(breachTimes, later) {
      var i :| 0 <= i < |breachTimes| && IsRecent(breachTimes[i], later);
      assert IsRecent(breachTimes[i], earlier);
    }
  }

  /** The advice of `check_breach`. */
  function BreachRecommendations(breachCount: nat): (recs: seq<string>)
    ensures breachCount == 0 ==> |recs| == 2
    ensures breachCount > 0 ==> |recs| == (if breachCount > 2 then 4 else 3)
    ensures breachCount > 0 ==> recs[0] == "Change passwords for all accounts using this email"
  {
    if breachCount > 0 then BreachedAdvice + (if breachCount > 2 then ManyBreachesAdvice else [])
    else CleanAdvice
  }

  const BreachedAdvice: seq<string> := [
    "Change passwords for all accounts using this email",
    "Enable two-factor authentication where possible",
    "Monitor your accounts for suspicious activity"]
  const ManyBreachesAdvice: seq<string> := ["Consider using a different email for sensitive accounts"]
  const CleanAdvice: seq<string> := [
    "Continue using strong, unique passwords",
    "Regularly monitor for new breaches"]

  datatype BreachCheck = BreachCheck(
    email: string, isBreached: bool, breachCount: nat, riskScore: nat, recommendations: seq<string>)

  /** `check_breach` without the optional details: the verdict, score and advice for one email. */
  function CheckBreach(email: string, breachTimes: seq<int>, now: int): (r: BreachCheck)
    ensures r.email == email
    ensures r.isBreached <==> r.breachCount > 0
    ensures r.breachCount == |breachTimes|
    ensures r.isBreached <==> r.riskScore >= 40
    ensures r.riskScore == BreachRiskScore(breachTimes, now)
    ensures r.recommendations == BreachRecommendations(r.breachCount)
    ensures |r.recommendations| == (if r.breachCount > 2 then 4 else if r.isBreached then 3 else 2)
  {
    BreachCheck(email, |breachTimes| > 0, |breachTimes|, BreachRiskScore(breachTimes, now),
                BreachRecommendations(|breachTimes|))
  }

  // ----------------------------------------------------- combined risk score

  const MaxRisk: nat := 100

  /** `(total + impact).min(100)`. */
  function CapAdd(total: nat, impact: nat): (r: nat)
    ensures r <= MaxRisk
    ensures total <= MaxRisk ==> total <= r
  {
    if total + impact < MaxRisk then total + impact else MaxRisk
  }

  /** Capping after every step is capping once at the end. */
  lemma CapAddTwice(total: nat, x: nat, y: nat)
    ensures CapAdd(CapAdd(total, x), y) == CapAdd(total, x + y)
  {
  }

  /** The email factor: 10 per breach, at most 30. */
  function EmailImpact(n: nat): (impact: nat)
    ensures impact <= 30
    ensures n <= 3 ==> impact == 10 * n
    ensures n >= 3 ==> impact == 30
  {
    Seqs.Min(n * 10, 30)
  }

  /** The day the handler pretends every assessed email was breached. */
  const SimulatedBreachDate: Calendar.Date := Calendar.Date(2024, 1, 1)

  /** The breach-dump entry the handler builds: the email, one occurrence, the password if any, the simulated date. */
  function RiskEntry(email: string, password: Option<string>): (entry: Json.Value)
    ensures Json.AsStr(Json.Index(entry, "password")) == password
    ensures Json.AsStr(Json.Index(entry, "email")) == Some(email)
  {
    var source := Json.Object([("breach_date", Json.Str("2024-01-01"))]);
    var fields := [("email", Json.Str(email)), ("occurrences", Json.Num(1))]
      + (if password.Some? then [("password", Json.Str(password.value))] else [])
      + [("source", source)];
    assert Json.FieldLookup(fields, "email") == Some(Json.Str(email)) by {
      Json.FieldLookupLast(fields, "email", 0);
    }
    assert password.Some? ==> Json.FieldLookup(fields, "password") == Some(Json.Str(password.value)) by {
      if password.Some? {
        Json.FieldLookupLast(fields, "password", 2);
      }
    }
    Json.Object(fields)
  }

  /** The breach-dump score of the entry the handler builds. */
  function BaseRisk(email: string, password: Option<string>, weak: set<string>, today: int): (base: nat)
    ensures base <= MaxRisk
  {
    RiskScore.CalculateRiskScore(RiskEntry(email, password), weak, today)
  }

  /** The simulated date is written `2024-01-01`. */
  lemma SimulatedDateText()
    ensures Calendar.ValidDate(SimulatedBreachDate)
    ensures Calendar.FormatDate(SimulatedBreachDate) == "2024-01-01"
  {
  }

  /** The base score: 40 for a listed password plus 40 while 2024-01-01 is within the last year. */
  lemma BaseRiskOfEntry(email: string, password: Option<string>, weak: set<string>, today: int)
    ensures var base := RiskScore.CalculateRiskScore(RiskEntry(email, password), weak, today);
      base == (if password.Some? && password.value in weak then 40 else 0)
            + (if Calendar.DayNumber(SimulatedBreachDate) > today - RiskScore.DaysPerYear then 40 else 0)
  {
    var entry := RiskEntry(email, password);
    assert !RiskScore.SeenRepeatedly(entry) by { EntryOccursOnce(email, password); }
    assert RiskScore.HasWeakPassword(entry, weak) <==> password.Some? && password.value in weak;
    assert RiskScore.BreachedRecently(entry, today)
      <==> Calendar.DayNumber(SimulatedBreachDate) > today - RiskScore.DaysPerYear by {
      SimulatedDateText();
      RiskScore.FormattedDateRecent(SimulatedBreachDate, today);
      assert Json.AsStr(Json.Index(Json.Index(entry, "source"), "breach_date")) == Some("2024-01-01") by {
        EntrySource(email, password);
      }
    }
  }

  lemma EntryOccursOnce(email: string, password: Option<string>)
    ensures Json.Index(RiskEntry(email, password), "occurrences") == Json.Num(1)
  {
    var entry := RiskEntry(email, password);
    Json.FieldLookupLast(entry.fields, "occurrences", 1);
  }

  lemma EntrySource(email: string, password: Option<string>)
    ensures Json.Index(RiskEntry(email, password), "source") == Json.Object([("breach_date", Json.Str("2024-01-01"))])
  {
    var entry := RiskEntry(email, password);
    Json.FieldLookupLast(entry.fields, "source", |entry.fields| - 1);
    var source := Json.Object([("breach_date", Json.Str("2024-01-01"))]);
    Json.FieldLookupLast(source.fields, "breach_date", 0);
  }

  datatype RiskFactor = RiskFactor(factorType: string, description: string, scoreImpact: nat, severity: string)

  datatype RiskAssessment = RiskAssessment(
    riskScore: nat, email: string, factors: seq<RiskFactor>, recommendations: seq<string>)

  /** The advice for a combined score: 4 above 70, 3 above 40, else 2. */
  function RiskRecommendations(total: nat): (recs: seq<string>)
    ensures |recs| == (if total > 70 then 4 else if total > 40 then 3 else 2)
  {
    if total > 70 then HighRiskAdvice
    else if total > 40 then ModerateRiskAdvice
    else LowRiskAdvice
  }

  const HighRiskAdvice: seq<string> := [
    "Immediate action required - high security risk detected",
    "Change all passwords associated with this email",
    "Enable two-factor authentication immediately",
    "Monitor accounts for unauthorized access"]
  const ModerateRiskAdvice: seq<string> := [
    "Moderate risk - consider security improvements",
    "Use unique, strong passwords for each account",
    "Enable two-factor authentication"]
  const LowRiskAdvice: seq<string> := [
    "Good security posture - maintain current practices",
    "Continue monitoring for new threats"]

  function EmailFactor(n: nat): RiskFactor {
    RiskFactor("email_breaches", "Email found in " + Text.IntToString(n) + " data breach(es)",
               EmailImpact(n), if n > 2 then "high" else "medium")
  }

  const PasswordBreachFactor: RiskFactor :=
    RiskFactor("password_breaches", "Password found in data breaches", 40, "critical")
  const WeakPasswordFactor: RiskFactor :=
    RiskFactor("weak_password", "Password is commonly used and weak", 20, "high")

  /**
   * `calculate_risk_score` (the endpoint): the breach-dump score of a
   * synthetic entry, then capped additions for email breaches, a breached
   * password and a listed password. `emailBreaches` and `passwordBreaches`
   * are the lengths of the two lookups; `today` is the current day number.
   */
  function AssessRisk(email: string, password: Option<string>, weak: set<string>, today: int,
                      emailBreaches: nat, passwordBreaches: nat): (r: RiskAssessment)
    ensures r.email == email
    ensures r.riskScore <= MaxRisk
    ensures |r.recommendations| == (if r.riskScore > 70 then 4 else if r.riskScore > 40 then 3 else 2)
    ensures (exists i :: 0 <= i < |r.factors| && r.factors[i].factorType == "email_breaches") <==> emailBreaches > 0
    ensures password.None? ==> |r.factors| <= 1
    ensures forall i :: 0 <= i < |r.factors| ==> r.factors[i].scoreImpact <= 40
  {
    var base := BaseRisk(email, password, weak, today);
    var breached := password.Some? && passwordBreaches > 0;
    var listed := password.Some? && WeakPass.IsPasswordWeak(password.value, weak);
    var total := TotalRisk(base, emailBreaches, breached, listed);
    RiskAssessment(total, email, RiskFactors(emailBreaches, breached, listed), RiskRecommendations(total))
  }

  /** The running total: each factor present is added and capped in turn. */
  function TotalRisk(base: nat, emailBreaches: nat, breached: bool, listed: bool): (total: nat)
    requires base <= MaxRisk
    ensures total <= MaxRisk
    ensures total == Seqs.Min(base + (if emailBreaches > 0 then EmailImpact(emailBreaches) else 0)
                              + (if breached then 40 else 0) + (if listed then 20 else 0), MaxRisk)
  {
    var afterEmail := if emailBreaches > 0 then CapAdd(base, EmailImpact(emailBreaches)) else base;
    var afterBreach := if breached then CapAdd(afterEmail, 40) else afterEmail;
    if listed then CapAdd(afterBreach, 20) else afterBreach
  }

  /** The factors listed, in the order they are checked. */
  function RiskFactors(emailBreaches: nat, breached: bool, listed: bool): (factors: seq<RiskFactor>)
    ensures (exists i :: 0 <= i < |factors| && factors[i].factorType == "email_breaches") <==> emailBreaches > 0
    ensures |factors| == (if emailBreaches > 0 then 1 else 0) + (if breached then 1 else 0) + (if listed then 1 else 0)
    ensures forall i :: 0 <= i < |factors| ==> factors[i].scoreImpact <= 40
  {
    var emailFactors := if emailBreaches > 0 then [EmailFactor(emailBreaches)] else [];
    var factors := emailFactors + (if breached then [PasswordBreachFactor] else [])
                   + (if listed then [WeakPasswordFactor] else []);
    assert forall i :: 0 <= i < |factors| && i >= |emailFactors| ==> factors[i].factorType != "email_breaches";
    assert emailBreaches > 0 ==> factors[0].factorType == "email_breaches";
    factors
  }

  /**
   * The score is the whole sum capped once at 100: the base, the email
   * impact, 40 for a breached password and 20 for a listed one.
   */
  lemma AssessRiskIsCappedSum(email: string, password: Option<string>, weak: set<string>, today: int,
                              emailBreaches: nat, passwordBreaches: nat)
    ensures var base := BaseRisk(email, password, weak, today);
      var sum := base + (if emailBreaches > 0 then EmailImpact(emailBreaches) else 0)
                 + (if password.Some? && passwordBreaches > 0 then 40 else 0)
                 + (if password.Some? && password.value in weak then 20 else 0);
      AssessRisk(email, password, weak, today, emailBreaches, passwordBreaches).riskScore
        == Seqs.Min(sum, MaxRisk)
  {
  }

  /**
   * A listed password counts twice: 40 in the base score and 20 as its own
   * factor, so with a recent simulated date it alone reaches the top band.
   */
  lemma ListedPasswordIsHighRisk(email: string, password: string, weak: set<string>, today: int)
    requires password in weak
    requires Calendar.DayNumber(SimulatedBreachDate) > today - RiskScore.DaysPerYear
    ensures AssessRisk(email, Some(password), weak, today, 0, 0).riskScore == 100
    ensures |AssessRisk(email, Some(password), weak, today, 0, 0).recommendations| == 4
  {
    BaseRiskOfEntry(email, Some(password), weak, today);
  }

  // ------------------------------------------------------------- bulk check

  /** The batch size allowed per tier; Free never reaches it, having been refused first. */
  function MaxBulkSize(tier: Tiers.Tier): (n: nat)
    ensures n in {10, 100, 1000}
    ensures n == 10 <==> tier == Tiers.Free
  {
    match tier
    case Pro => 100
    case Enterprise => 1000
    case Free => 10
  }

  /** A higher tier may check a batch ten times as large or more. */
  lemma BulkSizeGrowsWithTier(a: Tiers.Tier, b: Tiers.Tier)
    requires Users.TierRank(a) < Users.TierRank(b)
    ensures 10 * MaxBulkSize(a) <= MaxBulkSize(b)
  {
  }

  datatype BulkItem = BulkItem(email: string, isBreached: bool, riskScore: nat, passwordWeak: Option<bool>)

  datatype BulkSummary = BulkSummary(totalChecked: nat, breachedCount: nat, highRiskCount: nat, weakPasswords: nat)

  datatype BulkResponse = BulkResponse(results: seq<BulkItem>, summary: BulkSummary)

  /** `passwords.get(index)` inside the optional list. */
  function PasswordAt(passwords: Option<seq<string>>, index: nat): (r: Option<string>)
    ensures r.Some? <==> passwords.Some? && index < |passwords.value|
  {
    if passwords.Some? && index < |passwords.value| then Some(passwords.value[index]) else None
  }

  /**
   * One row of the bulk check: 50 for a breached email else 10, plus 20 for
   * a listed password and 30 for a breached one.
   */
  function CheckItem(email: string, password: Option<string>, weak: set<string>,
                     emailBreached: string -> bool, passwordBreached: string -> bool): (item: BulkItem)
    ensures item.email == email && item.isBreached == emailBreached(email)
    ensures item.passwordWeak.Some? <==> password.Some?
    ensures item.passwordWeak == Some(true) <==> password.Some? && password.value in weak
    ensures 10 <= item.riskScore <= 100
  {
    var base := if emailBreached(email) then 50 else 10;
    match password
    case None => BulkItem(email, emailBreached(email), base, None)
    case Some(p) =>
      var isWeak := WeakPass.IsPasswordWeak(p, weak);
      var score := base + (if isWeak then 20 else 0) + (if passwordBreached(p) then 30 else 0);
      BulkItem(email, emailBreached(email), score, Some(isWeak))
  }

  predicate IsHighRisk(item: BulkItem) { item.riskScore > 60 }
  predicate IsBreachedItem(item: BulkItem) { item.isBreached }
  predicate HasWeakPasswordItem(item: BulkItem) { item.passwordWeak == Some(true) }

  /**
   * A row is high risk exactly when its email is breached and its password
   * is listed or breached: a listed and breached password on an unbreached
   * email scores 60, which is not above 60.
   */
  lemma HighRiskNeedsBreachedEmail(email: string, password: Option<string>, weak: set<string>,
                                   emailBreached: string -> bool, passwordBreached: string -> bool)
    ensures IsHighRisk(CheckItem(email, password, weak, emailBreached, passwordBreached))
      <==> emailBreached(email) && password.Some? && (password.value in weak || passwordBreached(password.value))
  {
  }

  function BulkForbidden(): Errors.AppError {
    Errors.Forbidden("Bulk operations require a premium subscription")
  }

  function BulkTooLarge(tier: Tiers.Tier): Errors.AppError {
    Errors.BadRequest("Bulk operation limited to " + Text.IntToString(MaxBulkSize(tier)) + " items")
  }

  /**
   * `bulk_security_check`: refuses Free users, then batches above the tier's
   * size; otherwise checks every email in order, pairing it with the
   * password at the same index, and counts breached, high-risk and weak rows.
   */
  method BulkSecurityCheck(tier: Tiers.Tier, emails: seq<string>, passwords: Option<seq<string>>,
                           weak: set<string>, emailBreached: string -> bool, passwordBreached: string -> bool)
    returns (r: Result<BulkResponse, Errors.AppError>)
    ensures tier == Tiers.Free ==> r == Err(BulkForbidden())
    ensures tier != Tiers.Free && |emails| > MaxBulkSize(tier) ==> r == Err(BulkTooLarge(tier))
    ensures r.Ok? <==> tier != Tiers.Free && |emails| <= MaxBulkSize(tier)
    ensures r.Ok? ==> (
      var res := r.value.results;
      |res| == |emails|
      && (forall i :: 0 <= i < |emails| ==>
            res[i] == CheckItem(emails[i], PasswordAt(passwords, i), weak, emailBreached, passwordBreached))
      && r.value.summary.totalChecked == |emails|
      && r.value.summary.breachedCount == Seqs.Count(res, IsBreachedItem)
      && r.value.summary.highRiskCount == Seqs.Count(res, IsHighRisk)
      && r.value.summary.weakPasswords == Seqs.Count(res, HasWeakPasswordItem))
  {
    if tier == Tiers.Free {
      return Err(BulkForbidden());
    }
    if |emails| > MaxBulkSize(tier) {
      return Err(BulkTooLarge(tier));
    }
    var response := CheckAll(emails, passwords, weak, emailBreached, passwordBreached);
    return Ok(response);
  }

  /** The loop of `bulk_security_check`: one item per email, counted as it goes. */
  method CheckAll(emails: seq<string>, passwords: Option<seq<string>>,
                  weak: set<string>, emailBreached: string -> bool, passwordBreached: string -> bool)
    returns (response: BulkResponse)
    ensures var res := response.results;
      |res| == |emails|
      && (forall i :: 0 <= i < |emails| ==>
            res[i] == CheckItem(emails[i], PasswordAt(passwords, i), weak, emailBreached, passwordBreached))
      && response.summary.totalChecked == |emails|
      && response.summary.breachedCount == Seqs.Count(res, IsBreachedItem)
      && response.summary.highRiskCount == Seqs.Count(res, IsHighRisk)
      && response.summary.weakPasswords == Seqs.Count(res, HasWeakPasswordItem)
  {
    var results: seq<BulkItem> := [];
    var breachedCount, highRiskCount, weakCount := 0, 0, 0;
    for i := 0 to |emails|
      invariant |results| == i
      invariant forall k :: 0 <= k < i ==>
        results[k] == CheckItem(emails[k], PasswordAt(passwords, k), weak, emailBreached, passwordBreached)
      invariant breachedCount == Seqs.Count(results, IsBreachedItem)
      invariant highRiskCount == Seqs.Count(results, IsHighRisk)
      invariant weakCount == Seqs.Count(results, HasWeakPasswordItem)
    {
      var item := CheckItem(emails[i], PasswordAt(passwords, i), weak, emailBreached, passwordBreached);
      Seqs.CountSnoc(results, item, IsBreachedItem);
      Seqs.CountSnoc(results, item, IsHighRisk);
      Seqs.CountSnoc(results, item, HasWeakPasswordItem);
      if item.isBreached {
        breachedCount := breachedCount + 1;
      }
      if item.passwordWeak == Some(true) {
        weakCount := weakCount + 1;
      }
      if item.riskScore > 60 {
        highRiskCount := highRiskCount + 1;
      }
      results := results + [item];
    }
    response := BulkResponse(results, BulkSummary(|emails|, breachedCount, highRiskCount, weakCount));
  }

  /** No count in the summary exceeds the number of emails checked. */
  lemma BulkCountsBounded(res: seq<BulkItem>)
    ensures Seqs.Count(res, IsBreachedItem) <= |res|
    ensures Seqs.Count(res, IsHighRisk) <= |res|
    ensures Seqs.Count(res, HasWeakPasswordItem) <= |res|
  {
  }

  // ------------------------------------------------------------ data filter

  const U32Modulus: nat := 0x1_0000_0000

  /**
   * `count_json_entries`: the length of a top-level array, or of the array
   * under `result` in an object, truncated to `u32`; 0 for anything else.
   */
  function CountJsonEntries(data: Json.Value): (n: nat)
    ensures n < U32Modulus
    ensures data.Arr? ==> n == |data.items| % U32Modulus
    ensures Filters.ResultArray(data).Some? ==> n == |Filters.ResultArray(data).value| % U32Modulus
    ensures !data.Arr? && Filters.ResultArray(data).None? ==> n == 0
  {
    match data
    case Arr(items) => |items| % U32Modulus
    case Obj(_) => if Filters.ResultArray(data).Some? then |Filters.ResultArray(data).value| % U32Modulus else 0
    case _ => 0
  }

  datatype FilterResponse = FilterResponse(filteredData: Json.Value, removedEntries: nat, filterApplied: string)

  function InvalidFilterType(): Errors.AppError {
    Errors.BadRequest("Invalid filter type. Use 'basic' or 'advanced'")
  }

  /**
   * `filter_data` with the temporary-file round trip taken as the identity:
   * run the named filter and report how many entries it removed, counted as
   * `count_json_entries` before less after, saturating at 0.
   */
  function FilterData(data: Json.Value, filterType: string): (r: Result<FilterResponse, Errors.AppError>)
    ensures r.Err? <==> filterType != "basic" && filterType != "advanced"
    ensures r.Err? ==> r.error == InvalidFilterType()
    ensures r.Ok? ==> r.value.filterApplied == filterType
    ensures r.Ok? ==> r.value.removedEntries <= CountJsonEntries(data)
  {
    if filterType == "basic" then
      var out := Filters.BasicFilter(data);
      Ok(FilterResponse(out, SaturatingSub(CountJsonEntries(data), CountJsonEntries(out)), "basic"))
    else if filterType == "advanced" then
      var out := Filters.AdvancedFilter(data);
      Ok(FilterResponse(out, SaturatingSub(CountJsonEntries(data), CountJsonEntries(out)), "advanced"))
    else Err(InvalidFilterType())
  }

  /** On a dump of fewer than 2^32 entries, the basic filter reports exactly the entries it dropped. */
  lemma BasicRemovedCount(data: Json.Value)
    requires Filters.ResultArray(data).Some? && |Filters.ResultArray(data).value| < U32Modulus
    ensures FilterData(data, "basic").value.removedEntries
      == |Filters.ResultArray(data).value| - |Seqs.Filter(Filters.ResultArray(data).value, Filters.KeepBasic)|
  {
    var items := Filters.ResultArray(data).value;
    var out := Filters.BasicFilter(data);
    var kept := |Seqs.Filter(items, Filters.KeepBasic)|;
    Filters.BasicFilterKeepsOrder(data);
    ResultArrayCount(data);
    ResultArrayCount(out);
    assert FilterData(data, "basic") == Ok(FilterResponse(out, SaturatingSub(|items|, kept), "basic"));
  }

  /** An object's `result` array of fewer than 2^32 entries is counted exactly. */
  lemma ResultArrayCount(v: Json.Value)
    requires Filters.ResultArray(v).Some? && |Filters.ResultArray(v).value| < U32Modulus
    ensures CountJsonEntries(v) == |Filters.ResultArray(v).value|
  {
    BelowModulus(|Filters.ResultArray(v).value|);
  }

  /** On an array of fewer than 2^32 entries, the advanced filter reports exactly the blocked entries. */
  lemma AdvancedRemovedCount(items: seq<Json.Value>)
    requires |items| < U32Modulus
    ensures FilterData(Json.Arr(items), "advanced").value.removedEntries
      == |items| - |Seqs.Filter(items, Filters.KeepAdvanced)|
  {
    AdvancedKeepsCount(items);
    var out := Filters.AdvancedFilter(Json.Arr(items));
    var kept := |Seqs.Filter(items, Filters.KeepAdvanced)|;
    BelowModulus(|items|);
    BelowModulus(kept);
    assert FilterData(Json.Arr(items), "advanced")
      == Ok(FilterResponse(out, SaturatingSub(|items|, kept), "advanced"));
  }

  lemma BelowModulus(n: nat)
    requires n < U32Modulus
    ensures n % U32Modulus == n
  {
  }

  lemma AdvancedKeepsCount(items: seq<Json.Value>)
    ensures Filters.AdvancedFilter(Json.Arr(items)).Arr?
    ensures |Filters.AdvancedFilter(Json.Arr(items)).items| == |Seqs.Filter(items, Filters.KeepAdvanced)|
  {
    Filters.AdvancedFilterIsStableReorder(items, "");
  }

  /** The two filters expect different shapes: each passes the other's input through untouched. */
  lemma FiltersExpectDifferentShapes(items: seq<Json.Value>, fields: seq<(string, Json.Value)>)
    ensures FilterData(Json.Arr(items), "basic").value.filteredData == Json.Arr(items)
    ensures FilterData(Json.Arr(items), "basic").value.removedEntries == 0
    ensures FilterData(Json.Obj(fields), "advanced").value.filteredData == Json.Obj(fields)
    ensures FilterData(Json.Obj(fields), "advanced").value.removedEntries == 0
  {
  }
}

=== FILE: seqs.dfy ===
/**
 * Sequence operations shared by the model: order-preserving filtering,
 * SQL-style `LIMIT`/`OFFSET` windows, and stable sorting in descending key
 * order (Rust's `sort_by(|a, b| key(b).cmp(key(a)))`, and the order a
 * descending SQL `ORDER BY` is modelled with). The key order is any strict
 * total order.
 */
module Seqs {

  /** The elements satisfying `p`, in their original order (`retain`, `filter`, SQL `WHERE`). */
  function Filter<T(!new)>(s: seq<T>, p: T -> bool): (r: seq<T>)
    ensures |r| <= |s|
    ensures forall x :: x in r <==> x in s && p(x)
    ensures multiset(r) <= multiset(s)
  {
    if |s| == 0 then []
    else
      assert s == [s[0]] + s[1..];
      (if p(s[0]) then [s[0]] else []) + Filter(s[1..], p)
  }

  /** Filtering distributes over concatenation: relative order is preserved. */
  lemma {:induction false} FilterAppend<T(!new)>(a: seq<T>, b: seq<T>, p: T -> bool)
    ensures Filter(a + b, p) == Filter(a, p) + Filter(b, p)
  {
    if |a| == 0 {
      assert a + b == b;
    } else {
      assert (a + b)[1..] == a[1..] + b;
      FilterAppend(a[1..], b, p);
    }
  }

  /** Nothing is removed when every element satisfies the predicate. */
  lemma {:induction false} FilterAll<T(!new)>(s: seq<T>, p: T -> bool)
    requires forall i :: 0 <= i < |s| ==> p(s[i])
    ensures Filter(s, p) == s
  {
    if |s| > 0 {
      FilterAll(s[1..], p);
    }
  }

  /** The number of elements satisfying `p`, counted from the front as a loop over `s` would. */
  function Count<T>(s: seq<T>, p: T -> bool): (n: nat)
    ensures n <= |s|
  {
    if |s| == 0 then 0 else Count(s[..|s| - 1], p) + (if p(s[|s| - 1]) then 1 else 0)
  }

  /** Appending one element adds one to the count exactly when it satisfies `p`. */
  lemma CountSnoc<T>(s: seq<T>, x: T, p: T -> bool)
    ensures Count(s + [x], p) == Count(s, p) + (if p(x) then 1 else 0)
  {
    assert (s + [x])[..|s|] == s;
  }

  /** Counting is the length of the filtered sequence. */
  lemma {:induction false} CountIsFilterLength<T(!new)>(s: seq<T>, p: T -> bool)
    ensures Count(s, p) == |Filter(s, p)|
  {
    if |s| > 0 {
      var init := s[..|s| - 1];
      CountIsFilterLength(init, p);
      assert s == init + [s[|s| - 1]];
      FilterAppend(init, [s[|s| - 1]], p);
      assert [s[|s| - 1]][1..] == [];
    }
  }

  /** Filtering twice is filtering once by the conjunction. */
  lemma {:induction false} FilterFilter<T(!new)>(s: seq<T>, p: T -> bool, q: T -> bool, pq: T -> bool)
    requires forall x :: pq(x) == (p(x) && q(x))
    ensures Filter(Filter(s, p), q) == Filter(s, pq)
  {
    if |s| > 0 {
      FilterFilter(s[1..], p, q, pq);
      var rest := Filter(s[1..], p);
      if p(s[0]) {
        assert Filter(s, p) == [s[0]] + rest;
        assert Filter([s[0]] + rest, q) == (if q(s[0]) then [s[0]] else []) + Filter(rest, q) by {
          assert ([s[0]] + rest)[1..] == rest;
        }
      } else {
        assert Filter(s, p) == rest;
      }
    }
  }

  function Min(a: int, b: int): int {
    if a < b then a else b
  }

  /**
   * SQLite `LIMIT limit OFFSET offset`: a negative offset counts as zero and a
   * negative limit means no limit.
   */
  function Page<T>(s: seq<T>, limit: int, offset: int): (r: seq<T>)
    ensures |r| <= |s|
    ensures limit >= 0 ==> |r| <= limit
    ensures limit >= 0 && 0 <= offset && offset + limit <= |s| ==> |r| == limit
    ensures offset >= |s| ==> r == []
    ensures offset < |s| ==> (if offset < 0 then 0 else offset) + |r| <= |s|
    ensures offset < |s| ==> forall i :: 0 <= i < |r| ==> r[i] == s[(if offset < 0 then 0 else offset) + i]
  {
    var start := if offset < 0 then 0 else Min(offset, |s|);
    var end := if limit < 0 then |s| else Min(start + limit, |s|);
    assert start == |s| || start == (if offset < 0 then 0 else offset);
    s[start..end]
  }

  /** A page is a window of its source, so it keeps the source's order. */
  lemma PageSorted<T, K>(s: seq<T>, limit: int, offset: int, key: T -> K, lt: (K, K) -> bool)
    requires SortedDesc(s, key, lt)
    ensures SortedDesc(Page(s, limit, offset), key, lt)
    ensures forall x :: x in Page(s, limit, offset) ==> x in s
  {
    var r := Page(s, limit, offset);
    if offset < |s| {
      var start := if offset < 0 then 0 else offset;
      forall i, j | 0 <= i < j < |r| ensures !lt(key(r[i]), key(r[j])) {
        assert r[i] == s[start + i] && r[j] == s[start + j];
      }
      forall x | x in r ensures x in s {
        var i :| 0 <= i < |r| && r[i] == x;
        assert s[start + i] == x;
      }
    }
  }

  /** Two consecutive pages of size `n` together are the page of size `2n`. */
  lemma ConsecutivePages<T>(s: seq<T>, n: nat, offset: nat)
    ensures Page(s, n, offset) + Page(s, n, offset + n) == Page(s, 2 * n, offset)
  {
    var a := Min(offset, |s|);
    var b := Min(a + n, |s|);
    var c := Min(offset + 2 * n, |s|);
    assert Page(s, n, offset) == s[a..b];
    assert Min(offset + n, |s|) == b;
    assert Page(s, n, offset + n) == s[b..Min(b + n, |s|)];
    assert s[a..b] + s[b..c] == s[a..c];
  }

  /** `lt` is a strict total order on keys. */
  ghost predicate StrictTotalOrder<K(!new)>(lt: (K, K) -> bool) {
    (forall a :: !lt(a, a))
    && (forall a, b, c :: lt(a, b) && lt(b, c) ==> lt(a, c))
    && (forall a, b :: a != b ==> lt(a, b) || lt(b, a))
  }

  /** No element is followed by one with a strictly greater key. */
  ghost predicate SortedDesc<T, K>(s: seq<T>, key: T -> K, lt: (K, K) -> bool) {
    forall i, j :: 0 <= i < j < |s| ==> !lt(key(s[i]), key(s[j]))
  }

  /** Filtering keeps a descending order. */
  lemma {:induction false} FilterSorted<T(!new), K>(s: seq<T>, p: T -> bool, key: T -> K, lt: (K, K) -> bool)
    requires SortedDesc(s, key, lt)
    ensures SortedDesc(Filter(s, p), key, lt)
  {
    if |s| > 0 {
      FilterSorted(s[1..], p, key, lt);
      var rest := Filter(s[1..], p);
      if p(s[0]) {
        var r := Filter(s, p);
        assert r == [s[0]] + rest;
        forall i, j | 0 <= i < j < |r| ensures !lt(key(r[i]), key(r[j])) {
          if i == 0 {
            assert r[j] == rest[j - 1];
            assert rest[j - 1] in s[1..];
            var k :| 0 <= k < |s[1..]| && s[1..][k] == rest[j - 1];
            assert s[k + 1] == r[j];
          } else {
            assert r[i] == rest[i - 1] && r[j] == rest[j - 1];
          }
        }
      }
    }
  }

  /** The elements with key `k`, in their original order. */
  function FilterKey<T, K(==)>(s: seq<T>, key: T -> K, k: K): (r: seq<T>)
    ensures |r| <= |s|
    ensures forall i :: 0 <= i < |r| ==> key(r[i]) == k
  {
    if |s| == 0 then []
    else (if key(s[0]) == k then [s[0]] else []) + FilterKey(s[1..], key, k)
  }

  /**
   * Places `x` in front of the first element whose key is not strictly
   * greater than its own, so `x` precedes the elements it ties with.
   */
  function Insert<T, K>(x: T, s: seq<T>, key: T -> K, lt: (K, K) -> bool): (r: seq<T>)
    ensures |r| == |s| + 1
    ensures multiset(r) == multiset{x} + multiset(s)
  {
    if |s| == 0 then [x]
    else if lt(key(x), key(s[0])) then
      assert s == [s[0]] + s[1..];
      [s[0]] + Insert(x, s[1..], key, lt)
    else [x] + s
  }

  /** Stable descending sort (insertion sort). */
  function SortDesc<T, K>(s: seq<T>, key: T -> K, lt: (K, K) -> bool): (r: seq<T>)
    ensures |r| == |s|
    ensures multiset(r) == multiset(s)
  {
    if |s| == 0 then []
    else
      assert s == [s[0]] + s[1..];
      Insert(s[0], SortDesc(s[1..], key, lt), key, lt)
  }

  /** Sorting keeps exactly the same elements. */
  lemma SortDescMembers<T, K>(s: seq<T>, key: T -> K, lt: (K, K) -> bool)
    ensures forall x :: x in SortDesc(s, key, lt) <==> x in s
  {
    var r := SortDesc(s, key, lt);
    forall x ensures x in r <==> x in s {
      assert x in r <==> x in multiset(r);
      assert x in s <==> x in multiset(s);
    }
  }

  lemma {:induction false} InsertSorted<T, K(!new)>(x: T, s: seq<T>, key: T -> K, lt: (K, K) -> bool)
    requires StrictTotalOrder(lt)
    requires SortedDesc(s, key, lt)
    ensures SortedDesc(Insert(x, s, key, lt), key, lt)
  {
    var r := Insert(x, s, key, lt);
    if |s| == 0 {
    } else if lt(key(x), key(s[0])) {
      var t := Insert(x, s[1..], key, lt);
      assert SortedDesc(s[1..], key, lt) by {
        forall i, j | 0 <= i < j < |s[1..]| ensures !lt(key(s[1..][i]), key(s[1..][j])) {
          assert s[1..][i] == s[i + 1] && s[1..][j] == s[j + 1];
        }
      }
      InsertSorted(x, s[1..], key, lt);
      assert r == [s[0]] + t;
      forall j | 0 <= j < |t| ensures !lt(key(s[0]), key(t[j])) {
        assert t[j] in multiset(t);
        assert t[j] == x || t[j] in multiset(s[1..]);
        if t[j] != x {
          var m :| 0 <= m < |s[1..]| && s[1..][m] == t[j];
          assert s[m + 1] == t[j];
        }
      }
      forall i, j | 0 <= i < j < |r| ensures !lt(key(r[i]), key(r[j])) {
        if i > 0 {
          assert r[i] == t[i - 1] && r[j] == t[j - 1];
        } else {
          assert r[j] == t[j - 1];
        }
      }
    } else {
      assert r == [x] + s;
      forall i, j | 0 <= i < j < |r| ensures !lt(key(r[i]), key(r[j])) {
        if i == 0 {
          assert r[j] == s[j - 1];
          assert j - 1 == 0 || !lt(key(s[0]), key(s[j - 1]));
        } else {
          assert r[i] == s[i - 1] && r[j] == s[j - 1];
        }
      }
    }
  }

  /** The result of sorting is in descending key order. */
  lemma {:induction false} SortDescSorted<T, K(!new)>(s: seq<T>, key: T -> K, lt: (K, K) -> bool)
    requires StrictTotalOrder(lt)
    ensures SortedDesc(SortDesc(s, key, lt), key, lt)
  {
    if |s| > 0 {
      SortDescSorted(s[1..], key, lt);
      InsertSorted(s[0], SortDesc(s[1..], key, lt), key, lt);
    }
  }

  lemma {:induction false} FilterKeyAppend<T, K>(a: seq<T>, b: seq<T>, key: T -> K, k: K)
    ensures FilterKey(a + b, key, k) == FilterKey(a, key, k) + FilterKey(b, key, k)
  {
    if |a| == 0 {
      assert a + b == b;
    } else {
      assert (a + b)[1..] == a[1..] + b;
      FilterKeyAppend(a[1..], b, key, k);
    }
  }

  lemma {:induction false} InsertFilterKey<T, K>(x: T, s: seq<T>, key: T -> K, lt: (K, K) -> bool, k: K)
    requires forall a :: !lt(a, a)
    ensures FilterKey(Insert(x, s, key, lt), key, k) == FilterKey([x] + s, key, k)
  {
    if |s| > 0 && lt(key(x), key(s[0])) {
      InsertFilterKey(x, s[1..], key, lt, k);
      FilterKeyAppend([s[0]], Insert(x, s[1..], key, lt), key, k);
      FilterKeyAppend([x], s[1..], key, k);
      FilterKeyAppend([x], s, key, k);
      FilterKeyAppend([s[0]], s[1..], key, k);
      assert [s[0]] + s[1..] == s;
    }
  }

  /**
   * Stability: for every key, the elements carrying it appear in the output
   * in the same relative order as in the input.
   */
  lemma {:induction false} SortDescStable<T, K>(s: seq<T>, key: T -> K, lt: (K, K) -> bool, k: K)
    requires forall a :: !lt(a, a)
    ensures FilterKey(SortDesc(s, key, lt), key, k) == FilterKey(s, key, k)
  {
    if |s| > 0 {
      var t := SortDesc(s[1..], key, lt);
      SortDescStable(s[1..], key, lt, k);
      InsertFilterKey(s[0], t, key, lt, k);
      FilterKeyAppend([s[0]], t, key, k);
      FilterKeyAppend([s[0]], s[1..], key, k);
      assert [s[0]] + s[1..] == s;
    }
  }
}

=== FILE: telegram.dfy ===
/**
 * The leak-search Telegram bot (bt.py): turning a lookup response into
 * report pages (`format_report`), the pagination keyboard
 * (`create_pagination_keyboard`), and the handlers that send the first page
 * (`handle_query`) and turn pages (`handle_pagination`).
 *
 * The lookup response is an input: `None` when the request failed, else the
 * decoded JSON object. The Telegram calls themselves (sending, editing,
 * answering callbacks) are represented by the value each handler returns.
 * The random query id is a parameter. An uncaught Python exception is its
 * own outcome.
 */
module Telegram {

  import opened Wrappers
  import Text
  import Json

  /** A decoded JSON object, as an ordered list of fields. */
  type Fields = seq<(string, Json.Value)>

  /** `report_cache`: pages by the decimal text of a query id. */
  type Cache = map<string, seq<string>>

  // ------------------------------------------------------- Python dictionaries

  lemma KeysSnoc(fs: Fields, f: (string, Json.Value))
    ensures Json.Keys(fs + [f]) == Json.Keys(fs) + {f.0}
  {
    var s := fs + [f];
    assert s[|fs|].0 == f.0;
    forall k | k in Json.Keys(s) ensures k in Json.Keys(fs) + {f.0} {
      var i :| 0 <= i < |s| && s[i].0 == k;
      if i < |fs| { assert fs[i].0 == k; }
    }
    forall k | k in Json.Keys(fs) ensures k in Json.Keys(s) {
      var i :| 0 <= i < |fs| && fs[i].0 == k;
      assert s[i].0 == k;
    }
  }

  lemma KeysCons(fs: Fields)
    requires |fs| > 0
    ensures Json.Keys(fs) == {fs[0].0} + Json.Keys(fs[1..])
  {
    var t := fs[1..];
    assert fs[0].0 in Json.Keys(fs);
    forall k | k in Json.Keys(fs) ensures k in {fs[0].0} + Json.Keys(t) {
      var i :| 0 <= i < |fs| && fs[i].0 == k;
      if i > 0 { assert t[i - 1].0 == k; }
    }
    forall k | k in Json.Keys(t) ensures k in Json.Keys(fs) {
      var i :| 0 <= i < |t| && t[i].0 == k;
      assert fs[i + 1].0 == k;
    }
  }

  /** The fields whose key is not `k`, in their order. */
  function WithoutKey(fs: Fields, k: string): (r: Fields)
    ensures |r| <= |fs|
    ensures Json.Keys(r) == Json.Keys(fs) - {k}
    ensures forall i :: 0 <= i < |r| ==> r[i] in fs
    decreases |fs|
  {
    if |fs| == 0 then []
    else
      var last := fs[|fs| - 1];
      var init := WithoutKey(fs[..|fs| - 1], k);
      assert fs == fs[..|fs| - 1] + [last];
      KeysSnoc(fs[..|fs| - 1], last);
      if last.0 == k then init
      else
        KeysSnoc(init, last);
        init + [last]
  }

  /** Removing one key leaves the lookup of every other key as it was. */
  lemma {:induction false} WithoutKeyLookup(fs: Fields, k: string, other: string)
    requires other != k
    ensures Json.FieldLookup(WithoutKey(fs, k), other) == Json.FieldLookup(fs, other)
    decreases |fs|
  {
    if |fs| > 0 {
      var last := fs[|fs| - 1];
      var init := WithoutKey(fs[..|fs| - 1], k);
      WithoutKeyLookup(fs[..|fs| - 1], k, other);
      if last.0 != k {
        assert (init + [last])[..|init|] == init;
      }
    }
  }

  /** A first field with another key does not affect a lookup. */
  lemma {:induction false} DropFirstLookup(fs: Fields, other: string)
    requires |fs| > 0 && fs[0].0 != other
    ensures Json.FieldLookup(fs[1..], other) == Json.FieldLookup(fs, other)
    decreases |fs|
  {
    if |fs| > 1 && fs[|fs| - 1].0 != other {
      assert fs[1..][..|fs| - 2] == fs[..|fs| - 1][1..];
      DropFirstLookup(fs[..|fs| - 1], other);
    }
  }

  /** A successful lookup returns the value of one of the fields. */
  lemma {:induction false} FieldLookupIsField(fs: Fields, k: string)
    requires Json.FieldLookup(fs, k).Some?
    ensures (k, Json.FieldLookup(fs, k).value) in fs
    decreases |fs|
  {
    if fs[|fs| - 1].0 != k {
      FieldLookupIsField(fs[..|fs| - 1], k);
    }
  }

  /**
   * Python's view of a JSON object as a `dict`, in iteration order: every key
   * once, at the place it first appeared, with the value of its last
   * occurrence.
   */
  function Items(fs: Fields): (r: Fields)
    ensures |r| == |Json.Keys(fs)| && Json.Keys(r) == Json.Keys(fs)
    ensures forall i, j :: 0 <= i < j < |r| ==> r[i].0 != r[j].0
    ensures forall i :: 0 <= i < |r| ==> Json.FieldLookup(fs, r[i].0) == Some(r[i].1)
    ensures forall i :: 0 <= i < |r| ==> r[i] in fs
    decreases |fs|
  {
    if |fs| == 0 then []
    else
      var rest := Items(WithoutKey(fs[1..], fs[0].0));
      ItemsStep(fs, rest);
      [(fs[0].0, Json.FieldLookup(fs, fs[0].0).value)] + rest
  }

  /**
   * The inductive step of `Items`: the first key, with its looked-up value,
   * put in front of the items of the remaining fields without that key.
   */
  lemma ItemsStep(fs: Fields, rest: Fields)
    requires |fs| > 0
    requires |rest| == |Json.Keys(WithoutKey(fs[1..], fs[0].0))|
    requires Json.Keys(rest) == Json.Keys(WithoutKey(fs[1..], fs[0].0))
    requires forall i, j :: 0 <= i < j < |rest| ==> rest[i].0 != rest[j].0
    requires forall i :: 0 <= i < |rest| ==> Json.FieldLookup(WithoutKey(fs[1..], fs[0].0), rest[i].0) == Some(rest[i].1)
    requires forall i :: 0 <= i < |rest| ==> rest[i] in WithoutKey(fs[1..], fs[0].0)
    ensures Json.FieldLookup(fs, fs[0].0).Some?
    ensures var r := [(fs[0].0, Json.FieldLookup(fs, fs[0].0).value)] + rest;
      |r| == |Json.Keys(fs)| && Json.Keys(r) == Json.Keys(fs)
      && (forall i, j :: 0 <= i < j < |r| ==> r[i].0 != r[j].0)
      && (forall i :: 0 <= i < |r| ==> Json.FieldLookup(fs, r[i].0) == Some(r[i].1))
      && (forall i :: 0 <= i < |r| ==> r[i] in fs)
  {
    var k := fs[0].0;
    assert Json.FieldLookup(fs, k).Some?;
    FieldLookupIsField(fs, k);
    KeysCons(fs);
    LiftRest(fs, rest);
    var head := (k, Json.FieldLookup(fs, k).value);
    var r := [head] + rest;
    assert Json.Keys(fs) == {k} + Json.Keys(rest);
    KeysCons(r);
    assert r[1..] == rest;
    ConsItems(fs, head, rest);
  }

  /** The items of the fields after the first, without its key, are items of all the fields. */
  lemma LiftRest(fs: Fields, rest: Fields)
    requires |fs| > 0
    requires Json.Keys(rest) == Json.Keys(WithoutKey(fs[1..], fs[0].0))
    requires forall i :: 0 <= i < |rest| ==> Json.FieldLookup(WithoutKey(fs[1..], fs[0].0), rest[i].0) == Some(rest[i].1)
    requires forall i :: 0 <= i < |rest| ==> rest[i] in WithoutKey(fs[1..], fs[0].0)
    ensures forall i :: 0 <= i < |rest| ==>
      rest[i].0 != fs[0].0 && Json.FieldLookup(fs, rest[i].0) == Some(rest[i].1) && rest[i] in fs
  {
    var k := fs[0].0;
    forall i | 0 <= i < |rest|
      ensures rest[i].0 != k && Json.FieldLookup(fs, rest[i].0) == Some(rest[i].1) && rest[i] in fs
    {
      assert rest[i].0 in Json.Keys(rest);
      WithoutKeyLookup(fs[1..], k, rest[i].0);
      DropFirstLookup(fs, rest[i].0);
      assert rest[i] in fs[1..];
    }
  }

  /** A looked-up field in front of looked-up fields with other, distinct keys. */
  lemma ConsItems(fs: Fields, head: (string, Json.Value), rest: Fields)
    requires head in fs && Json.FieldLookup(fs, head.0) == Some(head.1)
    requires forall i, j :: 0 <= i < j < |rest| ==> rest[i].0 != rest[j].0
    requires forall i :: 0 <= i < |rest| ==>
      rest[i].0 != head.0 && Json.FieldLookup(fs, rest[i].0) == Some(rest[i].1) && rest[i] in fs
    ensures var r := [head] + rest;
      (forall i, j :: 0 <= i < j < |r| ==> r[i].0 != r[j].0)
      && (forall i :: 0 <= i < |r| ==> Json.FieldLookup(fs, r[i].0) == Some(r[i].1))
      && (forall i :: 0 <= i < |r| ==> r[i] in fs)
  {
    var r := [head] + rest;
    forall i, j | 0 <= i < j < |r| ensures r[i].0 != r[j].0 {
      if i > 0 { assert r[i] == rest[i - 1] && r[j] == rest[j - 1]; }
      else { assert r[j] == rest[j - 1]; }
    }
    forall i | 0 <= i < |r| ensures Json.FieldLookup(fs, r[i].0) == Some(r[i].1) && r[i] in fs {
      if i > 0 { assert r[i] == rest[i - 1]; }
    }
  }

  // ------------------------------------------------------- Python formatting

  /**
   * Python `repr` of a decoded JSON value. Strings are shown in single
   * quotes, without the escaping Python applies to quotes and control
   * characters.
   */
  function Repr(v: Json.Value): string
    decreases v
  {
    match v
    case Null => "None"
    case Bool(b) => if b then "True" else "False"
    case Num(n) => Text.IntToString(n)
    case Str(s) => "'" + s + "'"
    case Arr(items) =>
      "[" + Text.Join(seq(|items|, i requires 0 <= i < |items| => Repr(items[i])), ", ") + "]"
    case Obj(fs) =>
      var d := Items(fs);
      "{" + Text.Join(seq(|d|, i requires 0 <= i < |d| => ReprEntry(v, d[i])), ", ") + "}"
  }

  function ReprEntry(v: Json.Value, f: (string, Json.Value)): string
    requires v.Obj? && f in v.fields
    decreases v, 0
  {
    "'" + f.0 + "': " + Repr(f.1)
  }

  /** `f"{value}"`: a string as it is, anything else as its `repr`. */
  function Str(v: Json.Value): (s: string)
    ensures v.Str? ==> s == v.s
  {
    if v.Str? then v.s else Repr(v)
  }

  /** Python truthiness: `None`, `False`, `0` and empty strings, lists and dicts are false. */
  predicate Truthy(v: Json.Value) {
    match v
    case Null => false
    case Bool(b) => b
    case Num(n) => n != 0
    case Str(s) => s != ""
    case Arr(items) => items != []
    case Obj(fs) => fs != []
  }

  // ------------------------------------------------------------- truncation

  const MaxMessageLength: nat := 3500
  /** How far back from the limit a line break is looked for. */
  const BreakWindow: nat := 100
  const TruncationNote: string := "\n\n<i>Message truncated...</i>"

  /** The position of the last `c` in `s`. */
  function LastIndexOf(s: string, c: char): (r: Option<nat>)
    ensures r.Some? ==> r.value < |s| && s[r.value] == c
    ensures r.Some? ==> forall j :: r.value < j < |s| ==> s[j] != c
    ensures r.None? ==> forall j :: 0 <= j < |s| ==> s[j] != c
    decreases |s|
  {
    if |s| == 0 then None
    else if s[|s| - 1] == c then Some(|s| - 1)
    else LastIndexOf(s[..|s| - 1], c)
  }

  /**
   * The truncation of one page: a text over the limit is cut to its first
   * 3500 characters, then back to its last line break if one falls in the
   * final 100 of them, and the note is appended.
   */
  function Truncate(text: string): (r: string)
    ensures |text| <= MaxMessageLength ==> r == text
    ensures |r| <= MaxMessageLength + |TruncationNote|
    ensures |text| > MaxMessageLength ==> (
      |r| >= |TruncationNote|
      && var kept := |r| - |TruncationNote|;
      MaxMessageLength - BreakWindow <= kept <= MaxMessageLength
      && r == text[..kept] + TruncationNote
      && (kept < MaxMessageLength ==>
            text[kept] == '\n' && forall j :: kept < j < MaxMessageLength ==> text[j] != '\n')
      && (kept == MaxMessageLength ==>
            forall j :: MaxMessageLength - BreakWindow <= j < MaxMessageLength ==> text[j] != '\n'))
  {
    if |text| <= MaxMessageLength then text
    else
      var head := text[..MaxMessageLength];
      var last := LastIndexOf(head, '\n');
      var kept := if last.Some? && last.value >= MaxMessageLength - BreakWindow then last.value else MaxMessageLength;
      assert head[..kept] == text[..kept];
      head[..kept] + TruncationNote
  }

  // ------------------------------------------------------------ report pages

  /** The database whose records are never listed. */
  const NoResultsName: string := "No results found"

  /**
   * The records of a database, `db_data.get("Data", [])` iterated as `dict`s.
   * `None` where Python raises: the value cannot be iterated (`None`, a number,
   * a boolean), or it yields something without `.items()` (a non-object list
   * element, a character of a string, a key of an object).
   */
  function Records(v: Json.Value): (r: Option<seq<Fields>>)
    ensures v.Arr? ==> (r.Some? <==> forall i :: 0 <= i < |v.items| ==> v.items[i].Obj?)
    ensures v.Arr? && r.Some? ==> (
      |r.value| == |v.items|
      && forall i :: 0 <= i < |v.items| ==> r.value[i] == v.items[i].fields)
    ensures !v.Arr? ==> (r.Some? <==> v == Json.Str("") || v == Json.Obj([])) && (r.Some? ==> r.value == [])
  {
    match v
    case Arr(items) =>
      if forall i :: 0 <= i < |items| ==> items[i].Obj? then
        Some(seq(|items|, i requires 0 <= i < |items| && items[i].Obj? => items[i].fields))
      else None
    case Str(s) => if s == "" then Some([]) else None
    case Obj(fs) => if fs == [] then Some([]) else None
    case _ => None
  }

  /** One line per field of a record, key in bold before its value, then a blank line. */
  function RecordLines(record: Fields): (lines: seq<string>)
    ensures |lines| == |Json.Keys(record)| + 1 && lines[|lines| - 1] == ""
    ensures var d := Items(record);
      forall i :: 0 <= i < |d| ==> lines[i] == "<b>" + d[i].0 + "</b>: " + Str(d[i].1)
  {
    var d := Items(record);
    seq(|d|, i requires 0 <= i < |d| => "<b>" + d[i].0 + "</b>: " + Str(d[i].1)) + [""]
  }

  /** The lines of every record, one record after the other. */
  function RecordsLines(records: seq<Fields>): seq<string>
    decreases |records|
  {
    if |records| == 0 then []
    else RecordsLines(records[..|records| - 1]) + RecordLines(records[|records| - 1])
  }

  /** The lines of two runs of records are those of the first run followed by those of the second. */
  lemma {:induction false} RecordsLinesConcat(a: seq<Fields>, b: seq<Fields>)
    ensures RecordsLines(a + b) == RecordsLines(a) + RecordsLines(b)
    decreases |b|
  {
    if |b| > 0 {
      var n := |b| - 1;
      assert (a + b)[..|a + b| - 1] == a + b[..n];
      assert (a + b)[|a + b| - 1] == b[n];
      RecordsLinesConcat(a, b[..n]);
    } else {
      assert a + b == a;
    }
  }

  /** The bold name, a blank line, and the leak description when it is truthy. */
  function HeaderLines(name: string, infoLeak: Json.Value): (lines: seq<string>)
    ensures |lines| == if Truthy(infoLeak) then 3 else 2
    ensures lines[..2] == ["<b>" + name + "</b>", ""]
  {
    ["<b>" + name + "</b>", ""] + (if Truthy(infoLeak) then [Str(infoLeak) + "\n"] else [])
  }

  /** `db_data.get("InfoLeak", "")` */
  function InfoLeak(db: Fields): Json.Value {
    Json.FieldLookup(db, "InfoLeak").GetOr(Json.Str(""))
  }

  /** `db_data.get("Data", [])` */
  function Data(db: Fields): Json.Value {
    Json.FieldLookup(db, "Data").GetOr(Json.Arr([]))
  }

  /**
   * The lines of one database's page; `None` where Python raises (a database
   * that is not an object, records that cannot be iterated).
   */
  function PageLines(name: string, db: Json.Value): (r: Option<seq<string>>)
    ensures !db.Obj? ==> r.None?
    ensures db.Obj? && name == NoResultsName ==> r == Some(HeaderLines(name, InfoLeak(db.fields)))
    ensures db.Obj? && name != NoResultsName ==> (r.Some? <==> Records(Data(db.fields)).Some?)
    ensures db.Obj? && name != NoResultsName && Records(Data(db.fields)).Some? ==>
      r == Some(HeaderLines(name, InfoLeak(db.fields)) + RecordsLines(Records(Data(db.fields)).value))
    ensures r.Some? ==> (
      var header := HeaderLines(name, InfoLeak(db.fields));
      |header| <= |r.value| && r.value[..|header|] == header)
  {
    if !db.Obj? then None
    else
      var header := HeaderLines(name, InfoLeak(db.fields));
      if name == NoResultsName then Some(header)
      else
        match Records(Data(db.fields))
        case None => None
        case Some(records) =>
          var lines := header + RecordsLines(records);
          assert lines[..|header|] == header;
          Some(lines)
  }

  /** The text of one page: its lines joined by line breaks, then truncated. */
  function PageText(name: string, db: Json.Value): (r: Option<string>)
    ensures r.Some? ==> |r.value| <= MaxMessageLength + |TruncationNote|
    ensures r.Some? <==> PageLines(name, db).Some?
    ensures r.Some? ==> r.value == Truncate(Text.Join(PageLines(name, db).value, "\n"))
  {
    match PageLines(name, db)
    case None => None
    case Some(lines) => Some(Truncate(Text.Join(lines, "\n")))
  }

  /** `f` applied to every element, in order; `None` as soon as one application fails. */
  function MapAll<A, B>(xs: seq<A>, f: A -> Option<B>): (r: Option<seq<B>>)
    ensures r.Some? <==> forall i :: 0 <= i < |xs| ==> f(xs[i]).Some?
    ensures r.Some? ==> (
      |r.value| == |xs|
      && forall i :: 0 <= i < |xs| ==> r.value[i] == f(xs[i]).value)
    decreases |xs|
  {
    if |xs| == 0 then Some([])
    else
      var n := |xs| - 1;
      var init := MapAll(xs[..n], f);
      assert forall i :: 0 <= i < n ==> xs[..n][i] == xs[i];
      if init.None? || f(xs[n]).None? then None else Some(init.value + [f(xs[n]).value])
  }

  /** The page of one `(name, data)` entry of "List". */
  function PageOf(db: (string, Json.Value)): Option<string> {
    PageText(db.0, db.1)
  }

  datatype Report =
    | NoReport              // `None`: an API error, or no "List"
    | Unhandled             // an exception escapes `format_report`
    | Report(pages: seq<string>)

  datatype Formatted = Formatted(report: Report, cache: Cache)

  /**
   * `format_report`: an "Error code" or a missing "List" gives no report and
   * leaves the cache alone; otherwise one page per database of "List", in
   * dictionary order, cached under the query id.
   */
  function FormatReport(data: Fields, queryId: int, cache: Cache): (r: Formatted)
    ensures r.report.NoReport? <==> "Error code" in Json.Keys(data) || "List" !in Json.Keys(data)
    ensures !r.report.Report? ==> r.cache == cache
    ensures r.report.Report? ==> (
      var list := Json.FieldLookup(data, "List").value;
      list.Obj?
      && |r.report.pages| == |Json.Keys(list.fields)|
      && r.cache == cache[Text.IntToString(queryId) := r.report.pages])
    ensures r.report.Report? ==>
      forall i :: 0 <= i < |r.report.pages| ==> |r.report.pages[i]| <= MaxMessageLength + |TruncationNote|
    ensures r.report.Report? ==>
      var list := Json.FieldLookup(data, "List").value;
      Some(r.report.pages) == MapAll(Items(list.fields), PageOf)
    ensures r.report.Unhandled? <==> (
      !r.report.NoReport?
      && var list := Json.FieldLookup(data, "List").value;
      !list.Obj? || MapAll(Items(list.fields), PageOf).None?)
  {
    if "Error code" in Json.Keys(data) || "List" !in Json.Keys(data) then Formatted(NoReport, cache)
    else
      var list := Json.FieldLookup(data, "List").value;
      if !list.Obj? then Formatted(Unhandled, cache)
      else
        match MapAll(Items(list.fields), PageOf)
        case None => Formatted(Unhandled, cache)
        case Some(pages) => Formatted(Report(pages), cache[Text.IntToString(queryId) := pages])
  }

  // --------------------------------------------------------------- keyboard

  /**
   * Python's `a % n` for a positive `n`: floored, so never negative. Dafny's
   * Euclidean `%` agrees with it whenever the divisor is positive.
   */
  function PyMod(a: int, n: int): (r: int)
    requires n > 0
    ensures 0 <= r < n
    ensures 0 <= a < n ==> r == a
    ensures a == -1 ==> r == n - 1
    ensures a == n ==> r == 0
  {
    a % n
  }

  datatype Button = Button(caption: string, callbackData: string)

  /** The callback data of a page-turning button. */
  function PageCommand(queryId: int, page: int): string {
    "/page " + Text.IntToString(queryId) + " " + Text.IntToString(page)
  }

  /**
   * `create_pagination_keyboard`: nothing for a single page; otherwise a back
   * button, a counter that does nothing, and a forward button, around the
   * page taken modulo the number of pages.
   */
  function Keyboard(queryId: int, page: int, total: int): (buttons: seq<Button>)
    ensures buttons == [] <==> total <= 1
    ensures total > 1 ==> (
      |buttons| == 3
      && buttons[0].caption == "<<" && buttons[2].caption == ">>"
      && buttons[1] == Button(Text.IntToString(PyMod(page, total) + 1) + "/" + Text.IntToString(total), "noop"))
  {
    if total <= 1 then []
    else
      var p := PyMod(page, total);
      [Button("<<", PageCommand(queryId, p - 1)),
       Button(Text.IntToString(p + 1) + "/" + Text.IntToString(total), "noop"),
       Button(">>", PageCommand(queryId, p + 1))]
  }

  // ------------------------------------------------------------- pagination

  datatype Callback =
    | Ignored                        // returns without a reply
    | Expired                        // "Results expired. Search again."
    | Failed                         // an exception escapes the handler
    | Shown(page: nat, text: string, keyboard: seq<Button>)

  /**
   * `handle_pagination`, for callback data the handler's filter accepts
   * (text starting with "/page "): exactly three tokens, an integer page,
   * and a cached query; the page wraps around modulo the number of pages.
   */
  function HandlePagination(data: string, cache: Cache): (r: Callback)
    ensures var parts := Text.SplitWhitespace(data);
      r == Ignored <==> !Text.IsPrefix("/page ", data) || |parts| != 3 || Text.ParseInt(parts[2]).None?
    ensures var parts := Text.SplitWhitespace(data);
      r.Expired? <==> r != Ignored && parts[1] !in cache
    ensures var parts := Text.SplitWhitespace(data);
      r.Failed? ==> (
        |parts| == 3 && parts[1] in cache
        && (|cache[parts[1]]| == 0 || Text.ParseInt(parts[1]).None?))
    ensures var parts := Text.SplitWhitespace(data);
      r.Failed? <==> r != Ignored && parts[1] in cache
                     && (|cache[parts[1]]| == 0 || Text.ParseInt(parts[1]).None?)
    ensures var parts := Text.SplitWhitespace(data);
      r.Shown? ==> (
        |parts| == 3 && parts[1] in cache && Text.ParseInt(parts[2]).Some? && Text.ParseInt(parts[1]).Some?
        && var report := cache[parts[1]];
        |report| > 0
        && r.page == PyMod(Text.ParseInt(parts[2]).value, |report|)
        && r.text == report[r.page])
  {
    var parts := Text.SplitWhitespace(data);
    if !Text.IsPrefix("/page ", data) || |parts| != 3 then Ignored
    else
      match Text.ParseInt(parts[2])
      case None => Ignored
      case Some(page) =>
        if parts[1] !in cache then Expired
        else
          var report := cache[parts[1]];
          if |report| == 0 then Failed   // `page % 0` raises ZeroDivisionError
          else
            var p := PyMod(page, |report|);
            match Text.ParseInt(parts[1])
            case None => Failed
            case Some(id) => Shown(p, report[p], Keyboard(id, p, |report|))
  }

  // ------------------------------------------------------------------ query

  datatype Reply =
    | Denied                         // "Access denied."
    | Silent                         // a blank message gets no answer
    | NoResults                      // "No results found or service unavailable."
    | QueryFailed                    // an exception escapes the handler
    | FirstPage(text: string, keyboard: seq<Button>)

  datatype Answered = Answered(reply: Reply, cache: Cache)

  /**
   * `handle_query`: refuses users without access, ignores blank messages,
   * and otherwise formats the lookup response (`None` when the lookup
   * failed) and sends its first page with the keyboard for page 0.
   */
  function HandleQuery(allowed: bool, message: string, response: Option<Fields>, queryId: int, cache: Cache): (r: Answered)
    ensures !allowed ==> r == Answered(Denied, cache)
    ensures allowed && Text.Trim(message, Text.IsPyWhitespace) == [] ==> r == Answered(Silent, cache)
    ensures response.None? ==> r.cache == cache && r.reply in {Denied, Silent, NoResults}
    ensures var proceeds := allowed && Text.Trim(message, Text.IsPyWhitespace) != [];
      r.reply == NoResults <==> (
        proceeds
        && (response.None?
            || FormatReport(response.value, queryId, cache).report.NoReport?
            || FormatReport(response.value, queryId, cache).report == Report([])))
    ensures var proceeds := allowed && Text.Trim(message, Text.IsPyWhitespace) != [];
      r.reply == QueryFailed <==> proceeds && response.Some? && FormatReport(response.value, queryId, cache).report.Unhandled?
    ensures var proceeds := allowed && Text.Trim(message, Text.IsPyWhitespace) != [];
      proceeds && response.Some? ==> (
        var f := FormatReport(response.value, queryId, cache);
        r.cache == f.cache
        && (f.report.Report? && |f.report.pages| > 0 ==>
              r.reply == FirstPage(f.report.pages[0], Keyboard(queryId, 0, |f.report.pages|))))
    ensures r.reply.FirstPage? ==> (
      Text.IntToString(queryId) in r.cache
      && var pages := r.cache[Text.IntToString(queryId)];
      response.Some? && |pages| > 0 && r.reply.text == pages[0]
      && r.reply.keyboard == Keyboard(queryId, 0, |pages|))
  {
    if !allowed then Answered(Denied, cache)
    else if Text.Trim(message, Text.IsPyWhitespace) == [] then Answered(Silent, cache)
    else
      match response
      case None => Answered(NoResults, cache)
      case Some(data) =>
        var f := FormatReport(data, queryId, cache);
        match f.report
        case NoReport => Answered(NoResults, f.cache)
        case Unhandled => Answered(QueryFailed, f.cache)
        case Report(pages) =>
          if |pages| == 0 then Answered(NoResults, f.cache)
          else Answered(FirstPage(pages[0], Keyboard(queryId, 0, |pages|)), f.cache)
  }

  // ------------------------------------------------------------------ lemmas

  /** Only the leak description of the "No results found" database shows: its records never do. */
  lemma NoResultsPageIgnoresRecords(a: Fields, b: Fields)
    requires InfoLeak(a) == InfoLeak(b)
    ensures PageText(NoResultsName, Json.Obj(a)) == PageText(NoResultsName, Json.Obj(b))
    ensures PageText(NoResultsName, Json.Obj(a)).Some?
  {
  }

  /** An integer's decimal text has no whitespace in it. */
  lemma IntTextIsOneWord(n: int)
    ensures Text.IsWord(Text.IntToString(n))
  {
    var d := Text.NatToString(if n < 0 then -n else n);
    assert forall i :: 0 <= i < |d| ==> Text.IsAsciiDigit(d[i]);
    if n < 0 {
      var t := Text.IntToString(n);
      assert t == "-" + d;
      assert forall i :: 1 <= i < |t| ==> t[i] == d[i - 1];
    }
  }

  /** A page command splits into the command word, the query id and the page. */
  lemma PageCommandTokens(queryId: int, page: int)
    ensures Text.SplitWhitespace(PageCommand(queryId, page))
      == ["/page", Text.IntToString(queryId), Text.IntToString(page)]
    ensures Text.IsPrefix("/page ", PageCommand(queryId, page))
  {
    var a := Text.IntToString(queryId);
    var b := Text.IntToString(page);
    IntTextIsOneWord(queryId);
    IntTextIsOneWord(page);
    assert Text.IsWord("/page") by {
      var w := "/page";
      assert forall i :: 0 <= i < |w| ==> w[i] in {'/', 'p', 'a', 'g', 'e'};
    }
    assert PageCommand(queryId, page) == "/page" + " " + a + " " + b;
    Text.SplitThreeWords("/page", a, b);
    PageCommandPrefix(queryId, page);
  }

  lemma PageCommandPrefix(queryId: int, page: int)
    ensures Text.IsPrefix("/page ", PageCommand(queryId, page))
  {
    var rest := Text.IntToString(queryId) + " " + Text.IntToString(page);
    assert PageCommand(queryId, page) == "/page " + rest;
    assert ("/page " + rest)[..6] == "/page ";
  }

  /**
   * The callback of any page command for a cached, non-empty report shows
   * the page taken modulo the report's length, with that page's keyboard.
   */
  lemma PageCommandShowsPage(queryId: int, page: int, cache: Cache)
    requires Text.IntToString(queryId) in cache && |cache[Text.IntToString(queryId)]| > 0
    ensures var report := cache[Text.IntToString(queryId)];
      var p := PyMod(page, |report|);
      HandlePagination(PageCommand(queryId, page), cache) == Shown(p, report[p], Keyboard(queryId, p, |report|))
  {
    PageCommandTokens(queryId, page);
    Text.IntToStringRoundTrip(queryId);
    Text.IntToStringRoundTrip(page);
  }

  /**
   * The round trip between the keyboard and the handler: on any page of a
   * cached report of several pages, ">>" shows the next page and "<<" the
   * previous one, wrapping around at both ends.
   */
  lemma ButtonsTurnPages(queryId: int, page: int, cache: Cache)
    requires Text.IntToString(queryId) in cache && |cache[Text.IntToString(queryId)]| > 1
    ensures var report := cache[Text.IntToString(queryId)];
      var n := |report|;
      var p := PyMod(page, n);
      var keys := Keyboard(queryId, page, n);
      HandlePagination(keys[2].callbackData, cache).Shown?
      && HandlePagination(keys[2].callbackData, cache).page == (if p == n - 1 then 0 else p + 1)
      && HandlePagination(keys[0].callbackData, cache).Shown?
      && HandlePagination(keys[0].callbackData, cache).page == (if p == 0 then n - 1 else p - 1)
  {
    var n := |cache[Text.IntToString(queryId)]|;
    var p := PyMod(page, n);
    PageCommandShowsPage(queryId, p + 1, cache);
    PageCommandShowsPage(queryId, p - 1, cache);
  }

  /**
   * After a query is answered with its first page, the forward button shows
   * the second page of the same report.
   */
  lemma ForwardFromFirstPage(allowed: bool, message: string, response: Option<Fields>, queryId: int, cache: Cache)
    requires HandleQuery(allowed, message, response, queryId, cache).reply.FirstPage?
    requires |HandleQuery(allowed, message, response, queryId, cache).reply.keyboard| > 0
    ensures var a := HandleQuery(allowed, message, response, queryId, cache);
      var pages := a.cache[Text.IntToString(queryId)];
      HandlePagination(a.reply.keyboard[2].callbackData, a.cache) == Shown(1, pages[1], Keyboard(queryId, 1, |pages|))
  {
    var a := HandleQuery(allowed, message, response, queryId, cache);
    var pages := a.cache[Text.IntToString(queryId)];
    assert |pages| > 1;
    PageCommandShowsPage(queryId, 1, a.cache);
  }

  /** A report of a single page is sent without buttons. */
  lemma SinglePageHasNoButtons(allowed: bool, message: string, response: Option<Fields>, queryId: int, cache: Cache)
    requires HandleQuery(allowed, message, response, queryId, cache).reply.FirstPage?
    requires |HandleQuery(allowed, message, response, queryId, cache).cache[Text.IntToString(queryId)]| == 1
    ensures HandleQuery(allowed, message, response, queryId, cache).reply.keyboard == []
  {
  }

  /** An API error wins over a present "List", and the cache keeps its pages. */
  lemma ErrorCodeWins(list: Json.Value, queryId: int, cache: Cache)
    ensures FormatReport([("List", list), ("Error code", Json.Num(1))], queryId, cache) == Formatted(NoReport, cache)
  {
    var data := [("List", list), ("Error code", Json.Num(1))];
    assert data[1].0 == "Error code";
  }

  /** A text just over the limit with no line break is cut hard and grows past the limit by the note. */
  lemma HardCutExceedsLimit()
    ensures |Truncate(seq(MaxMessageLength + 1, _ => 'a'))| == MaxMessageLength + |TruncationNote|
  {
  }
}

=== FILE: text.dfy ===
/**
 * String helpers used by the rest of the model. Strings are `seq<char>` and a
 * character stands for one Unicode scalar value, so Rust `len()` and Python
 * `len()` are both read as the number of characters.
 *
 * Character classes:
 *  - upper/lower/alphanumeric and lower-casing are the ASCII ones;
 *  - the three whitespace sets (Rust `char::is_whitespace`, JavaScript
 *    `String.prototype.trim`, Python `str.split()`) are given by code point.
 */
module Text {

  import opened Wrappers

  // ---------------------------------------------------------------- prefixes

  predicate IsPrefix(p: string, s: string) {
    |p| <= |s| && s[..|p|] == p
  }

  /** `s` contains `sub` as a contiguous substring (Rust `str::contains`, Python `in`). */
  predicate Contains(s: string, sub: string)
    decreases |s|
  {
    IsPrefix(sub, s) || (|s| > 0 && Contains(s[1..], sub))
  }

  /** `sub` occurs in `s` starting at index `i`. */
  predicate OccursAt(s: string, sub: string, i: int) {
    0 <= i && i + |sub| <= |s| && s[i..i + |sub|] == sub
  }

  /** The recursive definition agrees with "some window of `s` equals `sub`". */
  lemma {:induction false} ContainsWindow(s: string, sub: string)
    ensures Contains(s, sub) <==> exists i :: OccursAt(s, sub, i)
    decreases |s|
  {
    if IsPrefix(sub, s) {
      assert OccursAt(s, sub, 0);
    } else if |s| == 0 {
    } else {
      ContainsWindow(s[1..], sub);
      if Contains(s[1..], sub) {
        var i :| OccursAt(s[1..], sub, i);
        assert s[1..][i..i + |sub|] == s[i + 1..i + 1 + |sub|];
        assert OccursAt(s, sub, i + 1);
      }
      if exists i :: OccursAt(s, sub, i) {
        var i :| OccursAt(s, sub, i);
        assert i != 0;
        assert s[1..][i - 1..i - 1 + |sub|] == s[i..i + |sub|];
        assert OccursAt(s[1..], sub, i - 1);
      }
    }
  }

  /** Every string contains itself. */
  lemma ContainsSelf(s: string)
    ensures Contains(s, s)
  {
    assert IsPrefix(s, s);
  }

  /** Some element of `pats` is a substring of `s`. */
  predicate ContainsAny(s: string, pats: seq<string>) {
    exists p :: p in pats && Contains(s, p)
  }

  // ---------------------------------------------------------- ASCII classes

  predicate IsAsciiUpper(c: char) { 'A' <= c <= 'Z' }
  predicate IsAsciiLower(c: char) { 'a' <= c <= 'z' }
  predicate IsAsciiDigit(c: char) { '0' <= c <= '9' }
  predicate IsAsciiAlphanumeric(c: char) { IsAsciiUpper(c) || IsAsciiLower(c) || IsAsciiDigit(c) }

  predicate AnyChar(s: string, p: char -> bool) {
    exists i :: 0 <= i < |s| && p(s[i])
  }

  function LowerChar(c: char): char {
    if IsAsciiUpper(c) then (c as int + 32) as char else c
  }

  /** ASCII lower-casing; every other character is left as it is. */
  function ToLower(s: string): (r: string)
    ensures |r| == |s|
    ensures forall i :: 0 <= i < |s| ==> r[i] == LowerChar(s[i])
    ensures forall i :: 0 <= i < |s| ==> !IsAsciiUpper(r[i])
  {
    seq(|s|, i requires 0 <= i < |s| => LowerChar(s[i]))
  }

  lemma ToLowerIdempotent(s: string)
    ensures ToLower(ToLower(s)) == ToLower(s)
  {
  }

  // ------------------------------------------------------------- whitespace

  /** Rust `char::is_whitespace` (the Unicode White_Space property). */
  predicate IsRustWhitespace(c: char) {
    var n := c as int;
    (9 <= n <= 13) || n == 32 || n == 0x85 || n == 0xA0 || n == 0x1680
    || (0x2000 <= n <= 0x200A) || n == 0x2028 || n == 0x2029 || n == 0x202F
    || n == 0x205F || n == 0x3000
  }

  /** The characters JavaScript's `trim` removes (WhiteSpace and LineTerminator). */
  predicate IsJsWhitespace(c: char) {
    var n := c as int;
    (9 <= n <= 13) || n == 32 || n == 0xA0 || n == 0x1680
    || (0x2000 <= n <= 0x200A) || n == 0x2028 || n == 0x2029 || n == 0x202F
    || n == 0x205F || n == 0x3000 || n == 0xFEFF
  }

  /** ASCII whitespace as the HTML standard defines it: tab, line feed, form feed, carriage return and space. */
  predicate IsHtmlWhitespace(c: char) {
    c == '\t' || c == '\n' || c as int == 12 || c == '\r' || c == ' '
  }

  /** The separators of Python's argument-less `str.split()`. */
  predicate IsPyWhitespace(c: char) {
    IsRustWhitespace(c) || (28 <= c as int <= 31)
  }

  function TrimStart(s: string, ws: char -> bool): (r: string)
    ensures |r| <= |s| && r == s[|s| - |r|..]
    ensures r == [] || !ws(r[0])
    ensures forall i :: 0 <= i < |s| - |r| ==> ws(s[i])
    decreases |s|
  {
    if |s| > 0 && ws(s[0]) then TrimStart(s[1..], ws) else s
  }

  function TrimEnd(s: string, ws: char -> bool): (r: string)
    ensures |r| <= |s| && r == s[..|r|]
    ensures r == [] || !ws(r[|r| - 1])
    ensures forall i :: |r| <= i < |s| ==> ws(s[i])
    decreases |s|
  {
    if |s| > 0 && ws(s[|s| - 1]) then TrimEnd(s[..|s| - 1], ws) else s
  }

  /** How many `ws` characters `s` starts with. */
  function LeadingRun(s: string, ws: char -> bool): (n: nat)
    ensures n <= |s|
    ensures forall j :: 0 <= j < n ==> ws(s[j])
    ensures n == |s| || !ws(s[n])
  {
    |s| - |TrimStart(s, ws)|
  }

  /** `r` sits at `i` in `s`, and everything of `s` before and after it is `ws`. */
  predicate TrimWindow(s: string, r: string, i: int, ws: char -> bool) {
    OccursAt(s, r, i)
    && (forall j :: 0 <= j < i ==> ws(s[j]))
    && (forall j :: i + |r| <= j < |s| ==> ws(s[j]))
  }

  /**
   * Both ends trimmed: the result is `s` less only `ws` characters at its
   * ends, and has no `ws` character at either end of its own.
   */
  function Trim(s: string, ws: char -> bool): (r: string)
    ensures r == [] || (!ws(r[0]) && !ws(r[|r| - 1]))
    ensures TrimWindow(s, r, LeadingRun(s, ws), ws)
  {
    TrimBothEnds(s, ws);
    TrimEnd(TrimStart(s, ws), ws)
  }

  lemma TrimBothEnds(s: string, ws: char -> bool)
    ensures var r := TrimEnd(TrimStart(s, ws), ws);
      r == [] || (!ws(r[0]) && !ws(r[|r| - 1]))
    ensures TrimWindow(s, TrimEnd(TrimStart(s, ws), ws), LeadingRun(s, ws), ws)
  {
    var t := TrimStart(s, ws);
    var r := TrimEnd(t, ws);
    var i := |s| - |t|;
    PrefixOfSuffix(s, t, r, i);
    forall j | i + |r| <= j < |s| ensures ws(s[j]) {
      assert s[j] == t[j - i];
    }
    WindowOfParts(s, r, i, ws);
  }

  lemma WindowOfParts(s: string, r: string, i: int, ws: char -> bool)
    requires OccursAt(s, r, i)
    requires forall j :: 0 <= j < i ==> ws(s[j])
    requires forall j :: i + |r| <= j < |s| ==> ws(s[j])
    ensures TrimWindow(s, r, i, ws)
  {
  }

  /** A prefix of a suffix of `s` is a window of `s`. */
  lemma PrefixOfSuffix(s: string, t: string, r: string, i: nat)
    requires i <= |s| && t == s[i..]
    requires |r| <= |t| && r == t[..|r|]
    ensures OccursAt(s, r, i)
  {
    assert s[i..i + |r|] == r;
  }

  /** Trimming a string with no outer whitespace changes nothing. */
  lemma TrimNoOuterWhitespace(s: string, ws: char -> bool)
    requires s == [] || (!ws(s[0]) && !ws(s[|s| - 1]))
    ensures Trim(s, ws) == s
  {
  }

  // ---------------------------------------------------- whitespace splitting

  /** Length of the leading run of non-whitespace characters. */
  function TokenLength(s: string, ws: char -> bool): (k: nat)
    ensures k <= |s|
    ensures forall i :: 0 <= i < k ==> !ws(s[i])
    ensures k == |s| || ws(s[k])
  {
    if |s| == 0 || ws(s[0]) then 0 else 1 + TokenLength(s[1..], ws)
  }

  /** Python `s.split()`: the maximal runs of non-whitespace characters, in order. */
  function SplitWhitespace(s: string): (parts: seq<string>)
    ensures forall i :: 0 <= i < |parts| ==> |parts[i]| > 0
    decreases |s|
  {
    var t := TrimStart(s, IsPyWhitespace);
    if t == [] then []
    else
      var k := FirstTokenLength(t);
      var rest := SplitWhitespace(t[k..]);
      assert forall i :: 0 < i < 1 + |rest| ==> ([t[..k]] + rest)[i] == rest[i - 1];
      [t[..k]] + rest
  }

  /** The length of the first token of text that starts with one. */
  function FirstTokenLength(t: string): (k: nat)
    requires t != [] && !IsPyWhitespace(t[0])
    ensures 0 < k <= |t|
  {
    TokenLength(t, IsPyWhitespace)
  }

  /** The token length is the position of the first separator, or the whole length. */
  lemma TokenLengthIs(s: string, ws: char -> bool, k: nat)
    requires k <= |s|
    requires forall i :: 0 <= i < k ==> !ws(s[i])
    requires k == |s| || ws(s[k])
    ensures TokenLength(s, ws) == k
  {
  }

  /** A word followed by a separator (or by nothing) is split off as the first token. */
  lemma SplitWord(w: string, rest: string)
    requires IsWord(w)
    requires rest == [] || IsPyWhitespace(rest[0])
    ensures SplitWhitespace(w + rest) == [w] + SplitWhitespace(rest)
  {
    var s := w + rest;
    assert s[0] == w[0];
    assert TrimStart(s, IsPyWhitespace) == s;
    TokenLengthIs(s, IsPyWhitespace, |w|);
    assert s[..|w|] == w;
    assert s[|w|..] == rest;
  }

  /** A leading separator does not change the split. */
  lemma SplitSkipsSeparator(s: string)
    requires |s| > 0 && IsPyWhitespace(s[0])
    ensures SplitWhitespace(s) == SplitWhitespace(s[1..])
  {
    assert TrimStart(s, IsPyWhitespace) == TrimStart(s[1..], IsPyWhitespace);
  }

  predicate IsWord(w: string) {
    |w| > 0 && forall i :: 0 <= i < |w| ==> !IsPyWhitespace(w[i])
  }

  /** A word, a separator, then more text: the word is the first token of the split. */
  lemma SplitWordAndSpace(w: string, rest: string)
    requires IsWord(w)
    ensures SplitWhitespace(w + " " + rest) == [w] + SplitWhitespace(rest)
  {
    var x := " " + rest;
    assert w + " " + rest == w + x;
    SplitWord(w, x);
    SplitSkipsSeparator(x);
    assert x[1..] == rest;
  }

  /** A single word splits into itself. */
  lemma SplitOneWord(w: string)
    requires IsWord(w)
    ensures SplitWhitespace(w) == [w]
  {
    assert w + [] == w;
    SplitWord(w, []);
  }

  /** Two words joined by a space split back into those words. */
  lemma SplitTwoWords(a: string, b: string)
    requires IsWord(a) && IsWord(b)
    ensures SplitWhitespace(a + " " + b) == [a, b]
  {
    SplitOneWord(b);
    SplitWordAndSpace(a, b);
    PairConcat(a, b);
  }

  lemma PairConcat(a: string, b: string)
    ensures [a] + [b] == [a, b]
  {
  }

  /** Three words joined by single spaces split back into those words. */
  lemma SplitThreeWords(a: string, b: string, c: string)
    requires IsWord(a) && IsWord(b) && IsWord(c)
    ensures SplitWhitespace(a + " " + b + " " + c) == [a, b, c]
  {
    JoinRegroup(a, b, c);
    SplitTwoWords(b, c);
    SplitWordAndSpace(a, b + " " + c);
    TripleConcat(a, b, c);
  }

  lemma JoinRegroup(a: string, b: string, c: string)
    ensures a + " " + b + " " + c == a + " " + (b + " " + c)
  {
  }

  lemma TripleConcat(a: string, b: string, c: string)
    ensures [a] + [b, c] == [a, b, c]
  {
  }

  // -------------------------------------------------------------- integers

  function DigitChar(d: nat): char
    requires d < 10
  {
    ('0' as int + d) as char
  }

  function DigitValue(c: char): nat
    requires IsAsciiDigit(c)
  {
    c as int - '0' as int
  }

  /** Decimal rendering of a natural number, without leading zeros. */
  function NatToString(n: nat): (s: string)
    ensures |s| > 0
    ensures forall i :: 0 <= i < |s| ==> IsAsciiDigit(s[i])
  {
    if n < 10 then [DigitChar(n)] else NatToString(n / 10) + [DigitChar(n % 10)]
  }

  /** Left-pad with `'0'` to at least `width` characters (`{:0width}`). */
  function PadLeft(s: string, width: nat): (r: string)
    ensures |r| == if |s| < width then width else |s|
    ensures IsSuffixOf(s, r)
  {
    var z := seq(if |s| < width then width - |s| else 0, _ => '0');
    assert (z + s)[|z|..] == s;
    z + s
  }

  predicate IsSuffixOf(p: string, s: string) {
    |p| <= |s| && s[|s| - |p|..] == p
  }

  /** Leading zeros do not change the value of a digit string. */
  lemma {:induction false} LeadingZeros(k: nat, s: string)
    requires AllDigits(s)
    ensures AllDigits(seq(k, _ => '0') + s)
    ensures DigitsValue(seq(k, _ => '0') + s) == DigitsValue(s)
    decreases |s|
  {
    var z := seq(k, _ => '0');
    if |s| == 0 {
      assert z + s == z;
      ZerosValue(k);
    } else {
      var t := z + s;
      assert t[..|t| - 1] == z + s[..|s| - 1];
      LeadingZeros(k, s[..|s| - 1]);
    }
  }

  lemma {:induction false} ZerosValue(k: nat)
    ensures AllDigits(seq(k, _ => '0'))
    ensures DigitsValue(seq(k, _ => '0')) == 0
  {
    if k > 0 {
      assert seq(k, _ => '0')[..k - 1] == seq(k - 1, _ => '0');
      ZerosValue(k - 1);
    }
  }

  /** A zero-padded rendering still reads back as the number. */
  lemma PadLeftValue(n: nat, width: nat)
    ensures AllDigits(PadLeft(NatToString(n), width))
    ensures DigitsValue(PadLeft(NatToString(n), width)) == n
  {
    var s := NatToString(n);
    NatToStringValue(n);
    LeadingZeros(if |s| < width then width - |s| else 0, s);
  }

  function Pow10(k: nat): nat {
    if k == 0 then 1 else 10 * Pow10(k - 1)
  }

  /** A number below `10^k` has at most `k` digits. */
  lemma {:induction false} NatToStringShort(n: nat, k: nat)
    requires 1 <= k && n < Pow10(k)
    ensures |NatToString(n)| <= k
  {
    if n >= 10 {
      NatToStringShort(n / 10, k - 1);
    }
  }

  /** Python `str(n)` / Rust `n.to_string()` for an integer. */
  function IntToString(n: int): string {
    if n < 0 then "-" + NatToString(-n) else NatToString(n)
  }

  predicate AllDigits(s: string) {
    forall i :: 0 <= i < |s| ==> IsAsciiDigit(s[i])
  }

  function DigitsValue(s: string): nat
    requires AllDigits(s)
  {
    if |s| == 0 then 0 else DigitsValue(s[..|s| - 1]) * 10 + DigitValue(s[|s| - 1])
  }

  /** Python `int(s)` on a token: an optional sign followed by one or more ASCII digits. */
  function ParseInt(s: string): Option<int> {
    if |s| > 0 && (s[0] == '-' || s[0] == '+') then
      var digits := s[1..];
      if |digits| > 0 && AllDigits(digits) then
        var v: int := DigitsValue(digits);
        Some(if s[0] == '-' then -v else v)
      else None
    else if |s| > 0 && AllDigits(s) then Some(DigitsValue(s))
    else None
  }

  lemma {:induction false} NatToStringValue(n: nat)
    ensures DigitsValue(NatToString(n)) == n
  {
    var s := NatToString(n);
    if n >= 10 {
      NatToStringValue(n / 10);
      assert s[..|s| - 1] == NatToString(n / 10);
    }
  }

  /** Rendering an integer and parsing it back yields the same integer. */
  lemma IntToStringRoundTrip(n: int)
    ensures ParseInt(IntToString(n)) == Some(n)
  {
    if n < 0 {
      NatToStringValue(-n);
      assert IntToString(n)[1..] == NatToString(-n);
    } else {
      NatToStringValue(n);
    }
  }

  /** Distinct integers render to distinct strings. */
  lemma IntToStringInjective(a: int, b: int)
    requires IntToString(a) == IntToString(b)
    ensures a == b
  {
    IntToStringRoundTrip(a);
    IntToStringRoundTrip(b);
  }

  // ----------------------------------------------------------- ordering

  /** Rust `str` ordering: lexicographic by code point (UTF-8 byte order agrees with it). */
  predicate StrLt(a: string, b: string)
    decreases |a|
  {
    if |a| == 0 then |b| > 0
    else if |b| == 0 then false
    else if a[0] != b[0] then a[0] < b[0]
    else StrLt(a[1..], b[1..])
  }

  predicate StrLe(a: string, b: string) {
    a == b || StrLt(a, b)
  }

  lemma {:induction false} StrLtIrreflexive(a: string)
    ensures !StrLt(a, a)
    decreases |a|
  {
    if |a| > 0 {
      StrLtIrreflexive(a[1..]);
    }
  }

  lemma {:induction false} StrLtTransitive(a: string, b: string, c: string)
    requires StrLt(a, b) && StrLt(b, c)
    ensures StrLt(a, c)
    decreases |a|
  {
    if |a| > 0 && |b| > 0 && |c| > 0 && a[0] == b[0] && b[0] == c[0] {
      StrLtTransitive(a[1..], b[1..], c[1..]);
    }
  }

  lemma {:induction false} StrLtTotal(a: string, b: string)
    requires a != b
    ensures StrLt(a, b) || StrLt(b, a)
    decreases |a|
  {
    if |a| > 0 && |b| > 0 && a[0] == b[0] {
      assert a == [a[0]] + a[1..] && b == [b[0]] + b[1..];
      StrLtTotal(a[1..], b[1..]);
    }
  }

  lemma StrLtAsymmetric(a: string, b: string)
    requires StrLt(a, b)
    ensures !StrLt(b, a)
  {
    if StrLt(b, a) {
      StrLtTransitive(a, b, a);
      StrLtIrreflexive(a);
    }
  }

  /** The empty string is below every other string. */
  lemma EmptyIsLeast(s: string)
    ensures StrLe("", s)
  {
  }

  // --------------------------------------------------------------- joining

  /** Python `sep.join(parts)`. */
  function Join(parts: seq<string>, sep: string): string
    decreases |parts|
  {
    if |parts| == 0 then ""
    else if |parts| == 1 then parts[0]
    else parts[0] + sep + Join(parts[1..], sep)
  }
}

=== FILE: tiers.dfy ===
/**
 * Subscription tiers (`UserSubscriptionTier` in src/database.rs) and their
 * textual form, as stored in the database and carried in access tokens.
 */
module Tiers {

  import opened Wrappers
  import Text

  datatype Tier = Free | Pro | Enterprise

  const TierNames: set<string> := {"free", "pro", "enterprise"}

  /** `to_string`: the lower-case name of the tier. */
  function ToString(t: Tier): (s: string)
    ensures s in TierNames
    ensures Text.ToLower(s) == s
  {
    match t
    case Free => "free"
    case Pro => "pro"
    case Enterprise => "enterprise"
  }

  /** `from_str`: case-insensitive parse of a tier name. */
  function FromStr(s: string): (r: Result<Tier, string>)
    ensures r.Ok? <==> Text.ToLower(s) in TierNames
    ensures r.Ok? ==> ToString(r.value) == Text.ToLower(s)
    ensures r.Err? ==> r.error == "Invalid subscription tier: " + s
  {
    match Text.ToLower(s)
    case "free" => Ok(Free)
    case "pro" => Ok(Pro)
    case "enterprise" => Ok(Enterprise)
    case _ => Err("Invalid subscription tier: " + s)
  }

  /** Parsing the printed name of a tier gives the tier back. */
  lemma RoundTrip(t: Tier)
    ensures FromStr(ToString(t)) == Ok(t)
  {
  }

  /** Two tiers with the same name are the same tier. */
  lemma ToStringInjective(a: Tier, b: Tier)
    ensures ToString(a) == ToString(b) <==> a == b
  {
  }

  /** Parsing ignores letter case: a string and its lower-case form parse to the same tier. */
  lemma CaseInsensitive(s: string)
    ensures FromStr(s).Ok? == FromStr(Text.ToLower(s)).Ok?
    ensures FromStr(s).Ok? ==> FromStr(s) == FromStr(Text.ToLower(s))
  {
    Text.ToLowerIdempotent(s);
  }

  /** Every successful parse is the inverse of printing. */
  lemma ParseThenPrint(s: string)
    requires FromStr(s).Ok?
    ensures ToString(FromStr(s).value) == Text.ToLower(s)
    ensures FromStr(ToString(FromStr(s).value)) == FromStr(s)
  {
  }
}

=== FILE: users.dfy ===
/**
 * The account endpoints of src/api/users.rs: the monthly quota shown with a
 * profile, the date the quota resets, and API-key creation and revocation.
 */
module Users {

  import opened Wrappers
  import Text
  import Tiers
  import Uuids
  import Calendar
  import Database
  import Errors

  /** Requests a tier may make per calendar month. */
  function MonthlyLimit(t: Tiers.Tier): (n: nat)
    ensures n in {100, 5000, 50000}
  {
    match t
    case Free => 100
    case Pro => 5000
    case Enterprise => 50000
  }

  /** Active API keys a tier may hold. */
  function MaxApiKeys(t: Tiers.Tier): (n: nat)
    ensures n in {2, 10, 50}
  {
    match t
    case Free => 2
    case Pro => 10
    case Enterprise => 50
  }

  /** Free < Pro < Enterprise */
  function TierRank(t: Tiers.Tier): nat {
    match t
    case Free => 0
    case Pro => 1
    case Enterprise => 2
  }

  /** Higher tiers get strictly larger quotas and key allowances. */
  lemma AllowancesGrowWithTier(a: Tiers.Tier, b: Tiers.Tier)
    requires TierRank(a) < TierRank(b)
    ensures MonthlyLimit(a) < MonthlyLimit(b)
    ensures MaxApiKeys(a) < MaxApiKeys(b)
  {
  }

  /** Sum of the request counters. */
  function TotalRequests(rows: seq<Database.UsageTracking>): nat {
    if |rows| == 0 then 0 else rows[0].requestsCount + TotalRequests(rows[1..])
  }

  /** `(limit - used).max(0)`: what is left of the quota. */
  function RequestsRemaining(limit: nat, used: nat): (r: nat)
    ensures r <= limit
    ensures r == 0 <==> used >= limit
    ensures used <= limit ==> r + used == limit
  {
    if used >= limit then 0 else limit - used
  }

  /** A request more never leaves more quota, and at most one less. */
  lemma RemainingDecreases(limit: nat, used: nat)
    ensures RequestsRemaining(limit, used + 1) <= RequestsRemaining(limit, used)
    ensures RequestsRemaining(limit, used) - RequestsRemaining(limit, used + 1) <= 1
  {
  }

  /** The day-1 midnight of the month after `now`'s month. */
  function ResetDate(now: Calendar.DateTime): (r: Calendar.DateTime)
    requires Calendar.ValidDateTime(now)
    ensures Calendar.ValidDateTime(r)
    ensures r.date.day == 1 && r.hour == 0 && r.minute == 0 && r.second == 0 && r.nanosecond == 0
    ensures r.date.year * 12 + r.date.month == now.date.year * 12 + now.date.month + 1
  {
    if now.date.month == 12 then Calendar.DateTime(Calendar.Date(now.date.year + 1, 1, 1), 0, 0, 0, 0)
    else Calendar.DateTime(Calendar.Date(now.date.year, now.date.month + 1, 1), 0, 0, 0, 0)
  }

  /** The reset lies strictly after the moment it is computed for. */
  lemma ResetDateInFuture(now: Calendar.DateTime)
    requires Calendar.ValidDateTime(now)
    ensures Calendar.Timestamp(ResetDate(now)) > Calendar.Timestamp(now)
  {
    var r := ResetDate(now);
    Calendar.DayNumberMonotonic(now.date, r.date);
  }

  /**
   * The reset date as `get_profile` computes it: the month is moved on with
   * `with_month`, which fails when the current day does not exist in the
   * next month, and then the current time is reported instead.
   */
  function ResetDateAsWritten(now: Calendar.DateTime): (r: Calendar.DateTime)
    requires Calendar.ValidDateTime(now)
    ensures Calendar.ValidDateTime(r)
  {
    var next :=
      if now.date.month == 12 then
        match Calendar.WithYear(now, now.date.year + 1)
        case Some(d) => Calendar.WithMonth(d, 1)
        case None => None
      else Calendar.WithMonth(now, now.date.month + 1);
    match next
    case Some(d) => Calendar.StartOfMonth(d)
    case None => now
  }

  /** The code agrees with the intended reset date exactly when the day exists in the next month. */
  lemma ResetDateAsWrittenAgrees(now: Calendar.DateTime)
    requires Calendar.ValidDateTime(now)
    ensures ResetDateAsWritten(now) == ResetDate(now) <==>
      now.date.month == 12 || now.date.day <= Calendar.DaysInMonth(now.date.year, now.date.month + 1)
  {
  }

  /** On 31 January 2024 the profile reports the current time as the reset date. */
  lemma ResetDateAsWrittenJanuary31()
    ensures var now := Calendar.DateTime(Calendar.Date(2024, 1, 31), 12, 0, 0, 0);
      ResetDateAsWritten(now) == now && ResetDate(now) == Calendar.DateTime(Calendar.Date(2024, 2, 1), 0, 0, 0, 0)
  {
  }

  datatype UsageStats = UsageStats(
    currentMonth: string, monthlyLimit: nat, requestsUsed: nat, requestsRemaining: nat,
    resetDate: Calendar.DateTime, usageByEndpoint: seq<(string, nat)>)

  /**
   * The usage block of `get_profile`: this month's counters summed, the
   * tier's quota, what is left of it, the per-endpoint counters in row order,
   * and the reset date as the code computes it.
   */
  function ProfileUsage(usage: seq<Database.UsageTracking>, userId: Uuids.Uuid, tier: Tiers.Tier, now: Calendar.DateTime)
    : (s: UsageStats)
    requires Calendar.ValidDateTime(now)
    ensures s.currentMonth == Calendar.MonthKey(now)
    ensures s.monthlyLimit == MonthlyLimit(tier)
    ensures s.requestsUsed == TotalRequests(Database.GetUserUsage(usage, userId, Calendar.MonthKey(now)))
    ensures s.requestsRemaining <= s.monthlyLimit
    ensures s.requestsRemaining + s.requestsUsed >= s.monthlyLimit
    ensures s.requestsRemaining == RequestsRemaining(s.monthlyLimit, s.requestsUsed)
    ensures s.requestsUsed >= s.monthlyLimit ==> s.requestsRemaining == 0
    ensures Calendar.ValidDateTime(s.resetDate)
    ensures s.resetDate == ResetDate(now) <==>
      now.date.month == 12 || now.date.day <= Calendar.DaysInMonth(now.date.year, now.date.month + 1)
    ensures var rows := Database.GetUserUsage(usage, userId, Calendar.MonthKey(now));
      |s.usageByEndpoint| == |rows|
      && forall i :: 0 <= i < |rows| ==> s.usageByEndpoint[i] == (rows[i].endpoint, rows[i].requestsCount)
  {
    var month := Calendar.MonthKey(now);
    var rows := Database.GetUserUsage(usage, userId, month);
    var used := TotalRequests(rows);
    ResetDateAsWrittenAgrees(now);
    UsageStats(month, MonthlyLimit(tier), used, RequestsRemaining(MonthlyLimit(tier), used), ResetDateAsWritten(now),
               seq(|rows|, i requires 0 <= i < |rows| => (rows[i].endpoint, rows[i].requestsCount)))
  }

  const KeyPrefixLength: nat := 8

  /** `chars().take(8)`: the part of a key shown for recognition. */
  function KeyPrefix(key: string): (p: string)
    ensures Text.IsPrefix(p, key)
    ensures |p| == if |key| < KeyPrefixLength then |key| else KeyPrefixLength
  {
    if |key| < KeyPrefixLength then key else key[..KeyPrefixLength]
  }

  /** Taking the prefix twice changes nothing, and keys that share eight characters share a prefix. */
  lemma KeyPrefixStable(key: string, rest: string)
    ensures KeyPrefix(KeyPrefix(key)) == KeyPrefix(key)
    ensures |key| >= KeyPrefixLength ==> KeyPrefix(key + rest) == KeyPrefix(key)
  {
    if |key| >= KeyPrefixLength {
      assert (key + rest)[..KeyPrefixLength] == key[..KeyPrefixLength];
    }
  }

  datatype CreatedKey = CreatedKey(apiKey: string, stored: Database.ApiKey, warning: string)

  /**
   * `create_api_key`: refused once the user already holds the tier's number
   * of active keys; otherwise the generated key is stored by hash and prefix
   * and returned once in full.
   */
  function CreateApiKey(
    userId: Uuids.Uuid, tier: Tiers.Tier, keys: seq<Database.ApiKey>, name: string,
    generated: string, keyHash: string, newId: Uuids.Uuid, now: int)
    : (r: Result<CreatedKey, Errors.AppError>)
    ensures r.Err? <==> |Database.ListUserApiKeys(keys, userId)| >= MaxApiKeys(tier)
    ensures r.Err? ==> r.error == Errors.BadRequest(
      "API key limit reached. Your " + Tiers.ToString(tier) + " subscription allows "
      + Text.IntToString(MaxApiKeys(tier)) + " keys.")
    ensures r.Ok? ==> (r.value.apiKey == generated && r.value.stored.keyPrefix == KeyPrefix(generated)
                       && r.value.stored.userId == userId && r.value.stored.isActive && r.value.stored.keyHash == keyHash)
  {
    var existing := Database.ListUserApiKeys(keys, userId);
    var maxKeys := MaxApiKeys(tier);
    if |existing| >= maxKeys then
      Err(Errors.BadRequest("API key limit reached. Your " + Tiers.ToString(tier) + " subscription allows "
                            + Text.IntToString(maxKeys) + " keys."))
    else
      var stored := Database.CreateApiKey(newId, userId, name, keyHash, KeyPrefix(generated), now);
      Ok(CreatedKey(generated, stored, "This is the only time you'll see the full API key. Store it securely."))
  }

  /**
   * `revoke_api_key` handler: a malformed id is a bad request, an id that
   * names none of the caller's keys is not found; otherwise the key table
   * after revocation.
   */
  function RevokeApiKey(keys: seq<Database.ApiKey>, userId: Uuids.Uuid, keyId: string)
    : (r: Result<seq<Database.ApiKey>, Errors.AppError>)
    ensures Uuids.Parse(keyId).None? ==> r == Err(Errors.BadRequest("Invalid API key ID"))
    ensures r.Ok? <==> (Uuids.Parse(keyId).Some?
                        && exists i :: 0 <= i < |keys| && Database.KeyMatches(keys[i], userId, Uuids.Parse(keyId).value))
    ensures r.Err? && Uuids.Parse(keyId).Some? ==> r == Err(Errors.NotFound("API key not found"))
    ensures r.Ok? ==> r.value == Database.RevokeApiKey(keys, userId, Uuids.Parse(keyId).value).0
  {
    match Uuids.Parse(keyId)
    case None => Err(Errors.BadRequest("Invalid API key ID"))
    case Some(id) =>
      var (after, revoked) := Database.RevokeApiKey(keys, userId, id);
      if revoked then Ok(after) else Err(Errors.NotFound("API key not found"))
  }

  /** The id printed for a key revokes exactly that key of its owner. */
  lemma RevokeByPrintedId(keys: seq<Database.ApiKey>, i: nat)
    requires i < |keys|
    ensures RevokeApiKey(keys, keys[i].userId, Uuids.ToString(keys[i].id)).Ok?
    ensures !RevokeApiKey(keys, keys[i].userId, Uuids.ToString(keys[i].id)).value[i].isActive
  {
    Uuids.RoundTrip(keys[i].id);
    assert Database.KeyMatches(keys[i], keys[i].userId, keys[i].id);
  }
}

=== FILE: uuids.dfy ===
/**
 * Textual UUIDs as the `uuid` crate parses and prints them: ids travel as
 * strings (token subjects, path segments) and are parsed back before use.
 * A UUID is its 32 hexadecimal digits; no version or variant is checked.
 */
module Uuids {

  import opened Wrappers

  type Nibble = x: int | 0 <= x < 16

  type Uuid = s: seq<Nibble> | |s| == 32 witness seq(32, _ => 0)

  function HexValue(c: char): Option<Nibble> {
    if '0' <= c <= '9' then Some(c as int - '0' as int)
    else if 'a' <= c <= 'f' then Some(c as int - 'a' as int + 10)
    else if 'A' <= c <= 'F' then Some(c as int - 'A' as int + 10)
    else None
  }

  function HexChar(n: Nibble): (c: char)
    ensures HexValue(c) == Some(n)
  {
    if n < 10 then ('0' as int + n) as char else ('a' as int + n - 10) as char
  }

  /** Every character a hexadecimal digit, either case. */
  function ParseHex(s: string): (r: Option<seq<Nibble>>)
    ensures r.Some? <==> forall i :: 0 <= i < |s| ==> HexValue(s[i]).Some?
    ensures r.Some? ==> |r.value| == |s|
  {
    if |s| == 0 then Some([])
    else
      match HexValue(s[0])
      case None => None
      case Some(n) =>
        match ParseHex(s[1..])
        case None =>
          assert exists i :: 1 <= i < |s| && HexValue(s[i]).None? by {
            var j :| 0 <= j < |s[1..]| && HexValue(s[1..][j]).None?;
            assert s[j + 1] == s[1..][j];
          }
          None
        case Some(rest) => Some([n] + rest)
  }

  function HexString(xs: seq<Nibble>): (s: string)
    ensures |s| == |xs|
  {
    if |xs| == 0 then "" else [HexChar(xs[0])] + HexString(xs[1..])
  }

  lemma {:induction false} ParseHexString(xs: seq<Nibble>)
    ensures ParseHex(HexString(xs)) == Some(xs)
  {
    if |xs| > 0 {
      var s := HexString(xs);
      assert s[1..] == HexString(xs[1..]);
      ParseHexString(xs[1..]);
      assert [xs[0]] + xs[1..] == xs;
    }
  }

  /** The 8-4-4-4-12 hyphenated form without braces or prefix. */
  function ParseHyphenated(s: string): (r: Option<Uuid>)
    ensures r.Some? ==> |s| == 36
  {
    if |s| == 36 && s[8] == '-' && s[13] == '-' && s[18] == '-' && s[23] == '-' then
      match ParseHex(s[..8] + s[9..13] + s[14..18] + s[19..23] + s[24..])
      case Some(xs) => Some(xs)
      case None => None
    else None
  }

  /** `Uuid::parse_str`: simple, hyphenated, braced and `urn:uuid:` forms. */
  function Parse(s: string): (r: Option<Uuid>)
    ensures r.Some? ==> |s| in {32, 36, 38, 45}
  {
    if |s| == 32 then
      match ParseHex(s)
      case Some(xs) => Some(xs)
      case None => None
    else if |s| == 36 then ParseHyphenated(s)
    else if |s| == 38 && s[0] == '{' && s[37] == '}' then ParseHyphenated(s[1..37])
    else if |s| == 45 && s[..9] == "urn:uuid:" then ParseHyphenated(s[9..])
    else None
  }

  /** `to_string`: lower-case hyphenated form. */
  function ToString(u: Uuid): (s: string)
    ensures |s| == 36
  {
    HexString(u[..8]) + "-" + HexString(u[8..12]) + "-" + HexString(u[12..16]) + "-"
    + HexString(u[16..20]) + "-" + HexString(u[20..])
  }

  /** Printing then parsing gives the same id back. */
  lemma RoundTrip(u: Uuid)
    ensures Parse(ToString(u)) == Some(u)
  {
    var a, b, c, d, e := HexString(u[..8]), HexString(u[8..12]), HexString(u[12..16]), HexString(u[16..20]), HexString(u[20..]);
    var s := ToString(u);
    assert s == a + "-" + b + "-" + c + "-" + d + "-" + e;
    assert s[..8] == a && s[9..13] == b && s[14..18] == c && s[19..23] == d && s[24..] == e;
    assert s[8] == '-' && s[13] == '-' && s[18] == '-' && s[23] == '-';
    HexConcat(u);
  }

  lemma HexConcat(u: Uuid)
    ensures ParseHex(HexString(u[..8]) + HexString(u[8..12]) + HexString(u[12..16]) + HexString(u[16..20]) + HexString(u[20..])) == Some(u)
  {
    HexStringAppend(u[..8], u[8..12]);
    HexStringAppend(u[..8] + u[8..12], u[12..16]);
    HexStringAppend(u[..8] + u[8..12] + u[12..16], u[16..20]);
    HexStringAppend(u[..8] + u[8..12] + u[12..16] + u[16..20], u[20..]);
    assert u[..8] + u[8..12] + u[12..16] + u[16..20] + u[20..] == u;
    ParseHexString(u);
  }

  lemma {:induction false} HexStringAppend(xs: seq<Nibble>, ys: seq<Nibble>)
    ensures HexString(xs + ys) == HexString(xs) + HexString(ys)
  {
    if |xs| == 0 {
      assert xs + ys == ys;
    } else {
      assert (xs + ys)[1..] == xs[1..] + ys;
      HexStringAppend(xs[1..], ys);
    }
  }

  /** Distinct ids print differently. */
  lemma ToStringInjective(u: Uuid, v: Uuid)
    requires ToString(u) == ToString(v)
    ensures u == v
  {
    RoundTrip(u);
    RoundTrip(v);
  }
}

=== FILE: weak_pass.dfy ===
/**
 * The common-password list of src/weak_pass.rs: the file's lines, each
 * trimmed, collected into a set, and the exact membership test against it.
 * The file's text is a parameter; reading it is not modelled.
 */
module WeakPass {

  import Text

  predicate IsNewline(c: char) { c == '\n' }

  /** `str::split('\n')`: the pieces between newlines, at least one. */
  function SplitNewlines(s: string): (parts: seq<string>)
    ensures |parts| >= 1
    ensures forall i, k :: 0 <= i < |parts| && 0 <= k < |parts[i]| ==> parts[i][k] != '\n'
    decreases |s|
  {
    var k := Text.TokenLength(s, IsNewline);
    if k == |s| then [s]
    else
      var rest := SplitNewlines(s[k + 1..]);
      var parts := [s[..k]] + rest;
      assert parts[1..] == rest;
      parts
  }

  /** Joining the pieces with newlines gives the text back. */
  lemma {:induction false} JoinSplit(s: string)
    ensures Text.Join(SplitNewlines(s), "\n") == s
    decreases |s|
  {
    var k := Text.TokenLength(s, IsNewline);
    if k < |s| {
      var rest := SplitNewlines(s[k + 1..]);
      JoinSplit(s[k + 1..]);
      assert SplitNewlines(s) == [s[..k]] + rest;
      JoinCons(s[..k], rest);
      CutAtNewline(s, k);
    }
  }

  lemma JoinCons(p: string, rest: seq<string>)
    requires |rest| >= 1
    ensures Text.Join([p] + rest, "\n") == p + "\n" + Text.Join(rest, "\n")
  {
    assert ([p] + rest)[1..] == rest;
  }

  lemma CutAtNewline(s: string, k: nat)
    requires k < |s| && s[k] == '\n'
    ensures s == s[..k] + "\n" + s[k + 1..]
  {
  }

  /** Splitting a newline-free join gives the pieces back. */
  lemma {:induction false} SplitJoin(ps: seq<string>)
    requires |ps| >= 1
    requires forall i, k :: 0 <= i < |ps| && 0 <= k < |ps[i]| ==> ps[i][k] != '\n'
    ensures SplitNewlines(Text.Join(ps, "\n")) == ps
    decreases |ps|
  {
    var s := Text.Join(ps, "\n");
    if |ps| == 1 {
      assert Text.TokenLength(s, IsNewline) == |s|;
    } else {
      var tail := Text.Join(ps[1..], "\n");
      assert s == ps[0] + "\n" + tail;
      TokenStopsAtNewline(ps[0], tail);
      assert s[|ps[0]| + 1..] == tail;
      assert s[..|ps[0]|] == ps[0];
      SplitJoin(ps[1..]);
    }
  }

  lemma {:induction false} TokenStopsAtNewline(a: string, b: string)
    requires forall k :: 0 <= k < |a| ==> a[k] != '\n'
    ensures Text.TokenLength(a + "\n" + b, IsNewline) == |a|
    decreases |a|
  {
    if |a| > 0 {
      assert (a + "\n" + b)[1..] == a[1..] + "\n" + b;
      TokenStopsAtNewline(a[1..], b);
    }
  }

  /** One `\r` before the line's `\n` belongs to the line ending. */
  function StripCarriageReturn(line: string): (r: string)
    ensures r == line || line == r + "\r"
  {
    if |line| > 0 && line[|line| - 1] == '\r' then line[..|line| - 1] else line
  }

  function StripCarriageReturns(ls: seq<string>): (r: seq<string>)
    ensures |r| == |ls|
    ensures forall i :: 0 <= i < |ls| ==> r[i] == StripCarriageReturn(ls[i])
  {
    if |ls| == 0 then [] else [StripCarriageReturn(ls[0])] + StripCarriageReturns(ls[1..])
  }

  /**
   * `str::lines()`: lines end at `\n` or `\r\n`, and a final line ending
   * adds no empty line after it; a last line without `\n` keeps its `\r`.
   */
  function Lines(s: string): (ls: seq<string>)
    ensures s == [] ==> ls == []
  {
    var parts := SplitNewlines(s);
    var n := |parts|;
    StripCarriageReturns(parts[..n - 1]) + (if parts[n - 1] == [] then [] else [parts[n - 1]])
  }

  /** No whitespace at either end. */
  predicate IsTrimmed(s: string) {
    s == [] || (!Text.IsRustWhitespace(s[0]) && !Text.IsRustWhitespace(s[|s| - 1]))
  }

  /** `str::trim`: the line less the whitespace at both its ends. */
  function TrimLine(line: string): (r: string)
    ensures IsTrimmed(r)
    ensures Text.TrimWindow(line, r, Text.LeadingRun(line, Text.IsRustWhitespace), Text.IsRustWhitespace)
  {
    Text.Trim(line, Text.IsRustWhitespace)
  }

  function TrimLines(ls: seq<string>): (r: seq<string>)
    ensures |r| == |ls|
    ensures forall i :: 0 <= i < |ls| ==> r[i] == TrimLine(ls[i])
  {
    seq(|ls|, i requires 0 <= i < |ls| => TrimLine(ls[i]))
  }

  /** The distinct elements of a sequence (`collect` into a `HashSet`). */
  function Elements<T(!new)>(s: seq<T>): (r: set<T>)
    ensures forall x :: x in r <==> x in s
    ensures |r| <= |s|
  {
    if |s| == 0 then {}
    else
      var rest := Elements(s[1..]);
      assert forall x :: x in s <==> x == s[0] || x in s[1..];
      {s[0]} + rest
  }

  /** `load_password_list` on the file's text: the set of its trimmed lines. */
  function LoadPasswordList(contents: string): (passwords: set<string>)
    ensures forall p :: p in passwords ==> IsTrimmed(p)
    ensures var ls := Lines(contents);
      (forall i :: 0 <= i < |ls| ==> TrimLine(ls[i]) in passwords)
      && (forall p :: p in passwords ==> exists i :: 0 <= i < |ls| && p == TrimLine(ls[i]))
      && |passwords| <= |ls|
  {
    TrimmedElements(Lines(contents));
    Elements(TrimLines(Lines(contents)))
  }

  lemma TrimmedElements(ls: seq<string>)
    ensures var r := Elements(TrimLines(ls));
      (forall p :: p in r ==> IsTrimmed(p))
      && (forall i :: 0 <= i < |ls| ==> TrimLine(ls[i]) in r)
      && (forall p :: p in r ==> exists i :: 0 <= i < |ls| && p == TrimLine(ls[i]))
      && |r| <= |ls|
  {
    EveryTrimmedLineListed(ls);
    OnlyTrimmedLinesListed(ls);
    ListedAreTrimmed(ls);
  }

  lemma EveryTrimmedLineListed(ls: seq<string>)
    ensures forall i :: 0 <= i < |ls| ==> TrimLine(ls[i]) in Elements(TrimLines(ls))
  {
    var trimmed := TrimLines(ls);
    forall i | 0 <= i < |ls|
      ensures TrimLine(ls[i]) in Elements(trimmed)
    {
      assert trimmed[i] == TrimLine(ls[i]);
    }
  }

  lemma OnlyTrimmedLinesListed(ls: seq<string>)
    ensures forall p :: p in Elements(TrimLines(ls)) ==> exists i :: 0 <= i < |ls| && p == TrimLine(ls[i])
  {
    var trimmed := TrimLines(ls);
    forall p | p in Elements(trimmed)
      ensures exists i :: 0 <= i < |ls| && p == TrimLine(ls[i])
    {
      var i :| 0 <= i < |trimmed| && trimmed[i] == p;
    }
  }

  lemma ListedAreTrimmed(ls: seq<string>)
    ensures forall p :: p in Elements(TrimLines(ls)) ==> IsTrimmed(p)
  {
    var trimmed := TrimLines(ls);
    forall p | p in Elements(trimmed)
      ensures IsTrimmed(p)
    {
      var i :| 0 <= i < |trimmed| && trimmed[i] == p;
      assert p == TrimLine(ls[i]);
    }
  }

  /** `is_password_weak`: exact membership, no trimming or case folding of the candidate. */
  predicate IsPasswordWeak(password: string, commonPasswords: set<string>) {
    password in commonPasswords
  }

  /** A candidate with whitespace at either end is never weak: every listed entry is trimmed. */
  lemma PaddedNeverWeak(contents: string, password: string)
    requires |password| > 0
    requires Text.IsRustWhitespace(password[0]) || Text.IsRustWhitespace(password[|password| - 1])
    ensures !IsPasswordWeak(password, LoadPasswordList(contents))
  {
  }

  /** A list written one trimmed password per line loads back as the set of those passwords. */
  lemma LoadRoundTrip(ps: seq<string>)
    requires forall i :: 0 <= i < |ps| ==> |ps[i]| > 0
    requires forall i, k :: 0 <= i < |ps| && 0 <= k < |ps[i]| ==> ps[i][k] != '\n'
    requires forall i :: 0 <= i < |ps| ==> TrimLine(ps[i]) == ps[i]
    ensures LoadPasswordList(Text.Join(ps, "\n")) == Elements(ps)
  {
    if |ps| > 0 {
      var s := Text.Join(ps, "\n");
      TrimmedEndsWithoutReturn(ps);
      LinesOfJoin(ps);
      TrimLinesUnchanged(ps);
      LoadIsElements(s, ps);
    }
  }

  lemma LoadIsElements(s: string, ps: seq<string>)
    requires TrimLines(Lines(s)) == ps
    ensures LoadPasswordList(s) == Elements(ps)
  {
  }

  /** A non-empty trimmed line does not end in `\r`, which is whitespace. */
  lemma TrimmedEndsWithoutReturn(ps: seq<string>)
    requires forall i :: 0 <= i < |ps| ==> |ps[i]| > 0
    requires forall i :: 0 <= i < |ps| ==> TrimLine(ps[i]) == ps[i]
    ensures forall i :: 0 <= i < |ps| ==> ps[i][|ps[i]| - 1] != '\r'
  {
    assert Text.IsRustWhitespace('\r');
  }

  lemma LinesOfJoin(ps: seq<string>)
    requires |ps| > 0
    requires forall i :: 0 <= i < |ps| ==> |ps[i]| > 0
    requires forall i, k :: 0 <= i < |ps| && 0 <= k < |ps[i]| ==> ps[i][k] != '\n'
    requires forall i :: 0 <= i < |ps| ==> ps[i][|ps[i]| - 1] != '\r'
    ensures Lines(Text.Join(ps, "\n")) == ps
  {
    SplitJoin(ps);
    LinesOfPieces(Text.Join(ps, "\n"), ps);
    StripPrefixUnchanged(ps, |ps| - 1);
    LastSplit(ps);
  }

  lemma LastSplit<T>(s: seq<T>)
    requires |s| > 0
    ensures s == s[..|s| - 1] + [s[|s| - 1]]
  {
  }

  /** The lines of a text whose last piece is not empty: all pieces, `\r` stripped from all but the last. */
  lemma LinesOfPieces(s: string, ps: seq<string>)
    requires SplitNewlines(s) == ps && ps[|ps| - 1] != []
    ensures Lines(s) == StripCarriageReturns(ps[..|ps| - 1]) + [ps[|ps| - 1]]
  {
  }

  lemma StripPrefixUnchanged(ls: seq<string>, m: nat)
    requires m <= |ls|
    requires forall i :: 0 <= i < |ls| ==> |ls[i]| > 0 && ls[i][|ls[i]| - 1] != '\r'
    ensures StripCarriageReturns(ls[..m]) == ls[..m]
  {
    var stripped := StripCarriageReturns(ls[..m]);
    forall i | 0 <= i < m
      ensures stripped[i] == ls[..m][i]
    {
      assert ls[..m][i] == ls[i];
    }
  }

  lemma TrimLinesUnchanged(ps: seq<string>)
    requires forall i :: 0 <= i < |ps| ==> TrimLine(ps[i]) == ps[i]
    ensures TrimLines(ps) == ps
  {
  }
}

=== FILE: wrappers.dfy ===
/**
 * Failure-carrying result types shared by every module of the model:
 * `Option` for Rust `Option` / Python `None` / JavaScript `undefined`,
 * `Result` for Rust `Result` and for handlers that return an error value.
 */
module Wrappers {

  datatype Option<+T> = None | Some(value: T) {

    function GetOr(default: T): T {
      match this
      case Some(v) => v
      case None => default
    }
  }

  datatype Result<+T, +E> = Ok(value: T) | Err(error: E) {

    predicate IsFailure() {
      Err?
    }

    function PropagateFailure<U>(): Result<U, E>
      requires Err?
    {
      Err(error)
    }

    function Extract(): T
      requires Ok?
    {
      value
    }
  }
}
